=== FILE: README.md ===
# Language-interop kernels in Dafny

This project models the C++ cores of a set of Python extension modules.

- **Reverse-mode automatic differentiation** (`autodiff` of `03-reverse-autodiff`).
  - `Var` nodes form a computation graph. Each node has a value, an accumulated gradient and backward edges.
  - Operators build the graph.
  - `backward` seeds the root, sorts the graph topologically and propagates gradients.
  - `zero_grad` clears every gradient reachable from a node.
- **Forward-mode automatic differentiation** with dual numbers (`autodiff` of `02-forward-autodiff`).
  - A dual number carries a value and a derivative.
  - Every operator applies the matching differentiation rule.
  - `var` seeds the derivative with 1; `const` seeds it with 0.
- **Memory layouts** (`layout`). A rows × cols matrix of doubles lives in one flat buffer, in row-major, column-major or tiled order. Logical cell (i, j) is mapped to a buffer position.
- **A toy tensor library** (`tensor`): `zeros`, `from_list`, `tolist`, element-wise `add` and `mul`, `matmul` and `sum`.
- **`fastmath`**: `sum_of_squares` and `dot_product`.

Modelling choices:
- Doubles are modelled as mathematical reals.
- The C math library (`sin`, `cos`, `exp`, `log`, `pow`, `sqrt`) is a record of arbitrary real functions, `RealMath.MathLib`, passed as a parameter. Every property proved holds whatever those functions are.
- Python objects reaching the extension functions are `PyObjects.Value`: ints, floats, strings, lists and tuples.
- A call that raises returns `Err` with the exception and its message.
- A call that answers `NotImplemented` returns `None`.
- The reverse-mode graph is an arena (`ReverseGraph.Graph`, a sequence of nodes). Nodes refer to their operands by position.
  - Each operation appends its result after its operands, so every edge points backwards.
  - A backward edge stores the local partial derivative its closure multiplies the result's gradient by. Values never change once built, so this number is all the closure depends on.

Modules:

| module | file | models |
|---|---|---|
| `PyObjects` | `py_objects.dfy` | Python values, exceptions, `PyFloat_AsDouble` |
| `RealMath` | `real_math.dfy` | the C math functions as parameters |
| `IndexArith` | `index_arith.dfy` | integer division and multiplication facts used by the index proofs |
| `FastMath` | `fastmath.dfy` | `sum_of_squares`, `dot_product` |
| `Tensors` | `tensor.dfy` | `struct Tensor` and the module functions of `tensor` |
| `Layouts` | `layout.dfy` | `struct LayoutTensor`, `parse_layout`, `from_list`, `zeros`, `tolist` |
| `ForwardMode` | `forward_mode.dfy` | `struct Dual`, its operators, `get_dual` and the Python entry points; a reference semantics of expressions and their derivatives |
| `ReverseGraph` | `reverse_graph.dfy` | the arena graph and reachability along backward edges |
| `ReverseOps` | `reverse_ops.dfy` | `Var(v)`, the `op_*` constructors, `get_var` and the Python entry points |
| `Topological` | `reverse_topo.dfy` | `Var::topo_sort` |
| `Backprop` | `reverse_backward.dfy` | `Var::backward` and the adjoint equation it establishes |
| `GradReset` | `reverse_zero.dfy` | `Var::zero_grad`, `zero_grad_helper` |
| `ReverseExamples` | `reverse_examples.dfy` | the worked examples of the reverse-mode test script |

## Model

| member | source | states |
|---|---|---|
| PyObjects.AsDouble | 02-extensions/02-fastmath/fastmath.cpp:52-57 | Conversion succeeds exactly for ints and floats, and gives the number itself. |
| FastMath.SquaresClosedForm | 02-extensions/02-fastmath/fastmath.cpp:16-21 | After the loop has added 0², …, n², the total times 6 is n(n + 1)(2n + 1). |
| FastMath.SumOfSquares | 02-extensions/02-fastmath/fastmath.cpp:5-22 | A negative n raises ValueError "n must be non-negative". Otherwise the result is 0² + 1² + … + n², which equals n(n + 1)(2n + 1)/6. |
| FastMath.SumOfSquaresExamples | 02-extensions/02-fastmath/test.py:4-5 | sum_of_squares(10) is 385 and sum_of_squares(100) is 338350. |
| FastMath.DotCommutes | 02-extensions/02-fastmath/fastmath.cpp:47-60 | The accumulated sum of products does not depend on the order of the two lists. |
| FastMath.DotStep | 02-extensions/02-fastmath/fastmath.cpp:47-60 | One loop iteration extends the sum over the first i pairs by a[i]·b[i]. |
| FastMath.DotProduct | 02-extensions/02-fastmath/fastmath.cpp:25-63 | Two error cases, each with its message: a non-list argument is a TypeError; lists of different lengths are a ValueError. The call succeeds exactly when both are lists of equal length whose items all convert, and then gives the sum of the pairwise products. Any other failure is the pending conversion error. |
| FastMath.DotProductExample | 02-extensions/02-fastmath/test.py:8-10 | dot_product([1, 2, 3], [4, 5, 6]) is 32. |
| Tensors.Size | 02-extensions/03-tensor-ops/tensor.cpp:13-17 | The empty shape has size 1. A vector has its length and a matrix rows × cols. The size is 0 exactly when some dimension is 0. |
| Tensors.SizeConcat | 02-extensions/03-tensor-ops/tensor.cpp:13-17 | The size of a concatenated shape is the product of the sizes of its parts. |
| Tensors.SizeOfRanks | 02-extensions/03-tensor-ops/tensor.cpp:13-17 | size([m]) = m and size([m, n]) = m·n. |
| Tensors.Zeros | 02-extensions/03-tensor-ops/tensor.cpp:189-211 | An int shape gives a vector and a tuple gives that shape. Any other argument is a TypeError "shape must be int or tuple". The buffer holds size() zeros. |
| Tensors.Grid | 02-extensions/03-tensor-ops/tensor.cpp:228-238 | The flattened nested list has rows × cols entries. |
| Tensors.GridAt | 02-extensions/03-tensor-ops/tensor.cpp:228-238 | Element j of row i lands at position i·cols + j. |
| Tensors.FromList | 02-extensions/03-tensor-ops/tensor.cpp:213-253 | A non-list is a TypeError "Expected list". A list of lists gives shape [rows, cols] from the first row's length; a flat list gives shape [n]. A conversion failure is the pending error. A successful result holds exactly size() doubles. |
| Tensors.FromListAt | 02-extensions/03-tensor-ops/tensor.cpp:228-238 | Reading position i·cols + j of a matrix built from a nested list gives element j of row i. |
| Tensors.DefaultTensorIllFormed | 02-extensions/03-tensor-ops/tensor.cpp:122-128 | A bare Tensor() has shape [], which stands for one cell, and an empty buffer, so it is not well formed. Its tolist raises NotImplementedError and matmul with it raises the 2D ValueError, on either side. |
| Tensors.Add | 02-extensions/03-tensor-ops/tensor.cpp:255-279 | Succeeds exactly on equal shapes; otherwise ValueError "Shape mismatch". The result keeps the shape and adds element by element. |
| Tensors.Mul | 02-extensions/03-tensor-ops/tensor.cpp:281-305 | Succeeds exactly on equal shapes; otherwise ValueError "Shape mismatch". The result keeps the shape and multiplies element by element. |
| Tensors.ElementwiseCommute | 02-extensions/03-tensor-ops/tensor.cpp:255-305 | add and mul give the same result, or the same error, with their arguments swapped. |
| Tensors.AddZeros | 02-extensions/03-tensor-ops/tensor.cpp:255-279 | Adding a zero tensor of the same shape gives the tensor back. |
| Tensors.Matmul | 02-extensions/03-tensor-ops/tensor.cpp:307-346 | Each error has its message: a non-2D operand is a ValueError; mismatched inner dimensions are a ValueError. Success happens exactly for m×k by k×n, giving an m×n tensor. |
| Tensors.MatmulAt | 02-extensions/03-tensor-ops/tensor.cpp:335-343 | Entry (i, j) of the product is the sum over t of a[i][t]·b[t][j]. |
| Tensors.Sum | 02-extensions/03-tensor-ops/tensor.cpp:348-363 | The loop returns the sum of every element of the buffer. |
| Tensors.SeqSumAdd | 02-extensions/03-tensor-ops/tensor.cpp:348-363 | The sum of an element-wise sum is the sum of the sums. |
| Tensors.SeqSumZeros | 02-extensions/03-tensor-ops/tensor.cpp:348-363 | A buffer of zeros sums to 0. |
| Tensors.SumOfAdd | 02-extensions/03-tensor-ops/tensor.cpp:255-363 | sum(add(a, b)) = sum(a) + sum(b). |
| Tensors.Row | 02-extensions/03-tensor-ops/tensor.cpp:154-160 | Row i of a rows × cols buffer holds positions i·cols … i·cols + cols − 1. |
| Tensors.Nested | 02-extensions/03-tensor-ops/tensor.cpp:152-161 | The nested list has one list of floats per row, holding that row's elements in order. |
| Tensors.RowsOfRows | 02-extensions/03-tensor-ops/tensor.cpp:152-161 | Lists built row by row hold element j of row i at item j of list i. |
| Tensors.ToList | 02-extensions/03-tensor-ops/tensor.cpp:143-166 | Other ranks are NotImplementedError "Only 1D and 2D tensors supported". A vector becomes the list of its floats. A matrix becomes one list per row whose item j is element i·cols + j. |
| Tensors.VectorRoundTrip | 02-extensions/03-tensor-ops/tensor.cpp:143-253 | from_list then tolist gives back any non-empty list of floats. |
| Tensors.MatrixRoundTrip | 02-extensions/03-tensor-ops/tensor.cpp:143-253 | from_list then tolist gives back any non-empty rectangular nested list of floats. |
| Tensors.TensorRoundTrip | 02-extensions/03-tensor-ops/tensor.cpp:143-253 | tolist then from_list gives back any non-empty 1D or 2D tensor. |
| Tensors.ZerosExamples | 02-extensions/03-tensor-ops/test.py:4-10 | zeros(5) is five zeros of shape [5]; zeros((2, 3)) has shape [2, 3] and six cells. |
| Tensors.VectorExamples | 02-extensions/03-tensor-ops/test.py:13-21 | add and mul of [1, 2, 3, 4] and [5, 6, 7, 8] are [6, 8, 10, 12] and [5, 12, 21, 32]; sum(v1) is 10. |
| Tensors.MatmulExample | 02-extensions/03-tensor-ops/test.py:24-30 | [[1, 2], [3, 4]] times [[5, 6], [7, 8]] lists as [[19, 22], [43, 50]]. |
| Layouts.PadCovers | 03-advanced/01-custom-dtype/layout.cpp:260-261 | The padded count is a multiple of the tile size in the range n … n + tile_size − 1. |
| Layouts.PadLeast | 03-advanced/01-custom-dtype/layout.cpp:260-261 | It is the least multiple of the tile size covering n. |
| Layouts.CellAt | 03-advanced/01-custom-dtype/layout.cpp:28-34 | For row- and column-major, every buffer position below rows × cols holds an in-range cell. |
| Layouts.IndexInBuffer | 03-advanced/01-custom-dtype/layout.cpp:28-53 | In every layout, each in-range cell's index lies inside the buffer that from_list and zeros allocate. |
| Layouts.TiledInBuffer | 03-advanced/01-custom-dtype/layout.cpp:36-50 | A tiled index lies below padded rows × padded cols. |
| Layouts.TiledIndexBound | 03-advanced/01-custom-dtype/layout.cpp:36-50 | Tile number and offset together stay below the padded buffer size. |
| Layouts.CellAtIndex | 03-advanced/01-custom-dtype/layout.cpp:28-34 | For row- and column-major, the index of a cell is below rows × cols, and the cell can be read back from it. |
| Layouts.IndexCellAt | 03-advanced/01-custom-dtype/layout.cpp:28-34 | For row- and column-major, the index map is onto the positions below rows × cols. |
| Layouts.OutOfRangeReadsStoredCell | 03-advanced/01-custom-dtype/layout.cpp:28-57 | `get` checks no bounds: in the row- and column-major layouts, a cell outside the matrix whose position is still below rows × cols reads a different, in-range cell stored at that position. |
| Layouts.NegativeRowWraps | 03-advanced/01-custom-dtype/layout.cpp:209-215 | `get` passes a negative int on as a `size_t`, so the row-major index wraps modulo 2^64: in a 3 × 4 row-major tensor, `get(-1, 5)` reads the stored cell (0, 1). |
| Layouts.TiledCellAtIndex | 03-advanced/01-custom-dtype/layout.cpp:36-50 | The tiled index can be decoded back into the cell: tile row, tile column and offset in the tile. |
| Layouts.TiledSplit | 03-advanced/01-custom-dtype/layout.cpp:41-49 | Dividing a tiled index by tile_size² gives the tile number and the remainder gives the offset in the tile. |
| Layouts.TileNumberSplit | 03-advanced/01-custom-dtype/layout.cpp:38-41 | The tile number splits back into tile row and tile column. |
| Layouts.TileOffsetSplit | 03-advanced/01-custom-dtype/layout.cpp:44-46 | The offset in the tile splits back into row and column within the tile. |
| Layouts.IndexInjective | 03-advanced/01-custom-dtype/layout.cpp:28-53 | In every layout, distinct in-range cells have distinct indices. |
| Layouts.Set | 03-advanced/01-custom-dtype/layout.cpp:59-61 | Cell (i, j) reads back the written value and every other cell is unchanged. |
| Layouts.SetKeeps | 03-advanced/01-custom-dtype/layout.cpp:59-61 | Writing one cell's position leaves the position of any other cell alone. |
| Layouts.Size | 03-advanced/01-custom-dtype/layout.cpp:63-65 | size() is rows × cols. That equals the buffer length for row- and column-major and is at most it for tiled, whose buffer is padded. |
| Layouts.PaddedBufferCovers | 03-advanced/01-custom-dtype/layout.cpp:257-263 | The padded tiled buffer has room for rows × cols cells. |
| Layouts.ParsePrintRoundTrip | 03-advanced/01-custom-dtype/layout.cpp:142-157 | Parsing the printed name of a layout gives the layout back. |
| Layouts.ParseLayoutNames | 03-advanced/01-custom-dtype/layout.cpp:142-148 | A name parses to a non-default layout exactly when it is "col_major" or "tiled". Every other string means row-major. |
| Layouts.Zeros | 03-advanced/01-custom-dtype/layout.cpp:295-309 | For non-negative dimensions (and a positive tile size when tiled): the result has the requested shape, the parsed layout and the given tile size, and every cell reads 0. |
| Layouts.ZerosCall | 03-advanced/01-custom-dtype/layout.cpp:283-310 | On any parsed ints: a tensor exists exactly when rows and cols are non-negative and, for the tiled layout, the tile size is positive. It is then the Zeros tensor; otherwise the answer is None. |
| Layouts.FillCols | 03-advanced/01-custom-dtype/layout.cpp:269-272 | After the inner loop, cells j′ < j of row i hold the converted list items and every other cell is unchanged. |
| Layouts.FillRows | 03-advanced/01-custom-dtype/layout.cpp:267-273 | After the outer loop, rows below i hold the converted list items and every other cell is unchanged. |
| Layouts.FromList | 03-advanced/01-custom-dtype/layout.cpp:229-281 | A non-list is a TypeError "Expected list". The call succeeds exactly when every cell of the first-row width converts. The result has as many rows as the list, the first row's width as column count (1 if that row is not a list), the parsed layout and the given tile size. A failed conversion of a list is a ConversionError. |
| Layouts.FromListGet | 03-advanced/01-custom-dtype/layout.cpp:266-273 | In every layout, get(i, j) after from_list is element j of row i. |
| Layouts.ToList | 03-advanced/01-custom-dtype/layout.cpp:196-207 | tolist gives rows lists of cols values, and entry j of list i is the logical cell (i, j) whatever the layout. |
| Layouts.FromListToList | 03-advanced/01-custom-dtype/layout.cpp:196-281 | tolist after from_list gives the converted input back, the same for all three layouts. |
| Layouts.SampleGet | 03-advanced/01-custom-dtype/test.py:5-21 | The 3 × 4 sample converts in every layout, and get(1, 2) is 7 row-major and column-major (and tiled with tile size 2). |
| Layouts.TiledSampleGet | 03-advanced/01-custom-dtype/test.py:23-39 | The 4 × 4 sample converts to the tiled layout, and get(1, 2) is 7 there as in the other layouts, for tile size 2 and any other positive one. |
| ForwardMode.GetDual | 03-advanced/02-forward-autodiff/autodiff.cpp:143-155 | A Dual passes through. An int or float becomes a constant with derivative 0. Anything else is refused. |
| ForwardMode.BinarySlot | 03-advanced/02-forward-autodiff/autodiff.cpp:204-234 | The slot answers NotImplemented exactly when an operand is refused. Otherwise it applies the operator to the two operands as get_dual converts them, a number becoming a constant. Two plain numbers give a derivative of 0. |
| ForwardMode.NumberOperandIsConstant | 03-advanced/02-forward-autodiff/autodiff.cpp:204-234 | A Dual x next to a number c: x ± c keeps x's derivative, x · c scales it by c, and x / c divides it by c. |
| ForwardMode.NumberOperandReflected | 03-advanced/02-forward-autodiff/autodiff.cpp:204-234 | With the number on the left, c + x keeps x's derivative and c · x scales it by c. |
| ForwardMode.NegSlot | 03-advanced/02-forward-autodiff/autodiff.cpp:236-242 | Refuses exactly what get_dual refuses; negating the result gives the operand back. |
| ForwardMode.MathCall | 03-advanced/02-forward-autodiff/autodiff.cpp:247-318 | A refused argument raises TypeError "Expected Dual or number". Otherwise the math function's rule is applied to the argument as get_dual converts it. A plain number gives a derivative of 0. |
| ForwardMode.SubInvertsAdd | 03-advanced/02-forward-autodiff/autodiff.cpp:15-22 | Subtraction undoes addition, and addition undoes subtraction, on both components. |
| ForwardMode.NegInverse | 03-advanced/02-forward-autodiff/autodiff.cpp:36-38 | Negation is an involution; a + (−a) and a − a are the constant 0. |
| ForwardMode.DivInvertsMul | 03-advanced/02-forward-autodiff/autodiff.cpp:25-33 | (a / b)·b = a on both components: the quotient rule undoes the product rule. |
| ForwardMode.ConstantsStayConstant | 03-advanced/02-forward-autodiff/autodiff.cpp:15-38 | The arithmetic operators on constants give constants with the real results. |
| ForwardMode.EvalDual | 03-advanced/02-forward-autodiff/autodiff.cpp:15-72 | Running an expression through the Dual operators computes its real value in the first component. |
| ForwardMode.ArithDual | 03-advanced/02-forward-autodiff/autodiff.cpp:15-33 | + − × ÷ applied to operands carrying the operands' values compute the node's value. |
| ForwardMode.PrimitiveDual | 03-advanced/02-forward-autodiff/autodiff.cpp:36-72 | Negation, pow, sin, cos, exp, log and sqrt applied to an operand carrying its value compute the node's value. |
| ForwardMode.VariableSeedGivesDerivative | 03-advanced/02-forward-autodiff/autodiff.cpp:15-72 | Seeding the input with derivative 1 yields, for every expression, its value and its derivative by the calculus rules. |
| ForwardMode.BinaryStep | 03-advanced/02-forward-autodiff/autodiff.cpp:15-33 | The sum, difference, product and quotient rules: an arithmetic node over correctly seeded operands is correctly seeded. |
| ForwardMode.UnaryStep | 03-advanced/02-forward-autodiff/autodiff.cpp:36-72 | The chain rule: a one-operand node over a correctly seeded operand is correctly seeded. |
| ForwardMode.ConstantSeedGivesNoDerivative | 03-advanced/02-forward-autodiff/autodiff.cpp:328-332 | Seeding the input as a constant carries no derivative through any expression. |
| ForwardMode.PolynomialExample | 03-advanced/02-forward-autodiff/test.py:6-13 | Through the operator slots, with 3 passed as a Python int: x·x + 3·x at var(2) has value 10 and derivative 7. |
| ReverseGraph.ReachBelow | 03-advanced/03-reverse-autodiff/autodiff.cpp:35-37 | A node reaches itself and only nodes created no later than it, so the graph is acyclic. |
| ReverseGraph.ReachSameStructure | 03-advanced/03-reverse-autodiff/autodiff.cpp:52-84 | Changing gradients, as backward and zero_grad do, does not change what a node reaches. |
| ReverseGraph.ReachExtend | 03-advanced/03-reverse-autodiff/autodiff.cpp:35-37 | Building further nodes does not change what an existing node reaches. |
| ReverseGraph.ReachTransitive | 03-advanced/03-reverse-autodiff/autodiff.cpp:40-49 | Whatever a reachable node reaches is reachable. |
| ReverseOps.NewVar | 03-advanced/03-reverse-autodiff/autodiff.cpp:304-311 | Appends a leaf holding the value, with gradient 0 and no edges. The existing graph is untouched. |
| ReverseOps.BuildBinary | 03-advanced/03-reverse-autodiff/autodiff.cpp:91-136 | Appends one node with the operation's value, gradient 0, and two edges: to a with ∂/∂a and to b with ∂/∂b. |
| ReverseOps.BuildUnary | 03-advanced/03-reverse-autodiff/autodiff.cpp:138-197 | Appends one node with the operation's value, gradient 0, and a single edge to the operand carrying the derivative. |
| ReverseOps.BinaryAgreesWithForward | 03-advanced/03-reverse-autodiff/autodiff.cpp:91-136 | Each binary node's value and edge partials are what forward mode computes with that operand as the variable and the other as a constant. |
| ReverseOps.QuotientOfVariable | 03-advanced/03-reverse-autodiff/autodiff.cpp:124-136 | The two partials op_div stores, 1/b and −a/b², are the quotient rule's derivatives. |
| ReverseOps.UnaryAgreesWithForward | 03-advanced/03-reverse-autodiff/autodiff.cpp:138-197 | Each one-operand node's value and partial are what the forward-mode rule computes. |
| ReverseOps.GetVar | 03-advanced/03-reverse-autodiff/autodiff.cpp:281-291 | A Var passes through unchanged. An int or float becomes a fresh constant leaf with that value. Anything else is refused. |
| ReverseOps.BinarySlot | 03-advanced/03-reverse-autodiff/autodiff.cpp:346-376 | The slot answers NotImplemented exactly when an operand is refused. Otherwise a number operand first becomes a constant leaf (the left one first), then the result node follows with the operation's value, gradient 0, and an edge to each operand (its own node or its new leaf) carrying the operator's partial for it. |
| ReverseOps.OperandsPlaced | 03-advanced/03-reverse-autodiff/autodiff.cpp:346-350 | get_var runs on a, then on b: each number becomes a constant leaf at the end of the graph, in that order, each Var keeps its position, and every position holds its operand's value. |
| ReverseOps.NegSlot | 03-advanced/03-reverse-autodiff/autodiff.cpp:378-384 | Answers NotImplemented exactly when the operand is refused. Otherwise, after a constant leaf for a number operand, appends the negated value with gradient 0 and one edge to the operand's node of partial −1. |
| ReverseOps.MathCall | 03-advanced/03-reverse-autodiff/autodiff.cpp:389-448 | A refused argument raises TypeError "Expected Var or number". Otherwise, after a constant leaf for a number argument, it appends a node with the function's value, gradient 0 and one edge to the argument's node carrying the function's derivative there. |
| Topological.EmittedClosed | 03-advanced/03-reverse-autodiff/autodiff.cpp:40-49 | Everything reachable from an emitted node has already been emitted. |
| Topological.VisitSpec | 03-advanced/03-reverse-autodiff/autodiff.cpp:40-49 | topo_sort on v emits exactly the not-yet-emitted nodes v reaches, each after its operands. It extends the order without reordering it. |
| Topological.VisitEdgesSpec | 03-advanced/03-reverse-autodiff/autodiff.cpp:44-46 | The loop over edges k.. emits exactly what the remaining operands reach. |
| Topological.TopoSortSpec | 03-advanced/03-reverse-autodiff/autodiff.cpp:52-55 | The order holds each node reachable from the root exactly once, after all its operands, and nothing else. The root comes last. |
| Backprop.Accumulate | 03-advanced/03-reverse-autodiff/autodiff.cpp:64-65 | The input's gradient grows by the contribution and nothing else changes. |
| Backprop.Propagate | 03-advanced/03-reverse-autodiff/autodiff.cpp:63-66 | Sweeping one node changes gradients only, never values or edges. |
| Backprop.PropagateSpec | 03-advanced/03-reverse-autodiff/autodiff.cpp:63-66 | The node keeps its own gradient. Every other node gains the node's gradient times the partials of the edges pointing to it. |
| Backprop.Sweep | 03-advanced/03-reverse-autodiff/autodiff.cpp:62-67 | The reverse sweep changes gradients only. |
| Backprop.SweepUntouched | 03-advanced/03-reverse-autodiff/autodiff.cpp:62-67 | A node that is not an operand of any swept node keeps its gradient. |
| Backprop.OperandsBefore | 03-advanced/03-reverse-autodiff/autodiff.cpp:40-49 | A node not yet in the order is no operand of the last node in it. |
| Backprop.SweepKeepsLast | 03-advanced/03-reverse-autodiff/autodiff.cpp:62-67 | The sweep of the earlier nodes never writes to a later node's gradient. |
| Backprop.SweepSpec | 03-advanced/03-reverse-autodiff/autodiff.cpp:62-67 | After sweeping, each gradient is its old value plus, over every swept node, that node's final gradient times its edge partials to it. |
| Backprop.SeqContribIsRange | 03-advanced/03-reverse-autodiff/autodiff.cpp:62-67 | The accumulated contributions do not depend on the order in which distinct nodes are swept. |
| Backprop.NothingSentOutside | 03-advanced/03-reverse-autodiff/autodiff.cpp:62-67 | Nodes the root does not reach, and the root itself, receive nothing from the sweep. |
| Backprop.Backward | 03-advanced/03-reverse-autodiff/autodiff.cpp:52-69 | backward changes gradients only. It sets the root's gradient to 1 and leaves unreachable nodes' gradients alone. |
| Backprop.BackwardAdjoint | 03-advanced/03-reverse-autodiff/autodiff.cpp:52-69 | The adjoint equation. Every other reachable node ends with its old gradient plus, over every reachable node that uses it, that node's final gradient times the partial. |
| GradReset.ZeroVisit | 03-advanced/03-reverse-autodiff/autodiff.cpp:77-84 | The helper changes gradients only. |
| GradReset.ZeroEdges | 03-advanced/03-reverse-autodiff/autodiff.cpp:81-83 | The loop over edges changes gradients only. |
| GradReset.ZeroVisitSpec | 03-advanced/03-reverse-autodiff/autodiff.cpp:77-84 | zero_grad_helper on v clears each unvisited node v reaches exactly once and leaves every other gradient alone. |
| GradReset.ZeroEdgesSpec | 03-advanced/03-reverse-autodiff/autodiff.cpp:81-83 | The loop over edges k.. clears what the remaining operands reach. |
| GradReset.ZeroGradPass | 03-advanced/03-reverse-autodiff/autodiff.cpp:72-84 | Every node the root reaches is cleared exactly once. Exactly those gradients become 0. |
| GradReset.ZeroGrad | 03-advanced/03-reverse-autodiff/autodiff.cpp:72-75 | zero_grad sets exactly the reachable gradients to 0 and changes nothing else. |
| GradReset.ZeroGradIdempotent | 03-advanced/03-reverse-autodiff/autodiff.cpp:72-84 | Clearing twice is clearing once. |
| GradReset.ZeroGradUndoesBackward | 03-advanced/03-reverse-autodiff/autodiff.cpp:52-84 | zero_grad after backward from the same root gives what zero_grad alone gives. |
| ReverseExamples.SumTimesXGradients | 03-advanced/03-reverse-autodiff/test.py:9-18 | f = (x + y)·x at (2, 3) is 10 with df/dx = 7 and df/dy = 2. A second backward without zero_grad leaves 16 and 6. |
| ReverseExamples.SquarePlusCubeGradient | 03-advanced/03-reverse-autodiff/test.py:24-33 | f = x² + x³ at 2 is 12 with f′ = 16. |
| ReverseExamples.NeuronGradients | 03-advanced/03-reverse-autodiff/test.py:83-94 | f = (x·w + b)² at (2, 3, 1) is 49 with gradients 42, 28, 14. |
| ReverseExamples.SquareBackwardZeroBackward | 03-advanced/03-reverse-autodiff/test.py:70-78 | For x·x at 3: backward gives 6; zero_grad then gives 0; a further backward gives 6 again. Two backward calls without zero_grad give 12. |

## Left out

- Floating point: doubles are reals. There is no rounding, overflow to infinity or NaN.
- Division and log by zero: the real model cannot divide by 0.
  - The divisions by a Dual or Var value (`/`, `log`, `sqrt`) carry a nonzero precondition, and so do `op_div` and `op_log`. The C++ code yields infinities or NaN there instead.
  - `Defined` states the same for whole expressions.
- Math functions: `sin`, `cos`, `exp`, `log`, `pow`, `sqrt` are uninterpreted parameters. Nothing about their values, or their derivatives being each other, is assumed. The calculus rules are stated in terms of them.
- Integer widths: `size_t`, `Py_ssize_t`, `int` and `long` arithmetic is unbounded.
  - Wrap-around of rows × cols or of a tensor's size is not modelled.
  - `PyLong_AsLong` overflow on huge ints is not modelled.
  - Python bools are not modelled as numbers.
- `PyArg_ParseTuple` argument parsing is left out: the wrong argument count or types for `sum_of_squares`, `get`, `Var(v)` or `Dual(v, g)`, and keyword parsing. The model takes the parsed arguments.
- Allocation failure is not modelled: `tp_alloc` and `PyObject_New` returning NULL in `make_pyvar`, `make_pydual` and `make_pytensor`.
- Object-lifetime code is left out: `tp_dealloc` and reference counting. The reverse-mode graph is an arena that keeps every node, so the model describes only graphs whose nodes are all alive. In the source, `Var_dealloc` (autodiff.cpp:313-317) deletes the C++ node while later nodes' edges and backward closures still point at it. The reverse-mode test script drops such intermediates before `backward`, for example `x * w` in `z = x * w + b` (test.py:87) and the temporaries at test.py:41 and 57. The source's own runs of those examples read freed memory, so the ReverseExamples lemmas give the arena's gradients, not guaranteed program output.
  - ReverseOps.BinarySlot: the source allocates a constant leaf for the first operand even when the second is refused, and leaks it. The model returns `None` with the graph unchanged.
- `repr`, the `shape`, `val`, `grad` and `layout_name` getters, and `memory_view` are left out. They only read fields the model exposes directly.
- The `get_tensor` type check of `add`, `mul`, `matmul`, `sum` is left out: the model's arguments are tensors already. The same goes for the `LayoutTensor` type check.
- PyObjects.AsDouble: every failed element conversion (`PyFloat_AsDouble`, `PyList_GetItem`) collapses into one `ConversionError`. The exact exception class and message are not kept.
- Empty lists are preconditions:
  - Layouts.FromList requires a non-empty list. For an empty list the source's `PyList_GetItem(list, 0)` returns NULL, and the next line passes that NULL to `PyList_Check`.
  - Tensors.FromList requires a non-empty list for the same reason.
- Tensors.Zeros requires a non-negative int shape, or a tuple of them. On a negative int or a non-int tuple item the source's `PyLong_AsSize_t` fails with (size_t)-1, which is never checked, and the shape holds 2^64 − 1 for that dimension. The outcome depends on the wrapped product of the dimensions. For a single dimension such as `zeros(-1)` the buffer resize asks for an impossible size. For a tuple whose wrapped product is small, the resize succeeds and a tensor is returned while the conversion's exception is still pending: `zeros((-1, 0))` gets 0 cells and `zeros((-1, -1))` gets 1 cell.
- Layouts.Zeros and Layouts.FromList require a positive `tile_size` for the tiled layout. The source divides by it.
- Layouts.ZerosCall: for a negative `rows` or `cols`, or a tile size below 1 in the tiled layout, the model answers `None` and promises nothing more. The source stores the ints into `size_t` fields and sizes the buffer from `rows * cols` unchecked. `zeros(-1, 3)` asks for 2^64 − 3 cells, which cannot be allocated. `zeros(-2, -3)` allocates 6 cells under a recorded row count of 2^64 − 2. A zero tile size divides by zero.
- Tensors.Add and Tensors.Mul require well-formed tensors, whose buffers hold size() cells. A bare `Tensor()` is not one (Tensors.DefaultTensorIllFormed): its shape [] means one cell but its buffer is empty, so `add` or `mul` of two of them reads past the buffer in the source. Tensors.Matmul and Tensors.ToList require well-formedness only on the paths that read the buffer.
- Layouts.Get requires an in-range cell, `0 <= i < rows` and `0 <= j < cols`. The source checks no bounds: `get` reads whatever position `index(i, j)` names, and `LayoutTensor_get` passes the parsed ints straight through (layout.cpp:28-57, 209-215).
  - Some cells outside the matrix land inside the buffer and are read silently (Layouts.OutOfRangeReadsStoredCell). In the row-major 3 × 4 sample, `get(0, 5)` reads position 5, which is cell (1, 1) = 6.0. Column-major `get(5, 0)` reads position 5, cell (2, 1). A tiled cell in the padding reads 0.0. Only finitely many out-of-range cells do this; all others read past the buffer.
  - Negative ints are converted to `size_t`, and the index arithmetic wraps modulo 2^64, so a negative index may land anywhere, inside the buffer or past it. In the row-major 3 × 4 sample, `get(-1, 5)` computes (2^64 − 1) · 4 + 5, which wraps to position 1, cell (0, 1) = 2.0 (Layouts.NegativeRowWraps).
- The forward and reverse `Dual(v, g)` / `Var(v)` constructors are `ForwardMode.Dual` and `ReverseOps.NewVar` on already parsed doubles.
- `norm` of `fastmath` is not modelled.
- The benchmark functions of `layout` (`benchmark_row_sum`, `benchmark_col_sum`) are not modelled. They only time reads.
- The embedding examples and `hello` are not part of this model.
- Reverse mode's `sqrt` does not exist in the source, so it is absent here. Forward mode's `sqrt` is modelled.

=== FILE: fastmath.dfy ===
/** `sum_of_squares` and `dot_product` of 02-extensions/02-fastmath/fastmath.cpp. */
module FastMath {
  import opened PyObjects

  /** 0² + 1² + ... + (i - 1)²: what the loop has added before step `i`. */
  function SquaresBelow(i: nat): nat
  {
    if i == 0 then 0 else SquaresBelow(i - 1) + (i - 1) * (i - 1)
  }

  /** The closed form of the sum of the first squares. */
  lemma {:induction false} SquaresClosedForm(i: nat)
    ensures 6 * SquaresBelow(i + 1) == i * (i + 1) * (2 * i + 1)
  {
    if i > 0 {
      SquaresClosedForm(i - 1);
      assert SquaresBelow(i + 1) == SquaresBelow(i) + i * i;
      CubicStep(i);
    }
  }

  lemma CubicStep(i: int)
    ensures (i - 1) * i * (2 * i - 1) + 6 * (i * i) == i * (i + 1) * (2 * i + 1)
  {
  }

  /** `fastmath.sum_of_squares(n)`: 0² + 1² + ... + n², which is
      n(n + 1)(2n + 1) / 6; a negative `n` is a ValueError. */
  method SumOfSquares(n: int) returns (r: Result<int>)
    ensures n < 0 ==> r == Err(ValueError("n must be non-negative"))
    ensures n >= 0 ==> r == Ok(SquaresBelow(n + 1))
    ensures n >= 0 ==> r == Ok(n * (n + 1) * (2 * n + 1) / 6)
  {
    if n < 0 {
      return Err(ValueError("n must be non-negative"));
    }
    var result := 0;
    var i := 0;
    while i <= n
      invariant 0 <= i <= n + 1
      invariant result == SquaresBelow(i)
    {
      result := result + i * i;
      i := i + 1;
    }
    SquaresClosedForm(n);
    return Ok(result);
  }

  /** The two values printed by 02-extensions/02-fastmath/test.py. */
  lemma SumOfSquaresExamples()
    ensures SquaresBelow(11) == 385
    ensures SquaresBelow(101) == 338350
  {
    SquaresClosedForm(10);
    SquaresClosedForm(100);
  }

  /** x[0]·y[0] + ... + x[i-1]·y[i-1], added from the front. */
  function Dot(xs: seq<real>, ys: seq<real>): real
    requires |xs| == |ys|
  {
    if |xs| == 0 then 0.0
    else Dot(xs[..|xs| - 1], ys[..|ys| - 1]) + xs[|xs| - 1] * ys[|ys| - 1]
  }

  /** The dot product does not depend on the order of its arguments. */
  lemma {:induction false} DotCommutes(xs: seq<real>, ys: seq<real>)
    requires |xs| == |ys|
    ensures Dot(xs, ys) == Dot(ys, xs)
    decreases |xs|
  {
    if |xs| > 0 {
      DotCommutes(xs[..|xs| - 1], ys[..|ys| - 1]);
    }
  }

  /** `fastmath.dot_product(a, b)`: two lists of the same length whose items
      all convert to doubles give the sum of the pairwise products; a
      non-list is a TypeError, different lengths a ValueError and an item
      that does not convert stops the loop with that conversion error. */
  method DotProduct(a: Value, b: Value) returns (r: Result<real>)
    ensures !a.List? || !b.List? ==> r == Err(TypeError("Both arguments must be lists"))
    ensures a.List? && b.List? && |a.items| != |b.items| ==>
              r == Err(ValueError("Lists must have same length"))
    ensures r.Ok? <==>
              a.List? && b.List? && |a.items| == |b.items| && AllNumbers(a.items) && AllNumbers(b.items)
    ensures r.Ok? ==> r.value == Dot(Doubles(a.items), Doubles(b.items))
    ensures r.Err? && a.List? && b.List? && |a.items| == |b.items| ==> r.error == ConversionError
  {
    if !a.List? || !b.List? {
      return Err(TypeError("Both arguments must be lists"));
    }
    if |a.items| != |b.items| {
      return Err(ValueError("Lists must have same length"));
    }
    var n := |a.items|;
    var result := 0.0;
    var i := 0;
    while i < n
      invariant 0 <= i <= n
      invariant AllNumbers(a.items[..i]) && AllNumbers(b.items[..i])
      invariant result == Dot(Doubles(a.items[..i]), Doubles(b.items[..i]))
    {
      var va := AsDouble(a.items[i]);
      var vb := AsDouble(b.items[i]);
      if va.None? || vb.None? {
        return Err(ConversionError);
      }
      DotStep(a.items, b.items, i);
      result := result + va.value * vb.value;
      i := i + 1;
    }
    assert a.items[..n] == a.items && b.items[..n] == b.items;
    return Ok(result);
  }

  /** One more step of the loop extends the converted prefixes by one pair. */
  lemma DotStep(xs: seq<Value>, ys: seq<Value>, i: nat)
    requires |xs| == |ys| && i < |xs|
    requires AllNumbers(xs[..i]) && AllNumbers(ys[..i])
    requires AsDouble(xs[i]).Some? && AsDouble(ys[i]).Some?
    ensures AllNumbers(xs[..i + 1]) && AllNumbers(ys[..i + 1])
    ensures Dot(Doubles(xs[..i + 1]), Doubles(ys[..i + 1])) ==
            Dot(Doubles(xs[..i]), Doubles(ys[..i])) + AsDouble(xs[i]).value * AsDouble(ys[i]).value
  {
    var dx, dy := Doubles(xs[..i + 1]), Doubles(ys[..i + 1]);
    assert dx[..i] == Doubles(xs[..i]);
    assert dy[..i] == Doubles(ys[..i]);
  }

  /** `dot_product([1.0, 2.0, 3.0], [4.0, 5.0, 6.0])` of test.py is 32. */
  lemma DotProductExample()
    ensures AllNumbers(Floats([1.0, 2.0, 3.0])) && AllNumbers(Floats([4.0, 5.0, 6.0]))
    ensures Dot(Doubles(Floats([1.0, 2.0, 3.0])), Doubles(Floats([4.0, 5.0, 6.0]))) == 32.0
  {
    assert [1.0, 2.0, 3.0][..2] == [1.0, 2.0] && [4.0, 5.0, 6.0][..2] == [4.0, 5.0];
    assert [1.0, 2.0][..1] == [1.0] && [4.0, 5.0][..1] == [4.0];
    assert [1.0][..0] == [] && [4.0][..0] == [];
    assert Dot([1.0], [4.0]) == 4.0;
    assert Dot([1.0, 2.0], [4.0, 5.0]) == 14.0;
  }
}

=== FILE: forward_mode.dfy ===
/** Forward-mode automatic differentiation with dual numbers
    (03-advanced/02-forward-autodiff/autodiff.cpp). A dual number carries a
    value and its derivative with respect to one seeded input; every
    operation applies the matching differentiation rule to the second
    component. */
module ForwardMode {
  import opened RealMath
  import opened PyObjects

  datatype Dual = Dual(val: real, grad: real)

  /** `autodiff.var(v)`: the differentiation variable, seeded with derivative 1. */
  function Variable(v: real): Dual { Dual(v, 1.0) }

  /** `autodiff.const(v)`: a constant, derivative 0. */
  function Constant(v: real): Dual { Dual(v, 0.0) }

  /** An operand of a Dual operator: a Dual object or some other Python object. */
  datatype Operand = DualArg(d: Dual) | Object(v: Value)

  /** `get_dual`: Dual objects pass through, Python numbers are promoted to
      constants, anything else is refused (the operator then answers
      NotImplemented). */
  function GetDual(o: Operand): (r: Option<Dual>)
    ensures o.DualArg? ==> r == Some(o.d)
    ensures o.Object? ==> (r.Some? <==> AsDouble(o.v).Some?)
    ensures o.Object? && r.Some? ==> r.value == Constant(AsDouble(o.v).value)
  {
    match o
    case DualArg(d) => Some(d)
    case Object(Float(x)) => Some(Dual(x, 0.0))
    case Object(Int(i)) => Some(Dual(i as real, 0.0))
    case Object(_) => None
  }

  // ------------------------------------------------------------------
  // Operators. Real division needs a nonzero divisor, so the operators
  // that divide say so (the C++ code yields IEEE infinities/NaN instead).
  // ------------------------------------------------------------------

  function Add(a: Dual, b: Dual): Dual { Dual(a.val + b.val, a.grad + b.grad) }

  function Sub(a: Dual, b: Dual): Dual { Dual(a.val - b.val, a.grad - b.grad) }

  function Mul(a: Dual, b: Dual): Dual
  {
    Dual(a.val * b.val, ProductRule(a.val, a.grad, b.val, b.grad))
  }

  /** The product rule: the derivative of u v is u' v + u v'. */
  function ProductRule(u: real, du: real, v: real, dv: real): real
  {
    du * v + u * dv
  }

  /** The chain rule: the derivative of f(u) is f'(u) u'. */
  function ChainRule(outer: real, du: real): real
  {
    outer * du
  }

  function Div(a: Dual, b: Dual): Dual
    requires b.val != 0.0
  {
    Dual(a.val / b.val, QuotientRule(a.val, a.grad, b.val, b.grad))
  }

  /** The quotient rule: the derivative of u/v is (u' v - u v') / v². */
  function QuotientRule(u: real, du: real, v: real, dv: real): real
    requires v != 0.0
  {
    SquareNonzero(v);
    (du * v - u * dv) / (v * v)
  }

  lemma SquareNonzero(v: real)
    requires v != 0.0
    ensures v * v != 0.0
  {
    if v < 0.0 {
      assert (-v) * (-v) > 0.0;
    } else {
      assert v * v > 0.0 * v;
    }
  }

  function Neg(a: Dual): Dual { Dual(-a.val, -a.grad) }

  function Sin(m: MathLib, x: Dual): Dual { Dual(m.sin(x.val), ChainRule(m.cos(x.val), x.grad)) }

  function Cos(m: MathLib, x: Dual): Dual { Dual(m.cos(x.val), ChainRule(-m.sin(x.val), x.grad)) }

  function Exp(m: MathLib, x: Dual): Dual
  {
    var e := m.exp(x.val);
    Dual(e, ChainRule(e, x.grad))
  }

  function Log(m: MathLib, x: Dual): Dual
    requires x.val != 0.0
  {
    Dual(m.log(x.val), x.grad / x.val)
  }

  function Pow(m: MathLib, x: Dual, n: real): Dual
  {
    Dual(m.pow(x.val, n), ChainRule(n * m.pow(x.val, n - 1.0), x.grad))
  }

  function Sqrt(m: MathLib, x: Dual): Dual
    requires m.sqrt(x.val) != 0.0
  {
    var s := m.sqrt(x.val);
    Dual(s, x.grad / (2.0 * s))
  }

  // ------------------------------------------------------------------
  // The Python-level entry points: operator slots and module functions.
  // ------------------------------------------------------------------

  datatype BinaryOp = AddOp | SubOp | MulOp | DivOp

  /** The arithmetic a binary operator slot applies once both operands are Duals. */
  function ApplyBinary(op: BinaryOp, a: Dual, b: Dual): Dual
    requires op.DivOp? ==> b.val != 0.0
  {
    match op
    case AddOp => Add(a, b)
    case SubOp => Sub(a, b)
    case MulOp => Mul(a, b)
    case DivOp => Div(a, b)
  }

  /** A divisor that the real model cannot divide by. */
  predicate DividesByZero(op: BinaryOp, b: Operand)
  {
    op.DivOp? && GetDual(b).Some? && GetDual(b).value.val == 0.0
  }

  /** `Dual_add`/`Dual_sub`/`Dual_mul`/`Dual_div`: both operands go through
      `get_dual`; if either is refused the slot answers NotImplemented
      (`None`), otherwise it applies the operator. Two plain numbers give a
      constant. */
  function BinarySlot(op: BinaryOp, a: Operand, b: Operand): (r: Option<Dual>)
    requires !DividesByZero(op, b)
    ensures r.Some? <==> GetDual(a).Some? && GetDual(b).Some?
    ensures r.Some? ==> r.value == ApplyBinary(op, GetDual(a).value, GetDual(b).value)
    ensures r.Some? && a.Object? && b.Object? ==> r.value.grad == 0.0
  {
    match (GetDual(a), GetDual(b))
    case (Some(da), Some(db)) =>
      ConstantsStayConstant(da.val, db.val);
      Some(ApplyBinary(op, da, db))
    case _ => None
  }

  /** A Python number next to a Dual contributes its value and no
      derivative: d(x ± c) = dx, d(x·c) = c·dx and d(x/c) = dx/c. */
  lemma NumberOperandIsConstant(op: BinaryOp, d: Dual, v: Value)
    requires AsDouble(v).Some?
    requires op.DivOp? ==> AsDouble(v).value != 0.0
    ensures var c := AsDouble(v).value;
            BinarySlot(op, DualArg(d), Object(v)) ==
              Some(match op
                   case AddOp => Dual(d.val + c, d.grad)
                   case SubOp => Dual(d.val - c, d.grad)
                   case MulOp => Scale(d, c)
                   case DivOp => Dual(d.val / c, d.grad / c))
  {
    var c := AsDouble(v).value;
    assert GetDual(Object(v)) == Some(Constant(c));
    match op
    case AddOp =>
    case SubOp =>
    case MulOp => ScaleByConstant(d, c);
    case DivOp => QuotientByConstant(d.val, d.grad, c);
  }

  /** The reflected `c + x` and `c * x`, with the number on the left. */
  lemma NumberOperandReflected(d: Dual, v: Value)
    requires AsDouble(v).Some?
    ensures var c := AsDouble(v).value;
            BinarySlot(AddOp, Object(v), DualArg(d)) == Some(Dual(c + d.val, d.grad)) &&
            BinarySlot(MulOp, Object(v), DualArg(d)) == Some(Scale(d, c))
  {
    var c := AsDouble(v).value;
    assert GetDual(Object(v)) == Some(Constant(c));
    ScaleByConstant(d, c);
  }

  /** A dual number with value and derivative both multiplied by `c`. */
  function Scale(d: Dual, c: real): Dual { Dual(d.val * c, d.grad * c) }

  /** Multiplying by a constant, on either side, scales the derivative. */
  lemma ScaleByConstant(d: Dual, c: real)
    ensures Mul(d, Constant(c)) == Scale(d, c)
    ensures Mul(Constant(c), d) == Scale(d, c)
  {
    assert ProductRule(d.val, d.grad, c, 0.0) == d.grad * c;
    assert ProductRule(c, 0.0, d.val, d.grad) == c * d.grad;
  }

  /** Dividing by a constant divides the derivative by it. */
  lemma QuotientByConstant(u: real, du: real, c: real)
    requires c != 0.0
    ensures QuotientRule(u, du, c, 0.0) == du / c
  {
    SquareNonzero(c);
    assert (1.0 / c) * (c * c) == c;
    assert QuotientRule(u, du, c, 0.0) == du * (1.0 / c);
    ScaleByReciprocal(du, c);
  }

  lemma ScaleByReciprocal(x: real, c: real)
    requires c != 0.0
    ensures x * (1.0 / c) == x / c
  {
  }

  /** `Dual_neg`. */
  function NegSlot(a: Operand): (r: Option<Dual>)
    ensures r.Some? <==> GetDual(a).Some?
    ensures r.Some? ==> Neg(r.value) == GetDual(a).value
  {
    match GetDual(a)
    case Some(d) => NegInverse(d); Some(Neg(d))
    case None => None
  }

  datatype MathFn = SinFn | CosFn | ExpFn | LogFn | PowFn(n: real) | SqrtFn

  /** The argument lies where the real model of `f` is defined. */
  predicate InDomain(m: MathLib, f: MathFn, x: real)
  {
    match f
    case LogFn => x != 0.0
    case SqrtFn => m.sqrt(x) != 0.0
    case _ => true
  }

  function ApplyMath(m: MathLib, f: MathFn, x: Dual): Dual
    requires InDomain(m, f, x.val)
  {
    match f
    case SinFn => Sin(m, x)
    case CosFn => Cos(m, x)
    case ExpFn => Exp(m, x)
    case LogFn => Log(m, x)
    case PowFn(n) => Pow(m, x, n)
    case SqrtFn => Sqrt(m, x)
  }

  /** `autodiff.sin`, `cos`, `exp`, `log`, `pow`, `sqrt`: the argument goes
      through `get_dual`; a refused argument raises TypeError. A plain
      number argument yields a constant. */
  function MathCall(m: MathLib, f: MathFn, o: Operand): (r: Result<Dual>)
    requires GetDual(o).Some? ==> InDomain(m, f, GetDual(o).value.val)
    ensures r.Err? <==> GetDual(o).None?
    ensures r.Err? ==> r.error == TypeError("Expected Dual or number")
    ensures r.Ok? ==> r.value == ApplyMath(m, f, GetDual(o).value)
    ensures r.Ok? && o.Object? ==> r.value.grad == 0.0
  {
    match GetDual(o)
    case Some(d) => Ok(ApplyMath(m, f, d))
    case None => Err(TypeError("Expected Dual or number"))
  }

  // ------------------------------------------------------------------
  // Algebraic laws: the operators undo each other the way the real
  // operations do, on both components.
  // ------------------------------------------------------------------

  /** Subtraction undoes addition. */
  lemma SubInvertsAdd(a: Dual, b: Dual)
    ensures Sub(Add(a, b), b) == a
    ensures Add(Sub(a, b), b) == a
  {
  }

  /** Negation is an involution and an additive inverse. */
  lemma NegInverse(a: Dual)
    ensures Neg(Neg(a)) == a
    ensures Add(a, Neg(a)) == Constant(0.0)
    ensures Sub(a, b := a) == Constant(0.0)
  {
  }

  /** Multiplying a quotient by its divisor gives back the dividend: the
      quotient rule undoes the product rule. */
  lemma DivInvertsMul(a: Dual, b: Dual)
    requires b.val != 0.0
    ensures Mul(Div(a, b), b) == a
  {
    QuotientThenProduct(a.val, a.grad, b.val, b.grad);
  }

  lemma QuotientThenProduct(u: real, du: real, v: real, dv: real)
    requires v != 0.0
    ensures v * v != 0.0
    ensures (u / v) * v == u
    ensures ((du * v - u * dv) / (v * v)) * v + (u / v) * dv == du
  {
    SquareNonzero(v);
    calc {
      ((du * v - u * dv) / (v * v)) * v + (u / v) * dv;
      (du * v - u * dv) / v + (u * dv) / v;
      (du * v) / v;
      du;
    }
  }

  /** Constants form a closed sub-algebra: operating on constants never
      produces a derivative. */
  lemma ConstantsStayConstant(x: real, y: real)
    ensures Add(Constant(x), Constant(y)) == Constant(x + y)
    ensures Sub(Constant(x), Constant(y)) == Constant(x - y)
    ensures Mul(Constant(x), Constant(y)) == Constant(x * y)
    ensures y != 0.0 ==> Div(Constant(x), Constant(y)) == Constant(x / y)
    ensures Neg(Constant(x)) == Constant(-x)
  {
  }

  // ------------------------------------------------------------------
  // Reference semantics: expressions in one variable, their real value
  // and their symbolic derivative by the rules of calculus.
  // ------------------------------------------------------------------

  datatype Expr =
    | X
    | Lit(c: real)
    | Plus(l: Expr, r: Expr)
    | Minus(l: Expr, r: Expr)
    | Times(l: Expr, r: Expr)
    | Over(l: Expr, r: Expr)
    | Negate(e: Expr)
    | Power(e: Expr, n: real)
    | SinOf(e: Expr)
    | CosOf(e: Expr)
    | ExpOf(e: Expr)
    | LogOf(e: Expr)
    | SqrtOf(e: Expr)

  /** The expression has no division by zero at `x` (the only places where
      the real model and the floating-point source part ways). */
  predicate Defined(m: MathLib, e: Expr, x: real)
  {
    match e
    case X => true
    case Lit(_) => true
    case Plus(l, r) => Defined(m, l, x) && Defined(m, r, x)
    case Minus(l, r) => Defined(m, l, x) && Defined(m, r, x)
    case Times(l, r) => Defined(m, l, x) && Defined(m, r, x)
    case Over(l, r) => Defined(m, l, x) && Defined(m, r, x) && Eval(m, r, x) != 0.0
    case Negate(a) => Defined(m, a, x)
    case Power(a, _) => Defined(m, a, x)
    case SinOf(a) => Defined(m, a, x)
    case CosOf(a) => Defined(m, a, x)
    case ExpOf(a) => Defined(m, a, x)
    case LogOf(a) => Defined(m, a, x) && Eval(m, a, x) != 0.0
    case SqrtOf(a) => Defined(m, a, x) && m.sqrt(Eval(m, a, x)) != 0.0
  }

  /** The real value of `e` at `x`. */
  function Eval(m: MathLib, e: Expr, x: real): real
  {
    match e
    case X => x
    case Lit(c) => c
    case Plus(l, r) => Eval(m, l, x) + Eval(m, r, x)
    case Minus(l, r) => Eval(m, l, x) - Eval(m, r, x)
    case Times(l, r) => Eval(m, l, x) * Eval(m, r, x)
    case Over(l, r) =>
      var d := Eval(m, r, x);
      if d == 0.0 then 0.0 else Eval(m, l, x) / d
    case Negate(a) => -Eval(m, a, x)
    case Power(a, n) => m.pow(Eval(m, a, x), n)
    case SinOf(a) => m.sin(Eval(m, a, x))
    case CosOf(a) => m.cos(Eval(m, a, x))
    case ExpOf(a) => m.exp(Eval(m, a, x))
    case LogOf(a) => m.log(Eval(m, a, x))
    case SqrtOf(a) => m.sqrt(Eval(m, a, x))
  }

  /** The derivative of `e` with respect to `x`, by the sum, difference,
      product, quotient and chain rules, with the textbook derivatives of
      the primitives: sin' = cos, cos' = -sin, exp' = exp, log' = 1/u,
      (u^n)' = n u^(n-1), sqrt' = 1/(2 sqrt u). */
  function Deriv(m: MathLib, e: Expr, x: real): real
    requires Defined(m, e, x)
  {
    match e
    case X => 1.0
    case Lit(_) => 0.0
    case Plus(l, r) => Deriv(m, l, x) + Deriv(m, r, x)
    case Minus(l, r) => Deriv(m, l, x) - Deriv(m, r, x)
    case Times(l, r) => ProductRule(Eval(m, l, x), Deriv(m, l, x), Eval(m, r, x), Deriv(m, r, x))
    case Over(l, r) =>
      QuotientRule(Eval(m, l, x), Deriv(m, l, x), Eval(m, r, x), Deriv(m, r, x))
    case Negate(a) => -Deriv(m, a, x)
    case Power(a, n) => ChainRule(n * m.pow(Eval(m, a, x), n - 1.0), Deriv(m, a, x))
    case SinOf(a) => ChainRule(m.cos(Eval(m, a, x)), Deriv(m, a, x))
    case CosOf(a) => ChainRule(-m.sin(Eval(m, a, x)), Deriv(m, a, x))
    case ExpOf(a) => ChainRule(m.exp(Eval(m, a, x)), Deriv(m, a, x))
    case LogOf(a) => Deriv(m, a, x) / Eval(m, a, x)
    case SqrtOf(a) => Deriv(m, a, x) / (2.0 * m.sqrt(Eval(m, a, x)))
  }

  /** Runs `e` through the Dual operators, with `d` standing for `X` and
      literals promoted to constants as `get_dual` does. */
  function EvalDual(m: MathLib, e: Expr, d: Dual): (r: Dual)
    requires Defined(m, e, d.val)
    ensures r.val == Eval(m, e, d.val)
  {
    match e
    case X => d
    case Lit(c) => Constant(c)
    case Plus(l, r) => ArithDual(m, e, d.val, EvalDual(m, l, d), EvalDual(m, r, d))
    case Minus(l, r) => ArithDual(m, e, d.val, EvalDual(m, l, d), EvalDual(m, r, d))
    case Times(l, r) => ArithDual(m, e, d.val, EvalDual(m, l, d), EvalDual(m, r, d))
    case Over(l, r) => ArithDual(m, e, d.val, EvalDual(m, l, d), EvalDual(m, r, d))
    case _ => PrimitiveDual(m, e, d.val, EvalDual(m, e.e, d))
  }

  /** The Dual operator of an arithmetic node, applied to its operands'
      results `a` and `b`, computes the node's value. */
  function ArithDual(m: MathLib, e: Expr, x: real, a: Dual, b: Dual): (r: Dual)
    requires e.Plus? || e.Minus? || e.Times? || e.Over?
    requires Defined(m, e, x) && a.val == Eval(m, e.l, x) && b.val == Eval(m, e.r, x)
    ensures r.val == Eval(m, e, x)
  {
    match e
    case Plus(_, _) => Add(a, b)
    case Minus(_, _) => Sub(a, b)
    case Times(_, _) => Mul(a, b)
    case Over(_, _) => Div(a, b)
  }

  /** The Dual operator of a one-operand node, applied to its operand's
      result `a`, computes the node's value. */
  function PrimitiveDual(m: MathLib, e: Expr, x: real, a: Dual): (r: Dual)
    requires !(e.X? || e.Lit? || e.Plus? || e.Minus? || e.Times? || e.Over?)
    requires Defined(m, e, x) && a.val == Eval(m, e.e, x)
    ensures r.val == Eval(m, e, x)
  {
    match e
    case Negate(_) => Neg(a)
    case Power(_, n) => Pow(m, a, n)
    case SinOf(_) => Sin(m, a)
    case CosOf(_) => Cos(m, a)
    case ExpOf(_) => Exp(m, a)
    case LogOf(_) => Log(m, a)
    case SqrtOf(_) => Sqrt(m, a)
  }

  /** Forward mode is the chain rule: seeding the input as the variable
      (`autodiff.var`) yields the value of the expression together with its
      derivative. */
  lemma {:induction false} VariableSeedGivesDerivative(m: MathLib, e: Expr, x: real)
    requires Defined(m, e, x)
    ensures EvalDual(m, e, Variable(x)) == Dual(Eval(m, e, x), Deriv(m, e, x))
  {
    match e
    case X =>
    case Lit(_) =>
    case Negate(a) => VariableSeedGivesDerivative(m, a, x); UnaryStep(m, e, x);
    case Power(a, _) => VariableSeedGivesDerivative(m, a, x); UnaryStep(m, e, x);
    case SinOf(a) => VariableSeedGivesDerivative(m, a, x); UnaryStep(m, e, x);
    case CosOf(a) => VariableSeedGivesDerivative(m, a, x); UnaryStep(m, e, x);
    case ExpOf(a) => VariableSeedGivesDerivative(m, a, x); UnaryStep(m, e, x);
    case LogOf(a) => VariableSeedGivesDerivative(m, a, x); UnaryStep(m, e, x);
    case SqrtOf(a) => VariableSeedGivesDerivative(m, a, x); UnaryStep(m, e, x);
    case _ =>
      VariableSeedGivesDerivative(m, e.l, x);
      VariableSeedGivesDerivative(m, e.r, x);
      BinaryStep(m, e, x);
  }

  /** Seeding `X` as the variable gives `e` together with its derivative. */
  predicate Seeded(m: MathLib, e: Expr, x: real)
    requires Defined(m, e, x)
  {
    EvalDual(m, e, Variable(x)) == Dual(Eval(m, e, x), Deriv(m, e, x))
  }

  /** An arithmetic node applied to seeded operands is seeded. */
  lemma BinaryStep(m: MathLib, a: Expr, x: real)
    requires Defined(m, a, x) && (a.Plus? || a.Minus? || a.Times? || a.Over?)
    requires Seeded(m, a.l, x) && Seeded(m, a.r, x)
    ensures Seeded(m, a, x)
  {
  }

  /** A one-operand node applied to a seeded operand is seeded. */
  lemma UnaryStep(m: MathLib, a: Expr, x: real)
    requires Defined(m, a, x) && !(a.X? || a.Lit? || a.Plus? || a.Minus? || a.Times? || a.Over?)
    requires Seeded(m, a.e, x)
    ensures Seeded(m, a, x)
  {
  }

  /** Seeding the input as a constant (`autodiff.const`) carries no
      derivative through any operator. */
  lemma {:induction false} ConstantSeedGivesNoDerivative(m: MathLib, e: Expr, x: real)
    requires Defined(m, e, x)
    ensures EvalDual(m, e, Constant(x)) == Constant(Eval(m, e, x))
  {
    match e
    case X =>
    case Lit(_) =>
    case Plus(l, r) => ConstantSeedGivesNoDerivative(m, l, x); ConstantSeedGivesNoDerivative(m, r, x);
    case Minus(l, r) => ConstantSeedGivesNoDerivative(m, l, x); ConstantSeedGivesNoDerivative(m, r, x);
    case Times(l, r) => ConstantSeedGivesNoDerivative(m, l, x); ConstantSeedGivesNoDerivative(m, r, x);
    case Over(l, r) =>
      ConstantSeedGivesNoDerivative(m, l, x); ConstantSeedGivesNoDerivative(m, r, x);
      ZeroOver(Eval(m, l, x), Eval(m, r, x));
    case Negate(a) => ConstantSeedGivesNoDerivative(m, a, x);
    case Power(a, _) => ConstantSeedGivesNoDerivative(m, a, x);
    case SinOf(a) => ConstantSeedGivesNoDerivative(m, a, x);
    case CosOf(a) => ConstantSeedGivesNoDerivative(m, a, x);
    case ExpOf(a) => ConstantSeedGivesNoDerivative(m, a, x);
    case LogOf(a) => ConstantSeedGivesNoDerivative(m, a, x);
    case SqrtOf(a) => ConstantSeedGivesNoDerivative(m, a, x);
  }

  lemma ZeroOver(u: real, v: real)
    requires v != 0.0
    ensures QuotientRule(u, 0.0, v, 0.0) == 0.0
  {
    SquareNonzero(v);
    assert 0.0 * v - u * 0.0 == 0.0;
  }

  /** f(x) = x*x + 3*x at var(2): value 10, derivative 7. */
  lemma PolynomialExample()
    ensures var x := DualArg(Variable(2.0));
            var xx := BinarySlot(MulOp, x, x);
            var tx := BinarySlot(MulOp, Object(Int(3)), x);
            xx.Some? && tx.Some? &&
            BinarySlot(AddOp, DualArg(xx.value), DualArg(tx.value)) == Some(Dual(10.0, 7.0))
  {
  }
}

=== FILE: index_arith.dfy ===
/** Facts about quotients, remainders and products that the index maps of
    the tensor layouts rely on: a flat position `q * b + r` with `r < b`
    stands for row `q`, column `r` of a matrix with `b` columns. */
module IndexArith {

  /** A number written as `q * b + r` with `r < b` has quotient `q` and remainder `r`. */
  lemma DivModUnique(n: int, b: int, q: int, r: int)
    requires b > 0 && 0 <= r < b && n == q * b + r
    ensures n / b == q && n % b == r
  {
    var d := q - n / b;
    assert d * b == n % b - r;
    if d >= 1 {
      MulAtLeast(d, b);
    } else if d <= -1 {
      MulAtLeast(-d, b);
    }
  }

  lemma MulAtLeast(d: int, b: int)
    requires d >= 1 && b > 0
    ensures d * b >= b
  {
    assert d * b == (d - 1) * b + b;
  }

  /** `q < m` and `r < b` keep `q * b + r` below `m * b`. */
  lemma MixedBound(q: nat, r: nat, m: nat, b: nat)
    requires q < m && r < b
    ensures 0 <= q * b + r < m * b
  {
    assert m * b == (m - q - 1) * b + q * b + b;
  }

  lemma MulMono(a: nat, b: nat, c: nat)
    requires a <= b
    ensures a * c <= b * c
  {
    assert b * c == a * c + (b - a) * c;
  }

  /** A product of naturals is 0 exactly when a factor is. */
  lemma ZeroProduct(a: nat, b: nat)
    ensures a * b == 0 <==> a == 0 || b == 0
  {
    if a > 0 && b > 0 {
      MulAtLeast(a, b);
    }
  }

  /** A position below `m * n` is row `p / n`, column `p % n` of an
      `m` × `n` matrix stored row by row. */
  lemma PositionSplit(p: nat, m: nat, n: nat)
    requires p < m * n
    ensures n > 0 && p / n < m && p % n < n
    ensures (p / n) * n + p % n == p
  {
    ZeroProduct(m, n);
    if p / n >= m {
      MulMono(m, p / n, n);
    }
  }

  lemma MulCommutes(a: int, b: int)
    ensures a * b == b * a
  {
  }
}

=== FILE: layout.dfy ===
/** `LayoutTensor` of 03-advanced/01-custom-dtype/layout.cpp: a rows × cols
    matrix of doubles stored in one flat buffer, in row-major, column-major
    or tiled order. */
module Layouts {
  import opened PyObjects
  import opened IndexArith

  datatype Layout = RowMajor | ColMajor | Tiled

  /** `struct LayoutTensor`. `tileSize` is only read by the tiled layout. */
  datatype LayoutTensor = LayoutTensor(data: seq<real>, rows: nat, cols: nat, layout: Layout, tileSize: int)

  // ------------------------------------------------------------------
  // Index maps.
  // ------------------------------------------------------------------

  /** `(n + tile_size - 1) / tile_size`: tiles needed to cover `n`. */
  function Tiles(n: nat, ts: int): nat
    requires ts > 0
  {
    (n + ts - 1) / ts
  }

  /** `n` rounded up to a multiple of the tile size: the padded row or
      column count of the tiled buffer. */
  function Pad(n: nat, ts: int): nat
    requires ts > 0
  {
    Tiles(n, ts) * ts
  }

  /** The padded count is a multiple of the tile size covering `n`, by
      less than one tile more ... */
  lemma PadCovers(n: nat, ts: int)
    requires ts > 0
    ensures Pad(n, ts) % ts == 0 && n <= Pad(n, ts) < n + ts
  {
    var q := Tiles(n, ts);
    var r := (n + ts - 1) % ts;
    assert n + ts - 1 == q * ts + r;
    DivModUnique(q * ts, ts, q, 0);
  }

  /** ... and any multiple of the tile size that covers `n` is at least
      `Pad(n, ts)`: it is the least such multiple. */
  lemma PadLeast(n: nat, ts: int, m: nat)
    requires ts > 0 && m % ts == 0 && n <= m
    ensures Pad(n, ts) <= m
  {
    var q := Tiles(n, ts);
    var a := m / ts;
    assert m == a * ts;
    if a < q {
      PadCovers(n, ts);
      MulMono(a, q - 1, ts);
    } else {
      MulMono(q, a, ts);
    }
  }

  /** The size of the buffer `from_list` and `zeros` allocate: rows × cols,
      or the padded rows × padded cols for the tiled layout. */
  function BufferSize(layout: Layout, rows: nat, cols: nat, ts: int): nat
    requires layout.Tiled? ==> ts > 0
  {
    if layout.Tiled? then Pad(rows, ts) * Pad(cols, ts) else rows * cols
  }

  predicate TileOk(t: LayoutTensor)
  {
    t.layout.Tiled? ==> t.tileSize > 0
  }

  /** `LayoutTensor::index`: the physical position of logical cell (i, j). */
  function Index(t: LayoutTensor, i: nat, j: nat): int
    requires TileOk(t)
  {
    match t.layout
    case RowMajor => i * t.cols + j
    case ColMajor => j * t.rows + i
    case Tiled => TiledIndex(i, j, t.cols, t.tileSize)
  }

  /** The tiled case: tiles of `ts` × `ts` cells stored one after another,
      row of tiles by row of tiles, each tile row-major inside. */
  function TiledIndex(i: nat, j: nat, cols: nat, ts: int): int
    requires ts > 0
  {
    TileNumber(i, j, cols, ts) * (ts * ts) + TileOffset(i, j, ts)
  }

  /** `tile_idx`: the tile holding (i, j), counting tiles row by row. */
  function TileNumber(i: nat, j: nat, cols: nat, ts: int): int
    requires ts > 0
  {
    (i / ts) * Tiles(cols, ts) + j / ts
  }

  /** `local_offset`: the position of (i, j) inside its tile. */
  function TileOffset(i: nat, j: nat, ts: int): int
    requires ts > 0
  {
    (i % ts) * ts + j % ts
  }

  predicate InRange(t: LayoutTensor, i: nat, j: nat)
  {
    i < t.rows && j < t.cols
  }

  /** A tensor as `from_list` and `zeros` build it. */
  predicate Valid(t: LayoutTensor)
  {
    TileOk(t) && |t.data| == BufferSize(t.layout, t.rows, t.cols, t.tileSize)
  }

  /** Row-major and column-major: the cell stored at position `p`. */
  function CellAt(t: LayoutTensor, p: nat): (c: (nat, nat))
    requires !t.layout.Tiled? && p < t.rows * t.cols
    ensures InRange(t, c.0, c.1)
  {
    if t.layout.RowMajor? then RowOfPosition(p, t.rows, t.cols)
    else
      MulCommutes(t.rows, t.cols);
      var c := RowOfPosition(p, t.cols, t.rows);
      (c.1, c.0)
  }

  /** Row and column of position `p` in an `m` × `n` matrix stored row by row. */
  function RowOfPosition(p: nat, m: nat, n: nat): (c: (nat, nat))
    requires p < m * n
    ensures c.0 < m && c.1 < n
  {
    PositionSplit(p, m, n);
    (p / n, p % n)
  }

  /** Tiled: the cell whose position is `p`, undoing tile number, row
      within the tile and column within the tile. */
  function TiledCellAt(t: LayoutTensor, p: int): (int, int)
    requires t.layout.Tiled? && t.tileSize > 0
  {
    var ts := t.tileSize;
    var tileIdx := p / (ts * ts);
    var local := p % (ts * ts);
    var tilesPerRow := Tiles(t.cols, ts);
    var tileRow := if tilesPerRow == 0 then 0 else tileIdx / tilesPerRow;
    var tileCol := if tilesPerRow == 0 then 0 else tileIdx % tilesPerRow;
    (tileRow * ts + local / ts, tileCol * ts + local % ts)
  }

  /** Every in-range cell lands inside the allocated buffer. */
  lemma IndexInBuffer(t: LayoutTensor, i: nat, j: nat)
    requires TileOk(t) && InRange(t, i, j)
    ensures 0 <= Index(t, i, j) < BufferSize(t.layout, t.rows, t.cols, t.tileSize)
  {
    match t.layout
    case RowMajor => MixedBound(i, j, t.rows, t.cols);
    case ColMajor => MixedBound(j, i, t.cols, t.rows);
    case Tiled => TiledInBuffer(t, i, j);
  }

  lemma TiledInBuffer(t: LayoutTensor, i: nat, j: nat)
    requires t.layout.Tiled? && t.tileSize > 0 && InRange(t, i, j)
    ensures 0 <= Index(t, i, j) < Pad(t.rows, t.tileSize) * Pad(t.cols, t.tileSize)
  {
    TiledIndexBound(i, j, t.rows, t.cols, t.tileSize);
  }

  /** The tile number is below the tile count and the offset below the
      tile area, so the tiled position is below the padded area. */
  lemma TiledIndexBound(i: nat, j: nat, rows: nat, cols: nat, ts: nat)
    requires ts > 0 && i < rows && j < cols
    ensures 0 <= TiledIndex(i, j, cols, ts) < Pad(rows, ts) * Pad(cols, ts)
  {
    var rowTiles, colTiles := Tiles(rows, ts), Tiles(cols, ts);
    DivBelow(i, rows, ts);
    DivBelow(j, cols, ts);
    MixedBound(i / ts, j / ts, rowTiles, colTiles);
    MixedBound(i % ts, j % ts, ts, ts);
    var tile: nat, offset: nat := TileNumber(i, j, cols, ts), TileOffset(i, j, ts);
    var count: nat, area: nat := rowTiles * colTiles, ts * ts;
    MixedBound(tile, offset, count, area);
    Rearrange(rowTiles, colTiles, ts);
  }

  lemma Rearrange(a: int, b: int, c: int)
    ensures (a * c) * (b * c) == (a * b) * (c * c)
  {
  }

  /** `i < n` puts `i`'s tile among the `Tiles(n, ts)` tiles covering `n`. */
  lemma DivBelow(i: nat, n: nat, ts: int)
    requires ts > 0 && i < n
    ensures i / ts < Tiles(n, ts)
  {
    var p := Pad(n, ts);
    assert p == Tiles(n, ts) * ts;
    if i / ts >= Tiles(n, ts) {
      MulMono(Tiles(n, ts), i / ts, ts);
    }
  }

  /** Row-major and column-major are bijections between the in-range cells
      and [0, rows × cols): `CellAt` undoes `Index` ... */
  lemma CellAtIndex(t: LayoutTensor, i: nat, j: nat)
    requires !t.layout.Tiled? && InRange(t, i, j)
    ensures Index(t, i, j) < t.rows * t.cols
    ensures CellAt(t, Index(t, i, j)) == (i, j)
  {
    IndexInBuffer(t, i, j);
    if t.layout.RowMajor? {
      DivModUnique(Index(t, i, j), t.cols, i, j);
    } else {
      DivModUnique(Index(t, i, j), t.rows, j, i);
    }
  }

  /** ... and `Index` undoes `CellAt`. */
  lemma IndexCellAt(t: LayoutTensor, p: nat)
    requires !t.layout.Tiled? && p < t.rows * t.cols
    ensures Index(t, CellAt(t, p).0, CellAt(t, p).1) == p
  {
  }

  /** Tiled: `TiledCellAt` undoes `Index` on in-range cells. */
  lemma TiledCellAtIndex(t: LayoutTensor, i: nat, j: nat)
    requires t.layout.Tiled? && t.tileSize > 0 && InRange(t, i, j)
    ensures TiledCellAt(t, Index(t, i, j)) == (i, j)
  {
    var ts := t.tileSize;
    var p := Index(t, i, j);
    assert p == TiledIndex(i, j, t.cols, ts);
    TiledSplit(i, j, t.cols, ts);
    TileNumberSplit(i, j, t.cols, ts);
    TileOffsetSplit(i, j, ts);
    var local := p % (ts * ts);
    assert local == TileOffset(i, j, ts);
    Recombine(i, ts);
    Recombine(j, ts);
  }

  lemma Recombine(i: int, ts: int)
    requires ts > 0
    ensures (i / ts) * ts + i % ts == i
  {
  }

  /** The position splits back into tile number and offset in the tile. */
  lemma TiledSplit(i: nat, j: nat, cols: nat, ts: int)
    requires ts > 0 && j < cols
    ensures TiledIndex(i, j, cols, ts) / (ts * ts) == TileNumber(i, j, cols, ts)
    ensures TiledIndex(i, j, cols, ts) % (ts * ts) == TileOffset(i, j, ts)
  {
    MixedBound(i % ts, j % ts, ts, ts);
    DivModUnique(TiledIndex(i, j, cols, ts), ts * ts, TileNumber(i, j, cols, ts), TileOffset(i, j, ts));
  }

  /** The tile number splits back into tile row and tile column. */
  lemma TileNumberSplit(i: nat, j: nat, cols: nat, ts: int)
    requires ts > 0 && j < cols
    ensures Tiles(cols, ts) > 0
    ensures TileNumber(i, j, cols, ts) / Tiles(cols, ts) == i / ts
    ensures TileNumber(i, j, cols, ts) % Tiles(cols, ts) == j / ts
  {
    DivBelow(j, cols, ts);
    DivModUnique(TileNumber(i, j, cols, ts), Tiles(cols, ts), i / ts, j / ts);
  }

  /** The offset splits back into row and column inside the tile. */
  lemma TileOffsetSplit(i: nat, j: nat, ts: int)
    requires ts > 0
    ensures TileOffset(i, j, ts) / ts == i % ts && TileOffset(i, j, ts) % ts == j % ts
  {
    DivModUnique(TileOffset(i, j, ts), ts, i % ts, j % ts);
  }

  /** Distinct in-range cells have distinct positions, in every layout. */
  lemma IndexInjective(t: LayoutTensor, i1: nat, j1: nat, i2: nat, j2: nat)
    requires TileOk(t) && InRange(t, i1, j1) && InRange(t, i2, j2)
    requires Index(t, i1, j1) == Index(t, i2, j2)
    ensures i1 == i2 && j1 == j2
  {
    if t.layout.Tiled? {
      TiledCellAtIndex(t, i1, j1);
      TiledCellAtIndex(t, i2, j2);
    } else {
      CellAtIndex(t, i1, j1);
      CellAtIndex(t, i2, j2);
    }
  }

  // ------------------------------------------------------------------
  // Element access.
  // ------------------------------------------------------------------

  /** `LayoutTensor::get`: the value at logical cell (i, j). */
  function Get(t: LayoutTensor, i: nat, j: nat): real
    requires Valid(t) && InRange(t, i, j)
  {
    IndexInBuffer(t, i, j);
    t.data[Index(t, i, j)]
  }

  /** `size_t` holds values modulo 2^64. */
  const SizeModulus: int := 0x1_0000_0000_0000_0000

  /** `get` converts a negative int to `size_t`, so the index arithmetic wraps
      modulo 2^64 and can land inside the buffer: in the row-major 3 × 4
      layout, `get(-1, 5)` reads position 1, which stores cell (0, 1). */
  lemma NegativeRowWraps(t: LayoutTensor)
    requires Valid(t) && t.layout.RowMajor? && t.rows == 3 && t.cols == 4
    ensures Index(t, SizeModulus - 1, 5) % SizeModulus == Index(t, 0, 1)
    ensures Get(t, 0, 1) == t.data[Index(t, SizeModulus - 1, 5) % SizeModulus]
  {
  }

  /** `get` checks no bounds. In the row- and column-major layouts, a cell
      outside the matrix whose position still falls inside the buffer reads
      the in-range cell stored at that position. */
  lemma OutOfRangeReadsStoredCell(t: LayoutTensor, i: nat, j: nat)
    requires Valid(t) && !t.layout.Tiled? && !InRange(t, i, j)
    requires Index(t, i, j) < t.rows * t.cols
    ensures var c := CellAt(t, Index(t, i, j));
      InRange(t, c.0, c.1) && (c.0, c.1) != (i, j) && Get(t, c.0, c.1) == t.data[Index(t, i, j)]
  {
    IndexCellAt(t, Index(t, i, j));
  }

  /** `LayoutTensor::set`: cell (i, j) becomes `v`. */
  function Set(t: LayoutTensor, i: nat, j: nat, v: real): (r: LayoutTensor)
    requires Valid(t) && InRange(t, i, j)
    ensures Valid(r) && r.rows == t.rows && r.cols == t.cols && r.layout == t.layout
    ensures r.tileSize == t.tileSize
    ensures Get(r, i, j) == v
    ensures forall a: nat, b: nat | InRange(t, a, b) && (a, b) != (i, j) :: Get(r, a, b) == Get(t, a, b)
  {
    IndexInBuffer(t, i, j);
    var r := t.(data := t.data[Index(t, i, j) := v]);
    forall a: nat, b: nat | InRange(t, a, b) && (a, b) != (i, j)
      ensures Get(r, a, b) == Get(t, a, b)
    {
      SetKeeps(t, i, j, v, a, b);
    }
    r
  }

  /** Writing one cell leaves the position of any other cell alone. */
  lemma SetKeeps(t: LayoutTensor, i: nat, j: nat, v: real, a: nat, b: nat)
    requires Valid(t) && InRange(t, i, j) && InRange(t, a, b) && (a, b) != (i, j)
    ensures 0 <= Index(t, i, j) < |t.data| && 0 <= Index(t, a, b) < |t.data|
    ensures t.data[Index(t, i, j) := v][Index(t, a, b)] == t.data[Index(t, a, b)]
  {
    IndexInBuffer(t, i, j);
    IndexInBuffer(t, a, b);
    if Index(t, a, b) == Index(t, i, j) {
      IndexInjective(t, a, b, i, j);
    }
  }

  /** `LayoutTensor::size`: the number of logical cells, which is the
      buffer length for the two unpadded layouts. */
  function Size(t: LayoutTensor): (n: nat)
    requires Valid(t)
    ensures n == t.rows * t.cols
    ensures !t.layout.Tiled? ==> n == |t.data|
    ensures n <= |t.data|
  {
    if t.layout.Tiled? then
      PaddedBufferCovers(t.rows, t.cols, t.tileSize);
      t.rows * t.cols
    else t.rows * t.cols
  }

  /** The padded buffer has room for every logical cell. */
  lemma PaddedBufferCovers(rows: nat, cols: nat, ts: int)
    requires ts > 0
    ensures rows * cols <= Pad(rows, ts) * Pad(cols, ts)
  {
    var pr, pc := Pad(rows, ts), Pad(cols, ts);
    PadCovers(rows, ts);
    PadCovers(cols, ts);
    MulMono(rows, pr, cols);
    MulMono(cols, pc, pr);
    MulCommutes(cols, pr);
    MulCommutes(pc, pr);
  }

  // ------------------------------------------------------------------
  // Layout names.
  // ------------------------------------------------------------------

  /** `parse_layout`: the three names, anything else means row-major. */
  function ParseLayout(name: string): Layout
  {
    if name == "row_major" then RowMajor
    else if name == "col_major" then ColMajor
    else if name == "tiled" then Tiled
    else RowMajor
  }

  /** `layout_to_string`. */
  function LayoutName(l: Layout): string
  {
    match l
    case RowMajor => "row_major"
    case ColMajor => "col_major"
    case Tiled => "tiled"
  }

  /** Printing a layout and parsing the name gives the layout back. */
  lemma ParsePrintRoundTrip(l: Layout)
    ensures ParseLayout(LayoutName(l)) == l
  {
  }

  /** A name is parsed to a non-default layout exactly when it is that
      layout's printed name; every other string falls back to row-major. */
  lemma ParseLayoutNames(name: string)
    ensures ParseLayout(name) != RowMajor <==> name == LayoutName(ColMajor) || name == LayoutName(Tiled)
    ensures ParseLayout(name) != RowMajor ==> LayoutName(ParseLayout(name)) == name
  {
  }

  // ------------------------------------------------------------------
  // Construction.
  // ------------------------------------------------------------------

  /** The tensor `layout.zeros(rows, cols, layout, tile_size)` builds for
      dimensions it can represent. */
  function Zeros(rows: nat, cols: nat, name: string, ts: int): (t: LayoutTensor)
    requires ParseLayout(name).Tiled? ==> ts > 0
    ensures Valid(t) && t.rows == rows && t.cols == cols && t.layout == ParseLayout(name)
    ensures t.tileSize == ts
    ensures forall i, j | InRange(t, i, j) :: Get(t, i, j) == 0.0
  {
    var layout := ParseLayout(name);
    var t := LayoutTensor(seq(BufferSize(layout, rows, cols, ts), _ => 0.0), rows, cols, layout, ts);
    forall i: nat, j: nat | InRange(t, i, j)
      ensures Get(t, i, j) == 0.0
    {
      IndexInBuffer(t, i, j);
    }
    t
  }

  /** `layout.zeros` on whatever integers the argument parser accepts. The
      C++ code copies `rows` and `cols` into `size_t` fields and sizes the
      buffer from them unchecked, so a negative dimension, or a tile size
      below 1 for the tiled layout, does not yield a tensor whose recorded
      shape matches its buffer; the model answers `None` for those. */
  function ZerosCall(rows: int, cols: int, name: string, ts: int): (r: Option<LayoutTensor>)
    ensures r.Some? <==> rows >= 0 && cols >= 0 && (ParseLayout(name).Tiled? ==> ts > 0)
    ensures r.Some? ==> Valid(r.value) && r.value.rows == rows && r.value.cols == cols &&
                        r.value.layout == ParseLayout(name) && r.value.tileSize == ts
    ensures r.Some? ==> forall i, j | InRange(r.value, i, j) :: Get(r.value, i, j) == 0.0
  {
    if rows < 0 || cols < 0 || (ParseLayout(name).Tiled? && ts <= 0) then None
    else Some(Zeros(rows, cols, name, ts))
  }

  /** The column count `from_list` reads off the first row: its length, or
      1 if it is not a list. */
  function ColsOf(rows: seq<Value>): nat
    requires |rows| > 0
  {
    if rows[0].List? then |rows[0].items| else 1
  }

  /** The fill loop of `from_list` over rows `0..i`, row after row. */
  function FillRows(t: LayoutTensor, rows: seq<Value>, i: nat): (r: LayoutTensor)
    requires Valid(t) && i <= t.rows == |rows| && AllCells(rows, t.cols)
    ensures Valid(r) && r.rows == t.rows && r.cols == t.cols && r.layout == t.layout
    ensures r.tileSize == t.tileSize
    ensures forall a: nat, b: nat | InRange(t, a, b) ::
              Get(r, a, b) == if a < i then Cell(rows, a, b).value else Get(t, a, b)
  {
    if i == 0 then t
    else FillCols(FillRows(t, rows, i - 1), rows, i - 1, t.cols)
  }

  /** The inner loop over columns `0..j` of row `i`. */
  function FillCols(t: LayoutTensor, rows: seq<Value>, i: nat, j: nat): (r: LayoutTensor)
    requires Valid(t) && i < t.rows == |rows| && j <= t.cols && AllCells(rows, t.cols)
    ensures Valid(r) && r.rows == t.rows && r.cols == t.cols && r.layout == t.layout
    ensures r.tileSize == t.tileSize
    ensures forall a: nat, b: nat | InRange(t, a, b) ::
              Get(r, a, b) == if a == i && b < j then Cell(rows, a, b).value else Get(t, a, b)
  {
    if j == 0 then t
    else Set(FillCols(t, rows, i, j - 1), i, j - 1, Cell(rows, i, j - 1).value)
  }

  /** `layout.from_list(data, layout, tile_size)`: a non-list argument is
      a TypeError; an element that does not convert (or a row too short or
      not a list) makes the call fail after the loop; otherwise every cell
      is stored at its layout position in a zeroed buffer. */
  function FromList(data: Value, name: string, ts: int): (r: Result<LayoutTensor>)
    requires data.List? ==> |data.items| > 0
    requires ParseLayout(name).Tiled? ==> ts > 0
    ensures !data.List? ==> r == Err(TypeError("Expected list"))
    ensures data.List? ==> (r.Ok? <==> AllCells(data.items, ColsOf(data.items)))
    ensures data.List? && r.Err? ==> r.error == ConversionError
    ensures r.Ok? ==> Valid(r.value) && r.value.layout == ParseLayout(name) &&
                      r.value.rows == |data.items| && r.value.cols == ColsOf(data.items) &&
                      r.value.tileSize == ts
  {
    if !data.List? then Err(TypeError("Expected list"))
    else
      var rows := data.items;
      var cols := ColsOf(rows);
      if !AllCells(rows, cols) then Err(ConversionError)
      else
        var t := Zeros(|rows|, cols, name, ts);
        Ok(FillRows(t, rows, |rows|))
  }

  /** `from_list` stores the list: whatever the layout, reading cell (i, j)
      back gives element j of row i. */
  lemma FromListGet(data: Value, name: string, ts: int, i: nat, j: nat)
    requires data.List? && |data.items| > 0
    requires ParseLayout(name).Tiled? ==> ts > 0
    requires FromList(data, name, ts).Ok?
    requires i < |data.items| && j < ColsOf(data.items)
    ensures Get(FromList(data, name, ts).value, i, j) == Cell(data.items, i, j).value
  {
  }

  /** `tolist()`: the logical rows, read through `get`. */
  function ToList(t: LayoutTensor): (rows: seq<seq<real>>)
    requires Valid(t)
    ensures |rows| == t.rows
    ensures forall i | 0 <= i < t.rows :: |rows[i]| == t.cols
    ensures forall i, j | 0 <= i < t.rows && 0 <= j < t.cols :: rows[i][j] == Get(t, i, j)
  {
    seq(t.rows, i requires 0 <= i < t.rows => seq(t.cols, j requires 0 <= j < t.cols => Get(t, i, j)))
  }

  /** `tolist()` after `from_list` gives the converted input back, the same
      nested list for all three layouts. */
  lemma FromListToList(data: Value, name: string, ts: int)
    requires data.List? && |data.items| > 0
    requires ParseLayout(name).Tiled? ==> ts > 0
    requires FromList(data, name, ts).Ok?
    ensures var rows := ToList(FromList(data, name, ts).value);
            forall i, j | 0 <= i < |data.items| && 0 <= j < ColsOf(data.items) ::
              rows[i][j] == Cell(data.items, i, j).value
  {
  }

  /** The 3 × 4 matrix the demonstration script stores row- and column-major. */
  function Sample(): Value
  {
    List([List([Int(1), Int(2), Int(3), Int(4)]), List([Int(5), Int(6), Int(7), Int(8)]),
          List([Int(9), Int(10), Int(11), Int(12)])])
  }

  /** `get(1, 2)` is 7 whichever unpadded layout stores the 3 × 4 sample,
      and with tile size 2 in the tiled layout too. */
  lemma SampleGet(name: string)
    requires name in ["row_major", "col_major", "tiled"]
    ensures FromList(Sample(), name, 2).Ok?
    ensures Get(FromList(Sample(), name, 2).value, 1, 2) == 7.0
  {
    assert AllCells(Sample().items, 4) by {
      forall i, j | 0 <= i < 3 && 0 <= j < 4
        ensures Cell(Sample().items, i, j).Some?
      {
      }
    }
    FromListGet(Sample(), name, 2, 1, 2);
  }

  /** The 4 × 4 matrix the demonstration script stores tiled, so that
      2 × 2 tiles cover it without padding. */
  function Sample4x4(): Value
  {
    List([List([Int(1), Int(2), Int(3), Int(4)]), List([Int(5), Int(6), Int(7), Int(8)]),
          List([Int(9), Int(10), Int(11), Int(12)]), List([Int(13), Int(14), Int(15), Int(16)])])
  }

  /** Every cell of the 4 × 4 sample is an integer, so `from_list` accepts it. */
  lemma Sample4x4Converts()
    ensures AllCells(Sample4x4().items, 4)
  {
    var rows := Sample4x4().items;
    forall i, j | 0 <= i < 4 && 0 <= j < 4
      ensures Cell(rows, i, j).Some?
    {
      assert rows[i].List? && |rows[i].items| == 4 && rows[i].items[j].Int?;
    }
  }

  /** The tiled 4 × 4 sample: `get(1, 2)` is 7 as in the other layouts,
      for the tile size 2 of the demonstration and any other positive one. */
  lemma TiledSampleGet(ts: int)
    requires ts > 0
    ensures FromList(Sample4x4(), "tiled", ts).Ok?
    ensures Get(FromList(Sample4x4(), "tiled", ts).value, 1, 2) == 7.0
  {
    Sample4x4Converts();
    FromListGet(Sample4x4(), "tiled", ts, 1, 2);
  }
}

=== FILE: py_objects.dfy ===
/** Host-language values as they reach the C++ extension functions, and the
    exceptions those functions raise. Only the shapes the kernels inspect are
    modelled: numbers, strings, lists and tuples. */
module PyObjects {

  datatype Option<+T> = None | Some(value: T)

  /** A Python object handed to an extension function. */
  datatype Value =
    | Int(i: int)
    | Float(x: real)
    | Str(s: string)
    | List(items: seq<Value>)
    | Tuple(items: seq<Value>)

  /** The exception an extension function leaves set when it returns NULL.
      `ConversionError` stands for whatever exception a failed element
      conversion (`PyFloat_AsDouble`, `PyList_GetItem`) left pending. */
  datatype Error =
    | TypeError(msg: string)
    | ValueError(msg: string)
    | NotImplementedError(msg: string)
    | ConversionError

  datatype Result<+T> = Ok(value: T) | Err(error: Error)

  /** `PyFloat_AsDouble`: ints and floats convert, everything else fails. */
  function AsDouble(v: Value): (r: Option<real>)
    ensures r.Some? <==> (v.Int? || v.Float?)
    ensures v.Float? ==> r == Some(v.x)
    ensures v.Int? ==> r == Some(v.i as real)
  {
    match v
    case Int(i) => Some(i as real)
    case Float(x) => Some(x)
    case _ => None
  }

  /** True when every item of `items` converts to a double. */
  predicate AllNumbers(items: seq<Value>)
  {
    forall i :: 0 <= i < |items| ==> AsDouble(items[i]).Some?
  }

  /** The doubles of a list that `AllNumbers` accepts. */
  function Doubles(items: seq<Value>): (r: seq<real>)
    requires AllNumbers(items)
    ensures |r| == |items|
    ensures forall i :: 0 <= i < |items| ==> Some(r[i]) == AsDouble(items[i])
  {
    seq(|items|, i requires 0 <= i < |items| => AsDouble(items[i]).value)
  }

  /** The Python list of floats `[x0, x1, ...]`. */
  function Floats(xs: seq<real>): (r: seq<Value>)
    ensures AllNumbers(r) && Doubles(r) == xs
    ensures |r| == |xs| && forall i | 0 <= i < |xs| :: r[i] == Float(xs[i])
  {
    seq(|xs|, i requires 0 <= i < |xs| => Float(xs[i]))
  }

  /** Cell (i, j) of the nested Python list `rows`, converted to a double, if row
      `i` is a list that long and the element converts. */
  function Cell(rows: seq<Value>, i: nat, j: nat): Option<real>
    requires i < |rows|
  {
    if rows[i].List? && j < |rows[i].items| then AsDouble(rows[i].items[j]) else None
  }

  /** Every cell of the first `cols` columns converts. */
  predicate AllCells(rows: seq<Value>, cols: nat)
  {
    forall i, j | 0 <= i < |rows| && 0 <= j < cols :: Cell(rows, i, j).Some?
  }
}

=== FILE: real_math.dfy ===
/** The C math library (`std::sin`, `std::cos`, `std::exp`, `std::log`,
    `std::pow`, `std::sqrt`) as uninterpreted real functions. Nothing is
    assumed about them: every property proved here holds whatever they are. */
module RealMath {

  datatype MathLib = MathLib(
    sin: real -> real,
    cos: real -> real,
    exp: real -> real,
    log: real -> real,
    pow: (real, real) -> real,
    sqrt: real -> real)
}

=== FILE: reverse_backward.dfy ===
/** `Var::backward` (03-advanced/03-reverse-autodiff/autodiff.cpp): sort the
    graph below the root, seed the root's gradient with 1, then walk the
    order from the back and add `node.grad × partial` to the gradient of
    every edge's input. Other gradients are not cleared first. */
module Backprop {
  import opened ReverseGraph
  import opened Topological

  // ------------------------------------------------------------------
  // Contributions.
  // ------------------------------------------------------------------

  /** What edges `k..` of node `y` add to the gradient of node `x`. */
  function EdgeContrib(g: Graph, y: nat, x: nat, k: nat): real
    requires y < |g| && k <= |g[y].edges|
    decreases |g[y].edges| - k
  {
    if k == |g[y].edges| then 0.0
    else
      (if g[y].edges[k].input == x then g[y].grad * g[y].edges[k].partial else 0.0)
      + EdgeContrib(g, y, x, k + 1)
  }

  /** What node `y` passes to node `x`: its gradient times the partial of
      every edge from `y` to `x` (a node such as `x * x` has two). */
  function NodeContrib(g: Graph, y: nat, x: nat): real
    requires y < |g|
  {
    EdgeContrib(g, y, x, 0)
  }

  /** A contribution depends only on the sender's gradient and edges. */
  lemma {:induction false} EdgeContribFrame(g: Graph, h: Graph, y: nat, x: nat, k: nat)
    requires y < |g| && y < |h| && g[y].grad == h[y].grad && g[y].edges == h[y].edges
    requires k <= |g[y].edges|
    ensures EdgeContrib(g, y, x, k) == EdgeContrib(h, y, x, k)
    decreases |g[y].edges| - k
  {
    if k < |g[y].edges| {
      EdgeContribFrame(g, h, y, x, k + 1);
    }
  }

  /** A node passes nothing to a node that is not one of its operands. */
  lemma {:induction false} EdgeContribNone(g: Graph, y: nat, x: nat, k: nat)
    requires y < |g| && k <= |g[y].edges|
    requires forall j | k <= j < |g[y].edges| :: g[y].edges[j].input != x
    ensures EdgeContrib(g, y, x, k) == 0.0
    decreases |g[y].edges| - k
  {
    if k < |g[y].edges| {
      EdgeContribNone(g, y, x, k + 1);
    }
  }

  /** The contributions of the nodes of `s` to `x`, summed from the front. */
  function SeqContrib(g: Graph, s: seq<nat>, x: nat): real
    requires forall p | 0 <= p < |s| :: s[p] < |g|
  {
    if s == [] then 0.0
    else SeqContrib(g, s[..|s| - 1], x) + NodeContrib(g, s[|s| - 1], x)
  }

  /** The contributions to `x` of the nodes below `n` that lie in `senders`:
      a sum that does not depend on any visiting order. */
  function RangeContrib(g: Graph, senders: set<nat>, x: nat, n: nat): real
    requires n <= |g|
  {
    if n == 0 then 0.0
    else RangeContrib(g, senders, x, n - 1) + (if n - 1 in senders then NodeContrib(g, n - 1, x) else 0.0)
  }

  // ------------------------------------------------------------------
  // The passes.
  // ------------------------------------------------------------------

  /** The inner loop of `backward` for node `y`, from edge `k` on:
      `edge.input->grad += y.grad * partial`. */
  function Propagate(g: Graph, y: nat, k: nat): (r: Graph)
    requires WellFormed(g) && y < |g| && k <= |g[y].edges|
    ensures SameStructure(g, r) && WellFormed(r)
    decreases |g[y].edges| - k
  {
    if k == |g[y].edges| then g
    else Propagate(Accumulate(g, g[y].edges[k].input, g[y].grad * g[y].edges[k].partial), y, k + 1)
  }

  /** `input->grad += d`. */
  function Accumulate(g: Graph, x: nat, d: real): (r: Graph)
    requires WellFormed(g) && x < |g|
    ensures WellFormed(r) && SameStructure(g, r)
    ensures r[x].grad == g[x].grad + d
    ensures forall y | 0 <= y < |g| && y != x :: r[y] == g[y]
  {
    var r := WithGrad(g, x, g[x].grad + d);
    SameStructureWellFormed(g, r);
    r
  }

  /** The outer loop of `backward`, over `order[..i]` from the back. */
  function Sweep(g: Graph, order: seq<nat>, i: nat): (r: Graph)
    requires WellFormed(g) && i <= |order| && forall p | 0 <= p < |order| :: order[p] < |g|
    ensures SameStructure(g, r) && WellFormed(r)
    decreases i
  {
    if i == 0 then g
    else Sweep(Propagate(g, order[i - 1], 0), order, i - 1)
  }

  /** `backward()` on `root`: the root's gradient becomes 1, gradients
      outside the part of the graph reachable from the root are unchanged;
      `BackwardAdjoint` states what the reachable nodes receive. */
  function Backward(g: Graph, root: nat): (r: Graph)
    requires WellFormed(g) && root < |g|
    ensures SameStructure(g, r)
    ensures r[root].grad == 1.0
    ensures forall x | 0 <= x < |g| && x !in Reach(g, root) :: r[x].grad == g[x].grad
  {
    var order := TopoSort(g, root);
    TopoSortSpec(g, root, order);
    var g0 := WithGrad(g, root, 1.0);
    SameStructureWellFormed(g, g0);
    DistinctFresh(order);
    assert Schedule(g, order);
    ScheduleSameStructure(g, g0, order);
    var r := Sweep(g0, order, |order|);
    SameStructureTrans(g, g0, r);
    forall x | 0 <= x < |g| && (x !in Reach(g, root) || x == root)
      ensures r[x].grad == g0[x].grad
    {
      SweepAll(g0, order, x);
      NothingSentOutside(g, root, order, r, x);
    }
    r
  }

  // ------------------------------------------------------------------
  // Proofs.
  // ------------------------------------------------------------------

  /** Propagating node `y` adds its contribution to node `x` and leaves
      `y` itself alone. */
  lemma {:induction false} PropagateSpec(g: Graph, y: nat, k: nat, x: nat)
    requires WellFormed(g) && y < |g| && k <= |g[y].edges| && x < |g|
    ensures Propagate(g, y, k)[y].grad == g[y].grad
    ensures Propagate(g, y, k)[x].grad == g[x].grad + EdgeContrib(g, y, x, k)
    decreases |g[y].edges| - k
  {
    if k < |g[y].edges| {
      var g1 := Accumulate(g, g[y].edges[k].input, g[y].grad * g[y].edges[k].partial);
      PropagateSpec(g1, y, k + 1, x);
      EdgeContribFrame(g, g1, y, x, k + 1);
    }
  }

  /** An order in which every node comes after its operands, each node once. */
  predicate Schedule(g: Graph, order: seq<nat>)
  {
    (forall p | 0 <= p < |order| :: order[p] < |g|) &&
    Fresh(order) && OperandsFirst(g, order)
  }

  /** No node of `s` occurs earlier in `s`: `Distinct`, stated one position
      at a time. */
  predicate Fresh(s: seq<nat>)
  {
    forall p | 0 <= p < |s| :: s[p] !in s[..p]
  }

  lemma DistinctFresh(s: seq<nat>)
    requires Distinct(s)
    ensures Fresh(s)
  {
    forall p | 0 <= p < |s|
      ensures s[p] !in s[..p]
    {
      forall q | 0 <= q < p
        ensures s[..p][q] != s[p]
      {
      }
    }
  }

  /** A schedule depends only on the edges. */
  lemma ScheduleSameStructure(g: Graph, h: Graph, order: seq<nat>)
    requires SameStructure(g, h) && Schedule(g, order)
    ensures Schedule(h, order)
  {
    forall p, k | 0 <= p < |order| && order[p] < |h| && 0 <= k < |h[order[p]].edges|
      ensures h[order[p]].edges[k].input in order[..p]
    {
      assert h[order[p]].edges == g[order[p]].edges;
    }
  }

  /** After sweeping `order[..i]`, each node's gradient has grown by what
      the swept nodes send it, each sender counted with its final gradient. */
  lemma {:induction false} SweepSpec(g: Graph, order: seq<nat>, i: nat, x: nat)
    requires WellFormed(g) && i <= |order| && Schedule(g, order) && x < |g|
    ensures Sweep(g, order, i)[x].grad == g[x].grad + SeqContrib(Sweep(g, order, i), order[..i], x)
    decreases i
  {
    if i == 0 {
      assert order[..0] == [];
    } else {
      var g1 := Propagate(g, order[i - 1], 0);
      ScheduleSameStructure(g, g1, order);
      SweepSpec(g1, order, i - 1, x);
      SweepSpecStep(g, g1, order, i, x);
    }
  }

  /** The inductive step of `SweepSpec`: sweeping `order[i - 1]` first. */
  lemma SweepSpecStep(g: Graph, g1: Graph, order: seq<nat>, i: nat, x: nat)
    requires WellFormed(g) && 0 < i <= |order| && Schedule(g, order) && x < |g|
    requires g1 == Propagate(g, order[i - 1], 0) && Schedule(g1, order)
    requires Sweep(g1, order, i - 1)[x].grad ==
             g1[x].grad + SeqContrib(Sweep(g1, order, i - 1), order[..i - 1], x)
    ensures Sweep(g, order, i)[x].grad == g[x].grad + SeqContrib(Sweep(g, order, i), order[..i], x)
  {
    var y := order[i - 1];
    var r := Sweep(g1, order, i - 1);
    assert Sweep(g, order, i) == r;
    PropagateSpec(g, y, 0, x);
    SweepKeepsLast(g, g1, order, i, y);
    SameStructureTrans(g, g1, r);
    SweepStep(g, g1, r, order, i, x);
  }

  /** `y = order[i - 1]` is not swept again after it has been propagated,
      so it ends the sweep with the gradient it sent with. */
  lemma SweepKeepsLast(g: Graph, g1: Graph, order: seq<nat>, i: nat, y: nat)
    requires WellFormed(g) && 0 < i <= |order| && y == order[i - 1] && y < |g|
    requires Schedule(g1, order)
    requires g1 == Propagate(g, y, 0)
    ensures Sweep(g1, order, i - 1)[y].grad == g[y].grad
  {
    PropagateSpec(g, y, 0, y);
    assert forall p | 0 <= p < i - 1 :: order[p] != y by {
      assert y !in order[..i - 1];
      assert forall p | 0 <= p < i - 1 :: order[..i - 1][p] == order[p];
    }
    SweepUntouched(g1, order, i - 1, y);
  }

  /** Sweeping the last node of `order[..i]` first and the rest afterwards. */
  lemma SweepStep(g: Graph, g1: Graph, r: Graph, order: seq<nat>, i: nat, x: nat)
    requires 0 < i <= |order| && Schedule(g, order) && |g1| == |g| && SameStructure(g, r) && x < |g|
    requires g1[x].grad == g[x].grad + NodeContrib(g, order[i - 1], x)
    requires r[x].grad == g1[x].grad + SeqContrib(r, order[..i - 1], x)
    requires r[order[i - 1]].grad == g[order[i - 1]].grad
    ensures r[x].grad == g[x].grad + SeqContrib(r, order[..i], x)
  {
    EdgeContribFrame(g, r, order[i - 1], x, 0);
    assert order[..i][..i - 1] == order[..i - 1];
  }

  /** A node outside `order[..i]` keeps its gradient through the sweep of
      `order[..i]`, since each swept node only feeds earlier ones. */
  lemma {:induction false} SweepUntouched(g: Graph, order: seq<nat>, i: nat, x: nat)
    requires WellFormed(g) && i <= |order| && Schedule(g, order) && x < |g|
    requires forall p | 0 <= p < i :: order[p] != x
    ensures Sweep(g, order, i)[x].grad == g[x].grad
    decreases i
  {
    if i > 0 {
      var y := order[i - 1];
      var g1 := Propagate(g, y, 0);
      PropagateSpec(g, y, 0, x);
      OperandsBefore(g, order, i, y, x);
      EdgeContribNone(g, y, x, 0);
      ScheduleSameStructure(g, g1, order);
      SweepUntouched(g1, order, i - 1, x);
    }
  }

  /** The operands of `order[i - 1]` come before it, so none of them is a
      node missing from `order[..i]`. */
  lemma OperandsBefore(g: Graph, order: seq<nat>, i: nat, y: nat, x: nat)
    requires 0 < i <= |order| && Schedule(g, order) && y == order[i - 1]
    requires forall p | 0 <= p < i :: order[p] != x
    ensures forall j | 0 <= j < |g[y].edges| :: g[y].edges[j].input != x
  {
    forall j | 0 <= j < |g[y].edges|
      ensures g[y].edges[j].input != x
    {
      assert g[y].edges[j].input in order[..i - 1];
    }
  }

  /** A sender outside the operands' consumers contributes nothing: if no
      node of `s` has `x` as an operand, the sum is zero. */
  lemma {:induction false} SeqContribNone(g: Graph, s: seq<nat>, x: nat)
    requires forall p | 0 <= p < |s| :: s[p] < |g|
    requires forall p, j | 0 <= p < |s| && 0 <= j < |g[s[p]].edges| :: g[s[p]].edges[j].input != x
    ensures SeqContrib(g, s, x) == 0.0
    decreases |s|
  {
    if s != [] {
      SeqContribNone(g, s[..|s| - 1], x);
      EdgeContribNone(g, s[|s| - 1], x, 0);
    }
  }

  /** Adding one sender to the set adds its contribution. */
  lemma {:induction false} RangeContribAdd(g: Graph, senders: set<nat>, y: nat, x: nat, n: nat)
    requires n <= |g| && y < |g| && y !in senders
    ensures RangeContrib(g, senders + {y}, x, n) ==
            RangeContrib(g, senders, x, n) + (if y < n then NodeContrib(g, y, x) else 0.0)
    decreases n
  {
    if n > 0 {
      RangeContribAdd(g, senders, y, x, n - 1);
    }
  }

  /** Summing along a repetition-free sequence is summing over its members. */
  lemma {:induction false} SeqContribIsRange(g: Graph, s: seq<nat>, x: nat)
    requires (forall p | 0 <= p < |s| :: s[p] < |g|) && Distinct(s)
    ensures SeqContrib(g, s, x) == RangeContrib(g, Members(s), x, |g|)
    decreases |s|
  {
    if s == [] {
      assert Members(s) == {};
      RangeContribEmpty(g, x, |g|);
    } else {
      var t := s[..|s| - 1];
      var y := s[|s| - 1];
      SeqContribIsRange(g, t, x);
      assert Members(s) == Members(t) + {y} by {
        assert s == t + [y];
      }
      assert y !in Members(t);
      RangeContribAdd(g, Members(t), y, x, |g|);
    }
  }

  lemma {:induction false} RangeContribEmpty(g: Graph, x: nat, n: nat)
    requires n <= |g|
    ensures RangeContrib(g, {}, x, n) == 0.0
    decreases n
  {
    if n > 0 {
      RangeContribEmpty(g, x, n - 1);
    }
  }

  /** The adjoint equation for the result of `backward`: a node reachable
      from the root, other than the root, ends with its old gradient plus
      `grad × partial` over every edge into it from every reachable node,
      each sender counted with its own final gradient. */
  lemma BackwardAdjoint(g: Graph, root: nat, x: nat)
    requires WellFormed(g) && root < |g| && x < |g| && x in Reach(g, root) && x != root
    ensures var r := Backward(g, root);
            r[x].grad == g[x].grad + RangeContrib(r, Reach(g, root), x, |r|)
  {
    var order := TopoSort(g, root);
    TopoSortSpec(g, root, order);
    var g0 := WithGrad(g, root, 1.0);
    SameStructureWellFormed(g, g0);
    DistinctFresh(order);
    assert Schedule(g, order);
    ScheduleSameStructure(g, g0, order);
    var r := Sweep(g0, order, |order|);
    assert r == Backward(g, root);
    SweepAll(g0, order, x);
    AdjointAt(g, root, order, r, x, g0[x].grad);
  }

  /** The adjoint equation at one node `x` whose gradient before the sweep was `before`. */
  lemma AdjointAt(g: Graph, root: nat, order: seq<nat>, r: Graph, x: nat, before: real)
    requires WellFormed(g) && root < |g| && SameStructure(g, r) && x < |g|
    requires Members(order) == Reach(g, root) && Distinct(order)
    requires forall p | 0 <= p < |order| :: order[p] <= root
    requires before == if x == root then 1.0 else g[x].grad
    requires r[x].grad == before + SeqContrib(r, order, x)
    ensures x == root ==> r[x].grad == 1.0
    ensures x !in Reach(g, root) ==> r[x].grad == g[x].grad
    ensures x in Reach(g, root) && x != root ==>
              r[x].grad == g[x].grad + RangeContrib(r, Reach(g, root), x, |r|)
  {
    if x !in Reach(g, root) || x == root {
      NothingSentOutside(g, root, order, r, x);
    } else {
      SeqContribIsRange(r, order, x);
    }
  }

  /** `SweepSpec` for the whole order. */
  lemma SweepAll(g: Graph, order: seq<nat>, x: nat)
    requires WellFormed(g) && Schedule(g, order) && x < |g|
    ensures Sweep(g, order, |order|)[x].grad == g[x].grad + SeqContrib(Sweep(g, order, |order|), order, x)
  {
    SweepSpec(g, order, |order|, x);
    assert order[..|order|] == order;
  }

  /** Reachable nodes send only to reachable nodes below themselves: never
      to the root, never outside the reachable part. */
  lemma NothingSentOutside(g: Graph, root: nat, order: seq<nat>, r: Graph, x: nat)
    requires WellFormed(g) && root < |g| && SameStructure(g, r)
    requires Members(order) == Reach(g, root) && forall p | 0 <= p < |order| :: order[p] <= root
    requires x !in Reach(g, root) || x == root
    ensures forall p | 0 <= p < |order| :: order[p] < |r|
    ensures SeqContrib(r, order, x) == 0.0
  {
    forall p, j | 0 <= p < |order| && 0 <= j < |r[order[p]].edges|
      ensures r[order[p]].edges[j].input != x
    {
      var y := order[p];
      assert r[y].edges == g[y].edges;
      assert y in Members(order);
      ReachClosed(g, root, y, j);
    }
    SeqContribNone(r, order, x);
  }
}

=== FILE: reverse_examples.dfy ===
/** The worked examples of 03-advanced/03-reverse-autodiff/test.py, built
    with the graph operations and run through `backward` and `zero_grad`.
    Each graph is first shown equal to its explicit node list, written
    `...Nodes(...)` with the gradients as arguments; the `...Order`,
    `...Seed` and `...Step` lemmas below then evaluate `backward` on it one
    swept node at a time, each step changing only those arguments. */
module ReverseExamples {
  import opened ReverseGraph
  import opened Topological
  import opened ReverseOps
  import opened Backprop
  import opened GradReset
  import F = ForwardMode

  /** `x = Var(2.0); y = Var(3.0); f = (x + y) * x`: nodes x, y, x + y, f. */
  function SumTimesX(): (g: Graph)
    ensures WellFormed(g) && |g| == 4
  {
    var g := NewVar(NewVar([], 2.0), 3.0);
    var g := BuildBinary(g, F.AddOp, 0, 1);
    BuildBinary(g, F.MulOp, 2, 0)
  }

  /** f = 10, df/dx = 2x + y = 7, df/dy = x = 2. A second `backward`
      without `zero_grad` in between does not double these: the
      intermediate node x + y keeps its gradient 2 from the first pass and
      receives another 2, so it passes 4 on and x ends at 7 + 5 + 4 = 16. */
  lemma SumTimesXGradients()
    ensures SumTimesX()[3].val == 10.0
    ensures Backward(SumTimesX(), 3)[0].grad == 7.0 && Backward(SumTimesX(), 3)[1].grad == 2.0
    ensures WellFormed(Backward(SumTimesX(), 3))
    ensures Backward(Backward(SumTimesX(), 3), 3)[0].grad == 16.0
    ensures Backward(Backward(SumTimesX(), 3), 3)[1].grad == 6.0
  {
    assert SumTimesX() == SumTimesXNodes(0.0, 0.0, 0.0, 0.0);
    SumTimesXBackward();
    SumTimesXBackwardAgain();
  }

  /** `x = Var(2.0); x2 = x * x; x3 = x2 * x; f = x2 + x3`. */
  function SquarePlusCube(): (g: Graph)
    ensures WellFormed(g) && |g| == 4
  {
    var g := NewVar([], 2.0);
    var g := BuildBinary(g, F.MulOp, 0, 0);
    var g := BuildBinary(g, F.MulOp, 1, 0);
    BuildBinary(g, F.AddOp, 1, 2)
  }

  /** f = 12 and f'(x) = 2x + 3x² = 16: x is reached along three paths. */
  lemma SquarePlusCubeGradient()
    ensures SquarePlusCube()[3].val == 12.0
    ensures Backward(SquarePlusCube(), 3)[0].grad == 16.0
  {
    assert SquarePlusCube() == SquarePlusCubeNodes(0.0, 0.0, 0.0, 0.0);
    SquarePlusCubeBackward();
  }

  /** `x = Var(2.0); w = Var(3.0); b = Var(1.0); z = x * w + b; f = z * z`. */
  function Neuron(): (g: Graph)
    ensures WellFormed(g) && |g| == 6
  {
    var g := NewVar(NewVar(NewVar([], 2.0), 3.0), 1.0);
    var g := BuildBinary(g, F.MulOp, 0, 1);
    var g := BuildBinary(g, F.AddOp, 3, 2);
    BuildBinary(g, F.MulOp, 4, 4)
  }

  /** f = 49, df/dx = 2zw = 42, df/dw = 2zx = 28, df/db = 2z = 14. */
  lemma NeuronGradients()
    ensures Neuron()[5].val == 49.0
    ensures Backward(Neuron(), 5)[0].grad == 42.0
    ensures Backward(Neuron(), 5)[1].grad == 28.0
    ensures Backward(Neuron(), 5)[2].grad == 14.0
  {
    assert Neuron() == NeuronNodes(0.0, 0.0, 0.0, 0.0, 0.0, 0.0);
    NeuronBackward();
  }

  /** `x = Var(3.0); f = x * x`: one node with two edges to x. */
  function Square(): (g: Graph)
    ensures WellFormed(g) && |g| == 2
  {
    BuildBinary(NewVar([], 3.0), F.MulOp, 0, 0)
  }

  /** `backward`, `zero_grad`, `backward` gives x.grad 6, then 0, then 6
      again: `zero_grad` restores the graph as built, so the third pass
      repeats the first. Two `backward` calls without the `zero_grad`
      give 12. */
  lemma SquareBackwardZeroBackward()
    ensures Backward(Square(), 1)[0].grad == 6.0
    ensures WellFormed(Backward(Square(), 1))
    ensures ZeroGrad(Backward(Square(), 1), 1)[0].grad == 0.0
    ensures Backward(ZeroGrad(Backward(Square(), 1), 1), 1)[0].grad == 6.0
    ensures Backward(Backward(Square(), 1), 1)[0].grad == 12.0
  {
    assert Square() == SquareNodes(0.0, 0.0);
    SquareBackward();
    SquareZeroGrad();
    SquareBackwardAgain();
  }

  // ------------------------------------------------------------------
  // Evaluation steps.
  // ------------------------------------------------------------------

  /** The nodes of `SumTimesX()` carrying the given gradients. */
  function SumTimesXNodes(gx: real, gy: real, gs: real, gf: real): Graph
  {
    [Node(2.0, gx, []), Node(3.0, gy, []), Node(5.0, gs, [Edge(0, 1.0), Edge(1, 1.0)]), Node(10.0, gf, [Edge(2, 2.0), Edge(0, 5.0)])]
  }

  /** The nodes of `SquarePlusCube()` carrying the given gradients. */
  function SquarePlusCubeNodes(gx: real, gx2: real, gx3: real, gf: real): Graph
  {
    [Node(2.0, gx, []), Node(4.0, gx2, [Edge(0, 2.0), Edge(0, 2.0)]), Node(8.0, gx3, [Edge(1, 2.0), Edge(0, 4.0)]), Node(12.0, gf, [Edge(1, 1.0), Edge(2, 1.0)])]
  }

  /** The nodes of `Neuron()` carrying the given gradients. */
  function NeuronNodes(gx: real, gw: real, gb: real, gxw: real, gz: real, gf: real): Graph
  {
    [Node(2.0, gx, []), Node(3.0, gw, []), Node(1.0, gb, []), Node(6.0, gxw, [Edge(0, 3.0), Edge(1, 2.0)]), Node(7.0, gz, [Edge(3, 1.0), Edge(2, 1.0)]), Node(49.0, gf, [Edge(4, 7.0), Edge(4, 7.0)])]
  }

  /** The nodes of `Square()` carrying the given gradients. */
  function SquareNodes(gx: real, gf: real): Graph
  {
    [Node(3.0, gx, []), Node(9.0, gf, [Edge(0, 3.0), Edge(0, 3.0)])]
  }

  lemma SumTimesXBackwardOrder()
    ensures WellFormed(SumTimesXNodes(0.0, 0.0, 0.0, 0.0))
    ensures TopoSort(SumTimesXNodes(0.0, 0.0, 0.0, 0.0), 3) == [0, 1, 2, 3]
  {
  }

  lemma SumTimesXBackwardSeed()
    ensures WellFormed(SumTimesXNodes(0.0, 0.0, 0.0, 0.0))
    ensures Backward(SumTimesXNodes(0.0, 0.0, 0.0, 0.0), 3) == Sweep(SumTimesXNodes(0.0, 0.0, 0.0, 1.0), [0, 1, 2, 3], 4)
  {
    SumTimesXBackwardOrder();
    assert WithGrad(SumTimesXNodes(0.0, 0.0, 0.0, 0.0), 3, 1.0) == SumTimesXNodes(0.0, 0.0, 0.0, 1.0);
  }

  lemma SumTimesXBackwardStep4()
    ensures WellFormed(SumTimesXNodes(0.0, 0.0, 0.0, 1.0))
    ensures Sweep(SumTimesXNodes(0.0, 0.0, 0.0, 1.0), [0, 1, 2, 3], 4) == Sweep(SumTimesXNodes(5.0, 0.0, 2.0, 1.0), [0, 1, 2, 3], 3)
  {
    assert Propagate(SumTimesXNodes(0.0, 0.0, 0.0, 1.0), 3, 0) == SumTimesXNodes(5.0, 0.0, 2.0, 1.0);
  }

  lemma SumTimesXBackwardStep3()
    ensures WellFormed(SumTimesXNodes(5.0, 0.0, 2.0, 1.0))
    ensures Sweep(SumTimesXNodes(5.0, 0.0, 2.0, 1.0), [0, 1, 2, 3], 3) == Sweep(SumTimesXNodes(7.0, 2.0, 2.0, 1.0), [0, 1, 2, 3], 2)
  {
    assert Propagate(SumTimesXNodes(5.0, 0.0, 2.0, 1.0), 2, 0) == SumTimesXNodes(7.0, 2.0, 2.0, 1.0);
  }

  lemma SumTimesXBackwardStep2()
    ensures WellFormed(SumTimesXNodes(7.0, 2.0, 2.0, 1.0))
    ensures Sweep(SumTimesXNodes(7.0, 2.0, 2.0, 1.0), [0, 1, 2, 3], 2) == Sweep(SumTimesXNodes(7.0, 2.0, 2.0, 1.0), [0, 1, 2, 3], 1)
  {
    assert Propagate(SumTimesXNodes(7.0, 2.0, 2.0, 1.0), 1, 0) == SumTimesXNodes(7.0, 2.0, 2.0, 1.0);
  }

  lemma SumTimesXBackwardStep1()
    ensures WellFormed(SumTimesXNodes(7.0, 2.0, 2.0, 1.0))
    ensures Sweep(SumTimesXNodes(7.0, 2.0, 2.0, 1.0), [0, 1, 2, 3], 1) == Sweep(SumTimesXNodes(7.0, 2.0, 2.0, 1.0), [0, 1, 2, 3], 0)
  {
    assert Propagate(SumTimesXNodes(7.0, 2.0, 2.0, 1.0), 0, 0) == SumTimesXNodes(7.0, 2.0, 2.0, 1.0);
  }

  lemma SumTimesXBackward()
    ensures WellFormed(SumTimesXNodes(0.0, 0.0, 0.0, 0.0))
    ensures Backward(SumTimesXNodes(0.0, 0.0, 0.0, 0.0), 3) == SumTimesXNodes(7.0, 2.0, 2.0, 1.0)
  {
    SumTimesXBackwardSeed();
    SumTimesXBackwardStep4();
    SumTimesXBackwardStep3();
    SumTimesXBackwardStep2();
    SumTimesXBackwardStep1();
  }

  lemma SumTimesXBackwardAgainOrder()
    ensures WellFormed(SumTimesXNodes(7.0, 2.0, 2.0, 1.0))
    ensures TopoSort(SumTimesXNodes(7.0, 2.0, 2.0, 1.0), 3) == [0, 1, 2, 3]
  {
  }

  lemma SumTimesXBackwardAgainSeed()
    ensures WellFormed(SumTimesXNodes(7.0, 2.0, 2.0, 1.0))
    ensures Backward(SumTimesXNodes(7.0, 2.0, 2.0, 1.0), 3) == Sweep(SumTimesXNodes(7.0, 2.0, 2.0, 1.0), [0, 1, 2, 3], 4)
  {
    SumTimesXBackwardAgainOrder();
    assert WithGrad(SumTimesXNodes(7.0, 2.0, 2.0, 1.0), 3, 1.0) == SumTimesXNodes(7.0, 2.0, 2.0, 1.0);
  }

  lemma SumTimesXBackwardAgainStep4()
    ensures WellFormed(SumTimesXNodes(7.0, 2.0, 2.0, 1.0))
    ensures Sweep(SumTimesXNodes(7.0, 2.0, 2.0, 1.0), [0, 1, 2, 3], 4) == Sweep(SumTimesXNodes(12.0, 2.0, 4.0, 1.0), [0, 1, 2, 3], 3)
  {
    assert Propagate(SumTimesXNodes(7.0, 2.0, 2.0, 1.0), 3, 0) == SumTimesXNodes(12.0, 2.0, 4.0, 1.0);
  }

  lemma SumTimesXBackwardAgainStep3()
    ensures WellFormed(SumTimesXNodes(12.0, 2.0, 4.0, 1.0))
    ensures Sweep(SumTimesXNodes(12.0, 2.0, 4.0, 1.0), [0, 1, 2, 3], 3) == Sweep(SumTimesXNodes(16.0, 6.0, 4.0, 1.0), [0, 1, 2, 3], 2)
  {
    assert Propagate(SumTimesXNodes(12.0, 2.0, 4.0, 1.0), 2, 0) == SumTimesXNodes(16.0, 6.0, 4.0, 1.0);
  }

  lemma SumTimesXBackwardAgainStep2()
    ensures WellFormed(SumTimesXNodes(16.0, 6.0, 4.0, 1.0))
    ensures Sweep(SumTimesXNodes(16.0, 6.0, 4.0, 1.0), [0, 1, 2, 3], 2) == Sweep(SumTimesXNodes(16.0, 6.0, 4.0, 1.0), [0, 1, 2, 3], 1)
  {
    assert Propagate(SumTimesXNodes(16.0, 6.0, 4.0, 1.0), 1, 0) == SumTimesXNodes(16.0, 6.0, 4.0, 1.0);
  }

  lemma SumTimesXBackwardAgainStep1()
    ensures WellFormed(SumTimesXNodes(16.0, 6.0, 4.0, 1.0))
    ensures Sweep(SumTimesXNodes(16.0, 6.0, 4.0, 1.0), [0, 1, 2, 3], 1) == Sweep(SumTimesXNodes(16.0, 6.0, 4.0, 1.0), [0, 1, 2, 3], 0)
  {
    assert Propagate(SumTimesXNodes(16.0, 6.0, 4.0, 1.0), 0, 0) == SumTimesXNodes(16.0, 6.0, 4.0, 1.0);
  }

  lemma SumTimesXBackwardAgain()
    ensures WellFormed(SumTimesXNodes(7.0, 2.0, 2.0, 1.0))
    ensures Backward(SumTimesXNodes(7.0, 2.0, 2.0, 1.0), 3) == SumTimesXNodes(16.0, 6.0, 4.0, 1.0)
  {
    SumTimesXBackwardAgainSeed();
    SumTimesXBackwardAgainStep4();
    SumTimesXBackwardAgainStep3();
    SumTimesXBackwardAgainStep2();
    SumTimesXBackwardAgainStep1();
  }

  lemma SquarePlusCubeBackwardOrder()
    ensures WellFormed(SquarePlusCubeNodes(0.0, 0.0, 0.0, 0.0))
    ensures TopoSort(SquarePlusCubeNodes(0.0, 0.0, 0.0, 0.0), 3) == [0, 1, 2, 3]
  {
  }

  lemma SquarePlusCubeBackwardSeed()
    ensures WellFormed(SquarePlusCubeNodes(0.0, 0.0, 0.0, 0.0))
    ensures Backward(SquarePlusCubeNodes(0.0, 0.0, 0.0, 0.0), 3) == Sweep(SquarePlusCubeNodes(0.0, 0.0, 0.0, 1.0), [0, 1, 2, 3], 4)
  {
    SquarePlusCubeBackwardOrder();
    assert WithGrad(SquarePlusCubeNodes(0.0, 0.0, 0.0, 0.0), 3, 1.0) == SquarePlusCubeNodes(0.0, 0.0, 0.0, 1.0);
  }

  lemma SquarePlusCubeBackwardStep4()
    ensures WellFormed(SquarePlusCubeNodes(0.0, 0.0, 0.0, 1.0))
    ensures Sweep(SquarePlusCubeNodes(0.0, 0.0, 0.0, 1.0), [0, 1, 2, 3], 4) == Sweep(SquarePlusCubeNodes(0.0, 1.0, 1.0, 1.0), [0, 1, 2, 3], 3)
  {
    assert Propagate(SquarePlusCubeNodes(0.0, 0.0, 0.0, 1.0), 3, 0) == SquarePlusCubeNodes(0.0, 1.0, 1.0, 1.0);
  }

  lemma SquarePlusCubeBackwardStep3()
    ensures WellFormed(SquarePlusCubeNodes(0.0, 1.0, 1.0, 1.0))
    ensures Sweep(SquarePlusCubeNodes(0.0, 1.0, 1.0, 1.0), [0, 1, 2, 3], 3) == Sweep(SquarePlusCubeNodes(4.0, 3.0, 1.0, 1.0), [0, 1, 2, 3], 2)
  {
    assert Propagate(SquarePlusCubeNodes(0.0, 1.0, 1.0, 1.0), 2, 0) == SquarePlusCubeNodes(4.0, 3.0, 1.0, 1.0);
  }

  lemma SquarePlusCubeBackwardStep2()
    ensures WellFormed(SquarePlusCubeNodes(4.0, 3.0, 1.0, 1.0))
    ensures Sweep(SquarePlusCubeNodes(4.0, 3.0, 1.0, 1.0), [0, 1, 2, 3], 2) == Sweep(SquarePlusCubeNodes(16.0, 3.0, 1.0, 1.0), [0, 1, 2, 3], 1)
  {
    assert Propagate(SquarePlusCubeNodes(4.0, 3.0, 1.0, 1.0), 1, 0) == SquarePlusCubeNodes(16.0, 3.0, 1.0, 1.0);
  }

  lemma SquarePlusCubeBackwardStep1()
    ensures WellFormed(SquarePlusCubeNodes(16.0, 3.0, 1.0, 1.0))
    ensures Sweep(SquarePlusCubeNodes(16.0, 3.0, 1.0, 1.0), [0, 1, 2, 3], 1) == Sweep(SquarePlusCubeNodes(16.0, 3.0, 1.0, 1.0), [0, 1, 2, 3], 0)
  {
    assert Propagate(SquarePlusCubeNodes(16.0, 3.0, 1.0, 1.0), 0, 0) == SquarePlusCubeNodes(16.0, 3.0, 1.0, 1.0);
  }

  lemma SquarePlusCubeBackward()
    ensures WellFormed(SquarePlusCubeNodes(0.0, 0.0, 0.0, 0.0))
    ensures Backward(SquarePlusCubeNodes(0.0, 0.0, 0.0, 0.0), 3) == SquarePlusCubeNodes(16.0, 3.0, 1.0, 1.0)
  {
    SquarePlusCubeBackwardSeed();
    SquarePlusCubeBackwardStep4();
    SquarePlusCubeBackwardStep3();
    SquarePlusCubeBackwardStep2();
    SquarePlusCubeBackwardStep1();
  }

  lemma NeuronBackwardOrder()
    ensures WellFormed(NeuronNodes(0.0, 0.0, 0.0, 0.0, 0.0, 0.0))
    ensures TopoSort(NeuronNodes(0.0, 0.0, 0.0, 0.0, 0.0, 0.0), 5) == [0, 1, 3, 2, 4, 5]
  {
  }

  lemma NeuronBackwardSeed()
    ensures WellFormed(NeuronNodes(0.0, 0.0, 0.0, 0.0, 0.0, 0.0))
    ensures Backward(NeuronNodes(0.0, 0.0, 0.0, 0.0, 0.0, 0.0), 5) == Sweep(NeuronNodes(0.0, 0.0, 0.0, 0.0, 0.0, 1.0), [0, 1, 3, 2, 4, 5], 6)
  {
    NeuronBackwardOrder();
    assert WithGrad(NeuronNodes(0.0, 0.0, 0.0, 0.0, 0.0, 0.0), 5, 1.0) == NeuronNodes(0.0, 0.0, 0.0, 0.0, 0.0, 1.0);
  }

  lemma NeuronBackwardStep6()
    ensures WellFormed(NeuronNodes(0.0, 0.0, 0.0, 0.0, 0.0, 1.0))
    ensures Sweep(NeuronNodes(0.0, 0.0, 0.0, 0.0, 0.0, 1.0), [0, 1, 3, 2, 4, 5], 6) == Sweep(NeuronNodes(0.0, 0.0, 0.0, 0.0, 14.0, 1.0), [0, 1, 3, 2, 4, 5], 5)
  {
    assert Propagate(NeuronNodes(0.0, 0.0, 0.0, 0.0, 0.0, 1.0), 5, 0) == NeuronNodes(0.0, 0.0, 0.0, 0.0, 14.0, 1.0);
  }

  lemma NeuronBackwardStep5()
    ensures WellFormed(NeuronNodes(0.0, 0.0, 0.0, 0.0, 14.0, 1.0))
    ensures Sweep(NeuronNodes(0.0, 0.0, 0.0, 0.0, 14.0, 1.0), [0, 1, 3, 2, 4, 5], 5) == Sweep(NeuronNodes(0.0, 0.0, 14.0, 14.0, 14.0, 1.0), [0, 1, 3, 2, 4, 5], 4)
  {
    assert Propagate(NeuronNodes(0.0, 0.0, 0.0, 0.0, 14.0, 1.0), 4, 0) == NeuronNodes(0.0, 0.0, 14.0, 14.0, 14.0, 1.0);
  }

  lemma NeuronBackwardStep4()
    ensures WellFormed(NeuronNodes(0.0, 0.0, 14.0, 14.0, 14.0, 1.0))
    ensures Sweep(NeuronNodes(0.0, 0.0, 14.0, 14.0, 14.0, 1.0), [0, 1, 3, 2, 4, 5], 4) == Sweep(NeuronNodes(0.0, 0.0, 14.0, 14.0, 14.0, 1.0), [0, 1, 3, 2, 4, 5], 3)
  {
    assert Propagate(NeuronNodes(0.0, 0.0, 14.0, 14.0, 14.0, 1.0), 2, 0) == NeuronNodes(0.0, 0.0, 14.0, 14.0, 14.0, 1.0);
  }

  lemma NeuronBackwardStep3()
    ensures WellFormed(NeuronNodes(0.0, 0.0, 14.0, 14.0, 14.0, 1.0))
    ensures Sweep(NeuronNodes(0.0, 0.0, 14.0, 14.0, 14.0, 1.0), [0, 1, 3, 2, 4, 5], 3) == Sweep(NeuronNodes(42.0, 28.0, 14.0, 14.0, 14.0, 1.0), [0, 1, 3, 2, 4, 5], 2)
  {
    assert Accumulate(NeuronNodes(0.0, 0.0, 14.0, 14.0, 14.0, 1.0), 0, 42.0) == NeuronNodes(42.0, 0.0, 14.0, 14.0, 14.0, 1.0);
    assert Accumulate(NeuronNodes(42.0, 0.0, 14.0, 14.0, 14.0, 1.0), 1, 28.0) == NeuronNodes(42.0, 28.0, 14.0, 14.0, 14.0, 1.0);
    assert Propagate(NeuronNodes(42.0, 0.0, 14.0, 14.0, 14.0, 1.0), 3, 1) == NeuronNodes(42.0, 28.0, 14.0, 14.0, 14.0, 1.0);
    assert Propagate(NeuronNodes(0.0, 0.0, 14.0, 14.0, 14.0, 1.0), 3, 0) == NeuronNodes(42.0, 28.0, 14.0, 14.0, 14.0, 1.0);
  }

  lemma NeuronBackwardStep2()
    ensures WellFormed(NeuronNodes(42.0, 28.0, 14.0, 14.0, 14.0, 1.0))
    ensures Sweep(NeuronNodes(42.0, 28.0, 14.0, 14.0, 14.0, 1.0), [0, 1, 3, 2, 4, 5], 2) == Sweep(NeuronNodes(42.0, 28.0, 14.0, 14.0, 14.0, 1.0), [0, 1, 3, 2, 4, 5], 1)
  {
    assert Propagate(NeuronNodes(42.0, 28.0, 14.0, 14.0, 14.0, 1.0), 1, 0) == NeuronNodes(42.0, 28.0, 14.0, 14.0, 14.0, 1.0);
  }

  lemma NeuronBackwardStep1()
    ensures WellFormed(NeuronNodes(42.0, 28.0, 14.0, 14.0, 14.0, 1.0))
    ensures Sweep(NeuronNodes(42.0, 28.0, 14.0, 14.0, 14.0, 1.0), [0, 1, 3, 2, 4, 5], 1) == Sweep(NeuronNodes(42.0, 28.0, 14.0, 14.0, 14.0, 1.0), [0, 1, 3, 2, 4, 5], 0)
  {
    assert Propagate(NeuronNodes(42.0, 28.0, 14.0, 14.0, 14.0, 1.0), 0, 0) == NeuronNodes(42.0, 28.0, 14.0, 14.0, 14.0, 1.0);
  }

  lemma NeuronBackward()
    ensures WellFormed(NeuronNodes(0.0, 0.0, 0.0, 0.0, 0.0, 0.0))
    ensures Backward(NeuronNodes(0.0, 0.0, 0.0, 0.0, 0.0, 0.0), 5) == NeuronNodes(42.0, 28.0, 14.0, 14.0, 14.0, 1.0)
  {
    NeuronBackwardSeed();
    NeuronBackwardStep6();
    NeuronBackwardStep5();
    NeuronBackwardStep4();
    NeuronBackwardStep3();
    NeuronBackwardStep2();
    NeuronBackwardStep1();
  }

  lemma SquareBackwardOrder()
    ensures WellFormed(SquareNodes(0.0, 0.0))
    ensures TopoSort(SquareNodes(0.0, 0.0), 1) == [0, 1]
  {
  }

  lemma SquareBackwardSeed()
    ensures WellFormed(SquareNodes(0.0, 0.0))
    ensures Backward(SquareNodes(0.0, 0.0), 1) == Sweep(SquareNodes(0.0, 1.0), [0, 1], 2)
  {
    SquareBackwardOrder();
    assert WithGrad(SquareNodes(0.0, 0.0), 1, 1.0) == SquareNodes(0.0, 1.0);
  }

  lemma SquareBackwardStep2()
    ensures WellFormed(SquareNodes(0.0, 1.0))
    ensures Sweep(SquareNodes(0.0, 1.0), [0, 1], 2) == Sweep(SquareNodes(6.0, 1.0), [0, 1], 1)
  {
    assert Propagate(SquareNodes(0.0, 1.0), 1, 0) == SquareNodes(6.0, 1.0);
  }

  lemma SquareBackwardStep1()
    ensures WellFormed(SquareNodes(6.0, 1.0))
    ensures Sweep(SquareNodes(6.0, 1.0), [0, 1], 1) == Sweep(SquareNodes(6.0, 1.0), [0, 1], 0)
  {
    assert Propagate(SquareNodes(6.0, 1.0), 0, 0) == SquareNodes(6.0, 1.0);
  }

  lemma SquareBackward()
    ensures WellFormed(SquareNodes(0.0, 0.0))
    ensures Backward(SquareNodes(0.0, 0.0), 1) == SquareNodes(6.0, 1.0)
  {
    SquareBackwardSeed();
    SquareBackwardStep2();
    SquareBackwardStep1();
  }

  lemma SquareBackwardAgainOrder()
    ensures WellFormed(SquareNodes(6.0, 1.0))
    ensures TopoSort(SquareNodes(6.0, 1.0), 1) == [0, 1]
  {
  }

  lemma SquareBackwardAgainSeed()
    ensures WellFormed(SquareNodes(6.0, 1.0))
    ensures Backward(SquareNodes(6.0, 1.0), 1) == Sweep(SquareNodes(6.0, 1.0), [0, 1], 2)
  {
    SquareBackwardAgainOrder();
    assert WithGrad(SquareNodes(6.0, 1.0), 1, 1.0) == SquareNodes(6.0, 1.0);
  }

  lemma SquareBackwardAgainStep2()
    ensures WellFormed(SquareNodes(6.0, 1.0))
    ensures Sweep(SquareNodes(6.0, 1.0), [0, 1], 2) == Sweep(SquareNodes(12.0, 1.0), [0, 1], 1)
  {
    assert Propagate(SquareNodes(6.0, 1.0), 1, 0) == SquareNodes(12.0, 1.0);
  }

  lemma SquareBackwardAgainStep1()
    ensures WellFormed(SquareNodes(12.0, 1.0))
    ensures Sweep(SquareNodes(12.0, 1.0), [0, 1], 1) == Sweep(SquareNodes(12.0, 1.0), [0, 1], 0)
  {
    assert Propagate(SquareNodes(12.0, 1.0), 0, 0) == SquareNodes(12.0, 1.0);
  }

  lemma SquareBackwardAgain()
    ensures WellFormed(SquareNodes(6.0, 1.0))
    ensures Backward(SquareNodes(6.0, 1.0), 1) == SquareNodes(12.0, 1.0)
  {
    SquareBackwardAgainSeed();
    SquareBackwardAgainStep2();
    SquareBackwardAgainStep1();
  }

  lemma SquareZeroGrad()
    ensures WellFormed(SquareNodes(6.0, 1.0))
    ensures ZeroGrad(SquareNodes(6.0, 1.0), 1) == SquareNodes(0.0, 0.0)
  {
    assert Reach(SquareNodes(6.0, 1.0), 1) == {0, 1};
  }
}

=== FILE: reverse_graph.dfy ===
/** The computation graph of reverse-mode autodiff
    (03-advanced/03-reverse-autodiff/autodiff.cpp), as an arena: nodes live
    in a sequence and refer to their operands by position. Every operation
    appends its result after its operands, so every backward edge points to
    a smaller position and the graph is acyclic by construction. */
module ReverseGraph {

  /** A backward edge of `struct BackwardEdge`: the operand it feeds and the
      local partial derivative d(result)/d(operand). The source stores a
      closure that multiplies the result's gradient by this partial; the
      closure reads only values, which never change once built, so the
      partial is stored as a number. */
  datatype Edge = Edge(input: nat, partial: real)

  /** `struct Var`: value, accumulated gradient and backward edges. */
  datatype Node = Node(val: real, grad: real, edges: seq<Edge>)

  type Graph = seq<Node>

  /** Every edge points strictly backwards in the arena. */
  predicate WellFormed(g: Graph)
  {
    forall v, k | 0 <= v < |g| && 0 <= k < |g[v].edges| :: g[v].edges[k].input < v
  }

  /** Two graphs with the same nodes, values and edges; only gradients may differ. */
  predicate SameStructure(g: Graph, h: Graph)
  {
    |g| == |h| &&
    forall x | 0 <= x < |g| :: g[x].val == h[x].val && g[x].edges == h[x].edges
  }

  /** Changing gradients keeps the graph well formed. */
  lemma SameStructureWellFormed(g: Graph, h: Graph)
    requires WellFormed(g) && SameStructure(g, h)
    ensures WellFormed(h)
  {
    forall x, j | 0 <= x < |h| && 0 <= j < |h[x].edges|
      ensures h[x].edges[j].input < x
    {
      assert h[x].edges == g[x].edges;
    }
  }

  lemma SameStructureTrans(g: Graph, h: Graph, k: Graph)
    requires SameStructure(g, h) && SameStructure(h, k)
    ensures SameStructure(g, k)
  {
  }

  /** The node with its gradient replaced. */
  function WithGrad(g: Graph, x: nat, d: real): (r: Graph)
    requires x < |g|
    ensures |r| == |g| && r[x].grad == d
    ensures SameStructure(g, r)
    ensures forall y | 0 <= y < |g| && y != x :: r[y] == g[y]
  {
    g[x := g[x].(grad := d)]
  }

  /** The nodes reachable from `v` along backward edges, `v` included: the
      part of the graph that `topo_sort`, `backward` and `zero_grad`
      started at `v` can touch. */
  function Reach(g: Graph, v: nat): set<nat>
    requires WellFormed(g) && v < |g|
    decreases v, 1
  {
    {v} + ReachEdges(g, v, 0)
  }

  /** The nodes reachable through edges `k..` of `v`. */
  function ReachEdges(g: Graph, v: nat, k: nat): set<nat>
    requires WellFormed(g) && v < |g| && k <= |g[v].edges|
    decreases v, 0, |g[v].edges| - k
  {
    if k == |g[v].edges| then {}
    else Reach(g, g[v].edges[k].input) + ReachEdges(g, v, k + 1)
  }

  /** Reachable nodes lie at or below the start node. */
  lemma {:induction false} ReachBelow(g: Graph, v: nat)
    requires WellFormed(g) && v < |g|
    ensures v in Reach(g, v)
    ensures forall y | y in Reach(g, v) :: y <= v
    decreases v, 1
  {
    ReachEdgesBelow(g, v, 0);
  }

  lemma {:induction false} ReachEdgesBelow(g: Graph, v: nat, k: nat)
    requires WellFormed(g) && v < |g| && k <= |g[v].edges|
    ensures forall y | y in ReachEdges(g, v, k) :: y < v
    decreases v, 0, |g[v].edges| - k
  {
    if k < |g[v].edges| {
      ReachBelow(g, g[v].edges[k].input);
      ReachEdgesBelow(g, v, k + 1);
    }
  }

  /** The operands of `v` are exactly what `ReachEdges` starts from. */
  lemma {:induction false} ReachEdgesMember(g: Graph, v: nat, k: nat, y: nat)
    requires WellFormed(g) && v < |g| && k <= |g[v].edges|
    ensures y in ReachEdges(g, v, k) <==>
            exists j | k <= j < |g[v].edges| :: y in Reach(g, g[v].edges[j].input)
    decreases |g[v].edges| - k
  {
    if k < |g[v].edges| {
      ReachEdgesMember(g, v, k + 1, y);
    }
  }

  /** Every operand of `v` is reachable from `v`. */
  lemma OperandReachable(g: Graph, v: nat, k: nat)
    requires WellFormed(g) && v < |g| && k < |g[v].edges|
    ensures g[v].edges[k].input in Reach(g, v)
    ensures Reach(g, g[v].edges[k].input) <= Reach(g, v)
  {
    var c := g[v].edges[k].input;
    ReachBelow(g, c);
    forall y | y in Reach(g, c)
      ensures y in Reach(g, v)
    {
      ReachEdgesMember(g, v, 0, y);
    }
  }

  /** Reachability is transitive. */
  lemma {:induction false} ReachTransitive(g: Graph, v: nat, y: nat)
    requires WellFormed(g) && v < |g| && y in Reach(g, v)
    ensures y < |g| && Reach(g, y) <= Reach(g, v)
    decreases v
  {
    ReachBelow(g, v);
    if y != v {
      ReachEdgesMember(g, v, 0, y);
      var j :| 0 <= j < |g[v].edges| && y in Reach(g, g[v].edges[j].input);
      ReachTransitive(g, g[v].edges[j].input, y);
      OperandReachable(g, v, j);
    }
  }

  /** The operands of a reachable node are reachable. */
  lemma ReachClosed(g: Graph, v: nat, y: nat, k: nat)
    requires WellFormed(g) && v < |g| && y in Reach(g, v)
    requires y < |g| && k < |g[y].edges|
    ensures g[y].edges[k].input in Reach(g, v)
  {
    ReachTransitive(g, v, y);
    OperandReachable(g, y, k);
  }

  /** Reachability depends only on the edges, not on the gradients. */
  lemma {:induction false} ReachSameStructure(g: Graph, h: Graph, v: nat)
    requires WellFormed(g) && SameStructure(g, h) && v < |g|
    ensures WellFormed(h)
    ensures Reach(g, v) == Reach(h, v)
    decreases v, 1
  {
    ReachEdgesSameStructure(g, h, v, 0);
  }

  lemma {:induction false} ReachEdgesSameStructure(g: Graph, h: Graph, v: nat, k: nat)
    requires WellFormed(g) && SameStructure(g, h) && v < |g| && k <= |g[v].edges|
    ensures WellFormed(h)
    ensures ReachEdges(g, v, k) == ReachEdges(h, v, k)
    decreases v, 0, |g[v].edges| - k
  {
    SameStructureWellFormed(g, h);
    if k < |g[v].edges| {
      ReachSameStructure(g, h, g[v].edges[k].input);
      ReachEdgesSameStructure(g, h, v, k + 1);
    }
  }

  /** `g` followed by more nodes. */
  predicate Extends(g: Graph, h: Graph)
  {
    |g| <= |h| && h[..|g|] == g
  }

  lemma ExtendsTransitive(g: Graph, g1: Graph, h: Graph)
    requires Extends(g, g1) && Extends(g1, h)
    ensures Extends(g, h)
  {
    assert h[..|g|] == h[..|g1|][..|g|];
  }

  /** Appending nodes never changes what an existing node reaches, so the
      passes started at an old node cannot see later nodes. */
  lemma {:induction false} ReachExtend(g: Graph, h: Graph, v: nat)
    requires WellFormed(g) && WellFormed(h) && Extends(g, h) && v < |g|
    ensures Reach(g, v) == Reach(h, v)
    decreases v, 1
  {
    ReachEdgesExtend(g, h, v, 0);
  }

  lemma {:induction false} ReachEdgesExtend(g: Graph, h: Graph, v: nat, k: nat)
    requires WellFormed(g) && WellFormed(h) && Extends(g, h) && v < |g| && k <= |g[v].edges|
    ensures h[v] == g[v]
    ensures ReachEdges(g, v, k) == ReachEdges(h, v, k)
    decreases v, 0, |g[v].edges| - k
  {
    assert h[v] == h[..|g|][v];
    if k < |g[v].edges| {
      ReachExtend(g, h, g[v].edges[k].input);
      ReachEdgesExtend(g, h, v, k + 1);
    }
  }
}

=== FILE: reverse_ops.dfy ===
/** Building the reverse-mode graph: leaves (`Var(v)`, promoted numbers)
    and the `op_*` constructors of
    03-advanced/03-reverse-autodiff/autodiff.cpp, each of which appends one
    node with one backward edge per operand. */
module ReverseOps {
  import opened PyObjects
  import opened RealMath
  import opened ReverseGraph
  import F = ForwardMode

  /** `new Var(v)`: a leaf with gradient 0 and no backward edges. */
  function NewVar(g: Graph, v: real): (r: Graph)
    requires WellFormed(g)
    ensures WellFormed(r) && Extends(g, r) && |r| == |g| + 1
    ensures r[|g|].val == v && r[|g|].grad == 0.0 && r[|g|].edges == []
  {
    g + [Node(v, 0.0, [])]
  }

  /** The value `op_add`, `op_sub`, `op_mul`, `op_div` store in the result. */
  function BinaryValue(op: F.BinaryOp, x: real, y: real): real
    requires op.DivOp? ==> y != 0.0
  {
    match op
    case AddOp => x + y
    case SubOp => x - y
    case MulOp => x * y
    case DivOp => x / y
  }

  /** The partials the two backward edges multiply the result's gradient by:
      (1, 1), (1, -1), (b, a) and (1/b, -a/b²). */
  function BinaryPartials(op: F.BinaryOp, x: real, y: real): (real, real)
    requires op.DivOp? ==> y != 0.0
  {
    match op
    case AddOp => (1.0, 1.0)
    case SubOp => (1.0, -1.0)
    case MulOp => (y, x)
    case DivOp => F.SquareNonzero(y); (1.0 / y, -x / (y * y))
  }

  datatype UnaryOp = NegOp | PowOp(n: real) | SinOp | CosOp | ExpOp | LogOp

  /** The value `op_neg`, `op_pow`, `op_sin`, `op_cos`, `op_exp`, `op_log` store. */
  function UnaryValue(m: MathLib, op: UnaryOp, x: real): real
  {
    match op
    case NegOp => -x
    case PowOp(n) => m.pow(x, n)
    case SinOp => m.sin(x)
    case CosOp => m.cos(x)
    case ExpOp => m.exp(x)
    case LogOp => m.log(x)
  }

  /** The partial of the single backward edge: -1, n·a^(n-1), cos a,
      -sin a, the result's own value exp a, and 1/a. */
  function UnaryPartial(m: MathLib, op: UnaryOp, x: real): real
    requires op.LogOp? ==> x != 0.0
  {
    match op
    case NegOp => -1.0
    case PowOp(n) => n * m.pow(x, n - 1.0)
    case SinOp => m.cos(x)
    case CosOp => -m.sin(x)
    case ExpOp => UnaryValue(m, ExpOp, x)
    case LogOp => 1.0 / x
  }

  /** The node a binary operation on values `x` (at `ia`) and `y` (at `ib`)
      creates: its value, gradient 0, and one edge to each operand carrying
      the partial with respect to it. */
  function BinaryNode(op: F.BinaryOp, x: real, y: real, ia: nat, ib: nat): Node
    requires op.DivOp? ==> y != 0.0
  {
    var p := BinaryPartials(op, x, y);
    Node(BinaryValue(op, x, y), 0.0, [Edge(ia, p.0), Edge(ib, p.1)])
  }

  /** `op_add` … `op_div`: a new node after both operands, whose edges go
      to `a` and then `b`. */
  function BuildBinary(g: Graph, op: F.BinaryOp, a: nat, b: nat): (r: Graph)
    requires WellFormed(g) && a < |g| && b < |g|
    requires op.DivOp? ==> g[b].val != 0.0
    ensures WellFormed(r) && Extends(g, r) && |r| == |g| + 1
    ensures r[|g|] == BinaryNode(op, g[a].val, g[b].val, a, b)
  {
    var p := BinaryPartials(op, g[a].val, g[b].val);
    g + [Node(BinaryValue(op, g[a].val, g[b].val), 0.0, [Edge(a, p.0), Edge(b, p.1)])]
  }

  /** `op_neg`, `op_pow`, `op_sin`, `op_cos`, `op_exp`, `op_log`: a new
      node after its operand with a single edge to it. */
  function BuildUnary(m: MathLib, g: Graph, op: UnaryOp, a: nat): (r: Graph)
    requires WellFormed(g) && a < |g|
    requires op.LogOp? ==> g[a].val != 0.0
    ensures WellFormed(r) && Extends(g, r) && |r| == |g| + 1
    ensures r[|g|].val == UnaryValue(m, op, g[a].val) && r[|g|].grad == 0.0
    ensures r[|g|].edges == [Edge(a, UnaryPartial(m, op, g[a].val))]
  {
    g + [Node(UnaryValue(m, op, g[a].val), 0.0, [Edge(a, UnaryPartial(m, op, g[a].val))])]
  }

  // ------------------------------------------------------------------
  // Cross-check with forward mode: a node's value and edge partials are
  // what the dual-number operator computes when the corresponding operand
  // is seeded as the variable and the other one as a constant.
  // ------------------------------------------------------------------

  lemma BinaryAgreesWithForward(op: F.BinaryOp, x: real, y: real)
    requires op.DivOp? ==> y != 0.0
    ensures F.ApplyBinary(op, F.Variable(x), F.Constant(y)) ==
            F.Dual(BinaryValue(op, x, y), BinaryPartials(op, x, y).0)
    ensures F.ApplyBinary(op, F.Constant(x), F.Variable(y)) ==
            F.Dual(BinaryValue(op, x, y), BinaryPartials(op, x, y).1)
  {
    if op.DivOp? {
      QuotientOfVariable(x, y);
    }
  }

  lemma QuotientOfVariable(x: real, y: real)
    requires y != 0.0
    ensures y * y != 0.0
    ensures F.QuotientRule(x, 1.0, y, 0.0) == 1.0 / y
    ensures F.QuotientRule(x, 0.0, y, 1.0) == -x / (y * y)
  {
    F.SquareNonzero(y);
    assert 1.0 * y - x * 0.0 == y;
    assert 0.0 * y - x * 1.0 == -x;
    assert (1.0 / y) * (y * y) == y;
  }

  /** The forward-mode function with the same derivative rule. */
  function ForwardUnary(m: MathLib, op: UnaryOp, x: F.Dual): F.Dual
    requires op.LogOp? ==> x.val != 0.0
  {
    match op
    case NegOp => F.Neg(x)
    case PowOp(n) => F.Pow(m, x, n)
    case SinOp => F.Sin(m, x)
    case CosOp => F.Cos(m, x)
    case ExpOp => F.Exp(m, x)
    case LogOp => F.Log(m, x)
  }

  lemma UnaryAgreesWithForward(m: MathLib, op: UnaryOp, x: real)
    requires op.LogOp? ==> x != 0.0
    ensures ForwardUnary(m, op, F.Variable(x)) == F.Dual(UnaryValue(m, op, x), UnaryPartial(m, op, x))
    ensures ForwardUnary(m, op, F.Constant(x)) == F.Constant(UnaryValue(m, op, x))
  {
  }

  // ------------------------------------------------------------------
  // The Python entry points.
  // ------------------------------------------------------------------

  /** An operand: an existing `Var` (by arena position) or another Python object. */
  datatype Operand = VarRef(i: nat) | Object(v: Value)

  predicate Known(g: Graph, o: Operand)
  {
    o.VarRef? ==> o.i < |g|
  }

  /** `get_var`: a `Var` passes through; a Python int or float becomes a
      fresh constant leaf; anything else is refused. Returns the graph and
      the operand's position. */
  function GetVar(g: Graph, o: Operand): (r: Option<(Graph, nat)>)
    requires WellFormed(g) && Known(g, o)
    ensures o.VarRef? ==> r == Some((g, o.i))
    ensures o.Object? ==> (r.Some? <==> AsDouble(o.v).Some?)
    ensures o.Object? && r.Some? ==>
              r.value.1 == |g| && Extends(g, r.value.0) && |r.value.0| == |g| + 1 &&
              r.value.0[|g|] == Node(AsDouble(o.v).value, 0.0, [])
    ensures r.Some? ==> WellFormed(r.value.0) && Extends(g, r.value.0) && r.value.1 < |r.value.0|
  {
    match o
    case VarRef(i) => Some((g, i))
    case Object(v) =>
      match AsDouble(v)
      case Some(x) => Some((NewVar(g, x), |g|))
      case None => None
  }

  /** The value an operand has once `get_var` accepted it. */
  function OperandValue(g: Graph, o: Operand): Option<real>
    requires Known(g, o)
  {
    match o
    case VarRef(i) => Some(g[i].val)
    case Object(v) => AsDouble(v)
  }

  /** The number of leaves `get_var` appends for an accepted operand. */
  function Promoted(o: Operand): nat
  {
    if o.Object? then 1 else 0
  }

  /** Where an accepted operand sits once `get_var` has run on a graph of
      `next` nodes: a `Var` at its own position, a number at the new leaf. */
  function Position(o: Operand, next: nat): nat
  {
    if o.VarRef? then o.i else next
  }

  /** What a binary operator slot leaves behind once both operands are
      accepted: number operands became constant leaves, `a`'s first, and
      the result node `v` comes last, built on the operands' positions. */
  predicate BinaryResult(g: Graph, op: F.BinaryOp, a: Operand, b: Operand, h: Graph, v: nat)
    requires Known(g, a) && Known(g, b) && OperandValue(g, a).Some? && OperandValue(g, b).Some?
    requires op.DivOp? ==> OperandValue(g, b).value != 0.0
  {
    var x, y := OperandValue(g, a).value, OperandValue(g, b).value;
    WellFormed(h) && Extends(g, h) &&
    v == |g| + Promoted(a) + Promoted(b) && |h| == v + 1 &&
    (a.Object? ==> h[|g|] == Node(x, 0.0, [])) &&
    (b.Object? ==> h[|g| + Promoted(a)] == Node(y, 0.0, [])) &&
    h[v] == BinaryNode(op, x, y, Position(a, |g|), Position(b, |g| + Promoted(a)))
  }

  /** `Var_add`, `Var_sub`, `Var_mul`, `Var_div`: if either operand is
      refused the slot answers NotImplemented (`None`); otherwise numbers
      become constant leaves, `a` first, and the result node follows them
      with one edge to each operand carrying its partial. */
  function BinarySlot(g: Graph, op: F.BinaryOp, a: Operand, b: Operand): (r: Option<(Graph, nat)>)
    requires WellFormed(g) && Known(g, a) && Known(g, b)
    requires op.DivOp? && OperandValue(g, b).Some? ==> OperandValue(g, b).value != 0.0
    ensures r.Some? <==> OperandValue(g, a).Some? && OperandValue(g, b).Some?
    ensures r.Some? ==> BinaryResult(g, op, a, b, r.value.0, r.value.1)
  {
    match GetVar(g, a)
    case None => None
    case Some((g1, ia)) =>
      match GetVar(g1, b)
      case None => None
      case Some((g2, ib)) =>
        BinaryOnPlaced(g, op, a, b, g1, ia, g2, ib);
        Some((BuildBinary(g2, op, ia, ib), |g2|))
  }

  lemma BinaryOnPlaced(g: Graph, op: F.BinaryOp, a: Operand, b: Operand, g1: Graph, ia: nat, g2: Graph, ib: nat)
    requires WellFormed(g) && Known(g, a) && Known(g, b)
    requires GetVar(g, a) == Some((g1, ia))
    requires Known(g1, b) && GetVar(g1, b) == Some((g2, ib))
    requires op.DivOp? && OperandValue(g, b).Some? ==> OperandValue(g, b).value != 0.0
    ensures OperandValue(g, a).Some? && OperandValue(g, b).Some?
    ensures WellFormed(g2) && ia < |g2| && ib < |g2| && (op.DivOp? ==> g2[ib].val != 0.0)
    ensures BinaryResult(g, op, a, b, BuildBinary(g2, op, ia, ib), |g2|)
  {
    OperandsPlaced(g, a, b, g1, ia, g2, ib);
    var h := BuildBinary(g2, op, ia, ib);
    ExtendsTransitive(g, g2, h);
    assert h[ia] == g2[ia] && h[ib] == g2[ib] by {
      assert h[ia] == h[..|g2|][ia];
      assert h[ib] == h[..|g2|][ib];
    }
  }

  /** Where `get_var` leaves two accepted operands, `a` converted first. */
  lemma OperandsPlaced(g: Graph, a: Operand, b: Operand, g1: Graph, ia: nat, g2: Graph, ib: nat)
    requires WellFormed(g) && Known(g, a) && Known(g, b)
    requires GetVar(g, a) == Some((g1, ia))
    requires Known(g1, b) && GetVar(g1, b) == Some((g2, ib))
    ensures OperandValue(g, a).Some? && OperandValue(g, b).Some?
    ensures WellFormed(g2) && Extends(g, g2) && |g2| == |g| + Promoted(a) + Promoted(b)
    ensures ia == Position(a, |g|) && ib == Position(b, |g| + Promoted(a))
    ensures ia < |g2| && ib < |g2|
    ensures g2[ia].val == OperandValue(g, a).value && g2[ib].val == OperandValue(g, b).value
    ensures a.Object? ==> g2[ia] == Node(OperandValue(g, a).value, 0.0, [])
    ensures b.Object? ==> g2[ib] == Node(OperandValue(g, b).value, 0.0, [])
  {
    ExtendsTransitive(g, g1, g2);
    assert g2[ia] == g1[ia] by {
      assert g2[ia] == g2[..|g1|][ia];
    }
    if b.VarRef? {
      assert g1[b.i] == g1[..|g|][b.i];
    }
  }

  /** `Var_neg`: a number operand becomes a constant leaf first; the result
      node's single edge carries the partial -1. */
  function NegSlot(m: MathLib, g: Graph, a: Operand): (r: Option<(Graph, nat)>)
    requires WellFormed(g) && Known(g, a)
    ensures r.Some? <==> OperandValue(g, a).Some?
    ensures r.Some? ==>
              var (h, v) := r.value;
              var x, ia := OperandValue(g, a).value, Position(a, |g|);
              WellFormed(h) && Extends(g, h) && v == |g| + Promoted(a) && |h| == v + 1 &&
              (a.Object? ==> h[ia] == Node(x, 0.0, [])) &&
              h[v] == Node(-x, 0.0, [Edge(ia, -1.0)])
  {
    match GetVar(g, a)
    case None => None
    case Some((g1, ia)) =>
      var h := BuildUnary(m, g1, NegOp, ia);
      assert h[ia] == g1[ia] by { assert h[ia] == h[..|g1|][ia]; }
      Some((h, |g1|))
  }

  /** `autodiff.sin`, `cos`, `exp`, `log`, `pow`: a refused argument
      raises TypeError; otherwise the result node follows the (possibly
      promoted) argument with one edge carrying the function's derivative. */
  function MathCall(m: MathLib, g: Graph, op: UnaryOp, a: Operand): (r: Result<(Graph, nat)>)
    requires WellFormed(g) && Known(g, a) && !op.NegOp?
    requires op.LogOp? && OperandValue(g, a).Some? ==> OperandValue(g, a).value != 0.0
    ensures r.Err? <==> OperandValue(g, a).None?
    ensures r.Err? ==> r.error == TypeError("Expected Var or number")
    ensures r.Ok? ==>
              var (h, v) := r.value;
              var x, ia := OperandValue(g, a).value, Position(a, |g|);
              WellFormed(h) && Extends(g, h) && v == |g| + Promoted(a) && |h| == v + 1 &&
              (a.Object? ==> h[ia] == Node(x, 0.0, [])) &&
              h[v] == Node(UnaryValue(m, op, x), 0.0, [Edge(ia, UnaryPartial(m, op, x))])
  {
    match GetVar(g, a)
    case None => Err(TypeError("Expected Var or number"))
    case Some((g1, ia)) =>
      var h := BuildUnary(m, g1, op, ia);
      assert h[ia] == g1[ia] by { assert h[ia] == h[..|g1|][ia]; }
      Ok((h, |g1|))
  }
}

=== FILE: reverse_topo.dfy ===
/** `Var::topo_sort` (03-advanced/03-reverse-autodiff/autodiff.cpp): a
    depth-first search over backward edges that marks a node visited on
    entry and emits it after all its operands (post-order). */
module Topological {
  import opened ReverseGraph

  /** The `order` vector and the `visited` set the recursion threads through. */
  datatype Dfs = Dfs(order: seq<nat>, visited: set<nat>)

  /** `topo_sort` on node `v`. */
  function Visit(g: Graph, v: nat, s: Dfs): Dfs
    requires WellFormed(g) && v < |g|
    decreases v, 1
  {
    if v in s.visited then s
    else
      var s1 := VisitEdges(g, v, 0, Dfs(s.order, s.visited + {v}));
      Dfs(s1.order + [v], s1.visited)
  }

  /** The loop over `backward_edges`, from edge `k` on. */
  function VisitEdges(g: Graph, v: nat, k: nat, s: Dfs): Dfs
    requires WellFormed(g) && v < |g| && k <= |g[v].edges|
    decreases v, 0, |g[v].edges| - k
  {
    if k == |g[v].edges| then s
    else VisitEdges(g, v, k + 1, Visit(g, g[v].edges[k].input, s))
  }

  predicate Distinct(s: seq<nat>)
  {
    forall p, q | 0 <= p < q < |s| :: s[p] != s[q]
  }

  function Members(s: seq<nat>): set<nat>
  {
    set x | x in s
  }

  /** Every node of `s` comes after all its operands. */
  predicate OperandsFirst(g: Graph, s: seq<nat>)
  {
    forall p, k | 0 <= p < |s| && s[p] < |g| && 0 <= k < |g[s[p]].edges| ::
      g[s[p]].edges[k].input in s[..p]
  }

  /** Nodes entered but not yet emitted: the nodes on the recursion stack. */
  function Pending(s: Dfs): set<nat>
  {
    s.visited - Members(s.order)
  }

  /** What holds between calls: emitted nodes are visited, distinct and
      emitted after their operands. */
  predicate Good(g: Graph, s: Dfs)
  {
    (forall u | u in s.visited :: u < |g|) &&
    Members(s.order) <= s.visited &&
    Distinct(s.order) && OperandsFirst(g, s.order)
  }

  /** The nodes emitted so far are closed under reachability. */
  lemma {:induction false} EmittedClosed(g: Graph, s: Dfs, x: nat)
    requires WellFormed(g) && Good(g, s) && x in s.order
    ensures x < |g| && Reach(g, x) <= Members(s.order)
    decreases x
  {
    var p :| 0 <= p < |s.order| && s.order[p] == x;
    assert x in s.visited;
    forall y | y in Reach(g, x)
      ensures y in s.order
    {
      if y != x {
        ReachEdgesMember(g, x, 0, y);
        var j :| 0 <= j < |g[x].edges| && y in Reach(g, g[x].edges[j].input);
        var c := g[x].edges[j].input;
        assert c in s.order[..p];
        EmittedClosed(g, s, c);
      }
    }
  }

  /** `r` continues the search state `s` by emitting exactly `added`. */
  predicate Continues(g: Graph, s: Dfs, r: Dfs, added: set<nat>)
  {
    Good(g, r) && |s.order| <= |r.order| && r.order[..|s.order|] == s.order &&
    Pending(r) == Pending(s) &&
    Members(r.order) == Members(s.order) + added &&
    r.visited == s.visited + added
  }

  /** The contract of `topo_sort` on `v`: everything reachable from `v`
      gets emitted, the emitted prefix and the recursion stack are kept. */
  lemma {:induction false} VisitSpec(g: Graph, v: nat, s: Dfs)
    requires WellFormed(g) && v < |g| && Good(g, s)
    requires forall u | u in Pending(s) :: u > v
    ensures Continues(g, s, Visit(g, v, s), Reach(g, v))
    decreases v, 2
  {
    ReachBelow(g, v);
    if v in s.visited {
      assert v !in Pending(s);
      EmittedClosed(g, s, v);
    } else {
      VisitFresh(g, v, s);
    }
  }

  lemma {:induction false} VisitFresh(g: Graph, v: nat, s: Dfs)
    requires WellFormed(g) && v < |g| && Good(g, s) && v !in s.visited
    requires forall u | u in Pending(s) :: u > v
    ensures Continues(g, s, Visit(g, v, s), Reach(g, v))
    decreases v, 1
  {
    var s0 := Dfs(s.order, s.visited + {v});
    assert Good(g, s0) && Pending(s0) == Pending(s) + {v} by {
      ReachBelow(g, v);
    }
    VisitEdgesSpec(g, v, 0, s0);
    var s1 := VisitEdges(g, v, 0, s0);
    OperandsEmitted(g, v, s1.order);
    Emit(g, v, s1);
    EnterThenEmit(g, v, s, s1, Dfs(s1.order + [v], s1.visited));
  }

  /** Entering `v`, searching its operands and emitting `v` adds exactly
      the nodes reachable from `v`. */
  lemma EnterThenEmit(g: Graph, v: nat, s: Dfs, s1: Dfs, r: Dfs)
    requires WellFormed(g) && v < |g| && v !in s.visited && Members(s.order) <= s.visited
    requires |s.order| <= |s1.order| && s1.order[..|s.order|] == s.order
    requires Pending(s1) == Pending(s) + {v}
    requires Members(s1.order) == Members(s.order) + ReachEdges(g, v, 0)
    requires s1.visited == s.visited + {v} + ReachEdges(g, v, 0)
    requires r == Dfs(s1.order + [v], s1.visited) && Good(g, r)
    requires Members(r.order) == Members(s1.order) + {v} && Pending(r) == Pending(s1) - {v}
    ensures Continues(g, s, r, Reach(g, v))
  {
    PrefixKept(s.order, s1.order, v);
    var below := ReachEdges(g, v, 0);
    assert Reach(g, v) == {v} + below;
    SetsAfterEmit(s.visited, Members(s.order), s1.visited, Members(s1.order), Members(r.order),
                  below, v);
  }

  /** Appending after an extension of `a` keeps `a` as a prefix. */
  lemma PrefixKept(a: seq<nat>, b: seq<nat>, v: nat)
    requires |a| <= |b| && b[..|a|] == a
    ensures (b + [v])[..|a|] == a
  {
    assert (b + [v])[..|a|] == b[..|a|];
  }

  /** The set algebra of entering `v`, visiting `below` and emitting `v`:
      the stack is restored, and emitted and visited nodes grow by
      `{v} + below`. */
  lemma SetsAfterEmit(visited: set<nat>, emitted: set<nat>, visited1: set<nat>, emitted1: set<nat>,
                      emittedR: set<nat>, below: set<nat>, v: nat)
    requires v !in visited && emitted <= visited
    requires visited1 - emitted1 == (visited - emitted) + {v}
    requires emitted1 == emitted + below && visited1 == visited + {v} + below
    requires emittedR == emitted1 + {v}
    ensures visited1 - emittedR == visited - emitted
    ensures emittedR == emitted + ({v} + below) && visited1 == visited + ({v} + below)
  {
  }

  lemma OperandsEmitted(g: Graph, v: nat, order: seq<nat>)
    requires WellFormed(g) && v < |g| && ReachEdges(g, v, 0) <= Members(order)
    ensures forall k | 0 <= k < |g[v].edges| :: g[v].edges[k].input in order
  {
    forall k | 0 <= k < |g[v].edges|
      ensures g[v].edges[k].input in order
    {
      var c := g[v].edges[k].input;
      ReachBelow(g, c);
      ReachEdgesMember(g, v, 0, c);
    }
  }

  /** Emitting `v` once all its operands are out keeps the invariant and
      takes `v` off the stack. */
  lemma Emit(g: Graph, v: nat, s: Dfs)
    requires WellFormed(g) && v < |g| && Good(g, s) && v in Pending(s)
    requires forall k | 0 <= k < |g[v].edges| :: g[v].edges[k].input in s.order
    ensures var r := Dfs(s.order + [v], s.visited);
            Good(g, r) && r.order[..|s.order|] == s.order &&
            Members(r.order) == Members(s.order) + {v} &&
            Pending(r) == Pending(s) - {v}
  {
    var r := Dfs(s.order + [v], s.visited);
    assert OperandsFirst(g, r.order) by {
      forall p, k | 0 <= p < |r.order| && r.order[p] < |g| && 0 <= k < |g[r.order[p]].edges|
        ensures g[r.order[p]].edges[k].input in r.order[..p]
      {
        if p < |s.order| {
          assert r.order[..p] == s.order[..p];
        } else {
          assert r.order[..p] == s.order;
        }
      }
    }
    assert Members(r.order) == Members(s.order) + {v};
  }

  lemma {:induction false} VisitEdgesSpec(g: Graph, v: nat, k: nat, s: Dfs)
    requires WellFormed(g) && v < |g| && k <= |g[v].edges| && Good(g, s)
    requires v in Pending(s) && forall u | u in Pending(s) :: u >= v
    ensures Continues(g, s, VisitEdges(g, v, k, s), ReachEdges(g, v, k))
    decreases v, 0, |g[v].edges| - k
  {
    if k < |g[v].edges| {
      var c := g[v].edges[k].input;
      VisitSpec(g, c, s);
      var s1 := Visit(g, c, s);
      VisitEdgesSpec(g, v, k + 1, s1);
      ContinuesChain(g, s, s1, VisitEdges(g, v, k + 1, s1), Reach(g, c), ReachEdges(g, v, k + 1));
    }
  }

  /** Two continuations in a row are one continuation adding both sets. */
  lemma ContinuesChain(g: Graph, s: Dfs, s1: Dfs, r: Dfs, a: set<nat>, b: set<nat>)
    requires Continues(g, s, s1, a) && Continues(g, s1, r, b)
    ensures Continues(g, s, r, a + b)
  {
    assert r.order[..|s.order|] == r.order[..|s1.order|][..|s.order|];
  }

  /** `topo_sort` called from `backward`, with an empty order and visited set. */
  function TopoSort(g: Graph, root: nat): (order: seq<nat>)
    requires WellFormed(g) && root < |g|
  {
    Visit(g, root, Dfs([], {})).order
  }

  /** Every node reachable from the root is emitted exactly once, each after
      all of its operands, nothing else is emitted, and the root comes last. */
  lemma TopoSortSpec(g: Graph, root: nat, order: seq<nat>)
    requires WellFormed(g) && root < |g| && order == TopoSort(g, root)
    ensures Members(order) == Reach(g, root)
    ensures forall p | 0 <= p < |order| :: order[p] <= root
    ensures Distinct(order)
    ensures OperandsFirst(g, order)
    ensures |order| > 0 && order[|order| - 1] == root
  {
    var s := Dfs([], {});
    VisitSpec(g, root, s);
    ReachBelow(g, root);
    assert forall p | 0 <= p < |order| :: order[p] in Members(order);
  }
}

=== FILE: reverse_zero.dfy ===
/** `Var::zero_grad` and `zero_grad_helper`
    (03-advanced/03-reverse-autodiff/autodiff.cpp): a pre-order depth-first
    search with a visited set that sets the gradient of every node it enters
    to 0. */
module GradReset {
  import opened ReverseGraph
  import opened Topological
  import opened Backprop

  /** The search state: the graph being cleared, the `visited` set, and the
      nodes cleared so far in the order they were cleared. */
  datatype Clearing = Clearing(graph: Graph, visited: set<nat>, cleared: seq<nat>)

  /** `zero_grad_helper` on node `v`. Edges are read from `g`, which has the
      same structure as the graph being cleared. */
  function ZeroVisit(g: Graph, v: nat, s: Clearing): (r: Clearing)
    requires WellFormed(g) && v < |g| && SameStructure(g, s.graph)
    ensures SameStructure(g, r.graph)
    decreases v, 1
  {
    if v in s.visited then s
    else
      var s0 := Clearing(WithGrad(s.graph, v, 0.0), s.visited + {v}, s.cleared + [v]);
      ZeroEdges(g, v, 0, s0)
  }

  /** The loop of `zero_grad_helper` over the backward edges of `v`, from edge `k` on. */
  function ZeroEdges(g: Graph, v: nat, k: nat, s: Clearing): (r: Clearing)
    requires WellFormed(g) && v < |g| && k <= |g[v].edges| && SameStructure(g, s.graph)
    ensures SameStructure(g, r.graph)
    decreases v, 0, |g[v].edges| - k
  {
    if k == |g[v].edges| then s
    else ZeroEdges(g, v, k + 1, ZeroVisit(g, g[v].edges[k].input, s))
  }

  /** What holds between calls: every visited node was cleared exactly once. */
  predicate Sound(g: Graph, s: Clearing)
  {
    SameStructure(g, s.graph) && Distinct(s.cleared) && Members(s.cleared) == s.visited &&
    forall u | u in s.visited :: u < |g|
  }

  /** `r` continues `s` by entering exactly the nodes of `added` not yet
      visited: they are appended to `cleared` and get gradient 0, every
      other gradient is unchanged. */
  predicate Clears(g: Graph, s: Clearing, r: Clearing, added: set<nat>)
  {
    Sound(g, r) && r.visited == s.visited + added &&
    |s.cleared| <= |r.cleared| && r.cleared[..|s.cleared|] == s.cleared &&
    |r.graph| == |s.graph| &&
    forall x | 0 <= x < |s.graph| ::
      r.graph[x].grad == (if x in added && x !in s.visited then 0.0 else s.graph[x].grad)
  }

  /** A visited node below `v` has had everything it reaches visited: only
      the nodes still on the recursion stack, all above `v`, are unfinished. */
  predicate Finished(g: Graph, s: Clearing, v: nat)
    requires WellFormed(g)
  {
    forall u | u in s.visited && u < |g| && u <= v :: Reach(g, u) <= s.visited
  }

  /** The contract of `zero_grad_helper` on `v`. */
  lemma {:induction false} ZeroVisitSpec(g: Graph, v: nat, s: Clearing)
    requires WellFormed(g) && v < |g| && Sound(g, s) && Finished(g, s, v)
    ensures Clears(g, s, ZeroVisit(g, v, s), Reach(g, v))
    decreases v, 1
  {
    ReachBelow(g, v);
    if v !in s.visited {
      var s0 := Clearing(WithGrad(s.graph, v, 0.0), s.visited + {v}, s.cleared + [v]);
      assert Sound(g, s0) by {
        assert Members(s0.cleared) == Members(s.cleared) + {v};
        SameStructureTrans(g, s.graph, s0.graph);
      }
      forall u | u in s0.visited && u < |g| && u < v
        ensures Reach(g, u) <= s0.visited
      {
      }
      ZeroEdgesSpec(g, v, 0, s0);
      ZeroEnterThenEdges(g, v, s, s0, ZeroEdges(g, v, 0, s0));
    }
  }

  /** Entering `v` and then clearing below its edges clears `Reach(g, v)`. */
  lemma ZeroEnterThenEdges(g: Graph, v: nat, s: Clearing, s0: Clearing, r: Clearing)
    requires WellFormed(g) && v < |g| && v !in s.visited && Sound(g, s)
    requires s0 == Clearing(WithGrad(s.graph, v, 0.0), s.visited + {v}, s.cleared + [v])
    requires Clears(g, s0, r, ReachEdges(g, v, 0))
    ensures Clears(g, s, r, Reach(g, v))
  {
    assert r.cleared[..|s.cleared|] == s.cleared by {
      assert r.cleared[..|s.cleared|] == r.cleared[..|s0.cleared|][..|s.cleared|];
    }
    ReachEdgesBelow(g, v, 0);
    forall x | 0 <= x < |s.graph|
      ensures r.graph[x].grad ==
              (if x in Reach(g, v) && x !in s.visited then 0.0 else s.graph[x].grad)
    {
      if x != v {
        assert s0.graph[x] == s.graph[x];
      }
    }
  }

  lemma {:induction false} ZeroEdgesSpec(g: Graph, v: nat, k: nat, s: Clearing)
    requires WellFormed(g) && v < |g| && k <= |g[v].edges| && Sound(g, s)
    requires forall u | u in s.visited && u < |g| && u < v :: Reach(g, u) <= s.visited
    ensures Clears(g, s, ZeroEdges(g, v, k, s), ReachEdges(g, v, k))
    decreases v, 0, |g[v].edges| - k
  {
    if k < |g[v].edges| {
      var c := g[v].edges[k].input;
      ZeroVisitSpec(g, c, s);
      var s1 := ZeroVisit(g, c, s);
      forall u | u in s1.visited && u < |g| && u < v
        ensures Reach(g, u) <= s1.visited
      {
        if u !in s.visited {
          ReachTransitive(g, c, u);
        }
      }
      ZeroEdgesSpec(g, v, k + 1, s1);
      var r := ZeroEdges(g, v, k + 1, s1);
      assert r.cleared[..|s.cleared|] == r.cleared[..|s1.cleared|][..|s.cleared|];
    }
  }

  /** `zero_grad()` on `root`, with the nodes it cleared in clearing order. */
  function ZeroGradPass(g: Graph, root: nat): (r: Clearing)
    requires WellFormed(g) && root < |g|
    ensures SameStructure(g, r.graph)
    ensures forall x | 0 <= x < |g| ::
              r.graph[x].grad == (if x in Reach(g, root) then 0.0 else g[x].grad)
    ensures Distinct(r.cleared) && Members(r.cleared) == Reach(g, root)
  {
    var s := Clearing(g, {}, []);
    assert Sound(g, s) by {
      assert Members(s.cleared) == {};
    }
    ZeroVisitSpec(g, root, s);
    ZeroVisit(g, root, s)
  }

  /** `zero_grad()` on `root`: exactly the gradients of the nodes reachable
      from `root` become 0; values, edges and all other gradients are kept. */
  function ZeroGrad(g: Graph, root: nat): (r: Graph)
    requires WellFormed(g) && root < |g|
    ensures SameStructure(g, r) && WellFormed(r)
    ensures forall x | 0 <= x < |g| :: r[x].grad == (if x in Reach(g, root) then 0.0 else g[x].grad)
  {
    var r := ZeroGradPass(g, root).graph;
    SameStructureWellFormed(g, r);
    r
  }

  /** Clearing twice is clearing once. */
  lemma ZeroGradIdempotent(g: Graph, root: nat)
    requires WellFormed(g) && root < |g|
    ensures ZeroGrad(ZeroGrad(g, root), root) == ZeroGrad(g, root)
  {
    var z := ZeroGrad(g, root);
    ReachSameStructure(g, z, root);
    var zz := ZeroGrad(z, root);
    forall x | 0 <= x < |z|
      ensures zz[x] == z[x]
    {
    }
  }

  /** `backward` changes only the gradients of nodes reachable from the
      root, and `zero_grad` from the same root clears all of those, so
      clearing after a backward pass gives what clearing alone gives. */
  lemma ZeroGradUndoesBackward(g: Graph, root: nat)
    requires WellFormed(g) && root < |g|
    ensures WellFormed(Backward(g, root))
    ensures ZeroGrad(Backward(g, root), root) == ZeroGrad(g, root)
  {
    var b := Backward(g, root);
    SameStructureWellFormed(g, b);
    ReachSameStructure(g, b, root);
    var zb := ZeroGrad(b, root);
    var z := ZeroGrad(g, root);
    forall x | 0 <= x < |g|
      ensures zb[x] == z[x]
    {
    }
  }
}

=== FILE: tensor.dfy ===
/** The toy tensor library of 02-extensions/03-tensor-ops/tensor.cpp: a
    flat buffer of doubles together with a shape, stored row by row. */
module Tensors {
  import opened PyObjects
  import opened IndexArith

  /** `struct Tensor`. */
  datatype Tensor = Tensor(data: seq<real>, shape: seq<nat>)

  /** `Tensor::size`: the dimensions multiplied together from the first on. */
  function Size(shape: seq<nat>): (n: nat)
    ensures |shape| == 0 ==> n == 1
    ensures |shape| == 1 ==> n == shape[0]
    ensures |shape| == 2 ==> n == shape[0] * shape[1]
    ensures n == 0 <==> 0 in shape
  {
    if |shape| == 0 then 1
    else
      var init := shape[..|shape| - 1];
      var last := shape[|shape| - 1];
      assert shape == init + [last];
      assert |shape| == 2 ==> init == [shape[0]];
      ZeroProduct(Size(init), last);
      Size(init) * last
  }

  /** The size of a shape is the size of its two halves multiplied: the
      order in which the loop multiplies does not matter. */
  lemma {:induction false} SizeConcat(s: seq<nat>, t: seq<nat>)
    ensures Size(s + t) == Size(s) * Size(t)
    decreases |t|
  {
    if |t| == 0 {
      assert s + t == s;
    } else {
      var init := t[..|t| - 1];
      var last := t[|t| - 1];
      assert (s + t)[..|s + t| - 1] == s + init;
      SizeConcat(s, init);
      assert Size(s + t) == (Size(s) * Size(init)) * last;
    }
  }

  /** Vectors have as many cells as their length, matrices rows × columns. */
  lemma SizeOfRanks(m: nat, n: nat)
    ensures Size([m]) == m
    ensures Size([m, n]) == m * n
  {
    assert [m][..0] == [];
    assert [m, n][..1] == [m];
  }

  /** A tensor whose buffer holds exactly `size()` doubles. */
  predicate Wf(t: Tensor)
  {
    |t.data| == Size(t.shape)
  }

  /** The object a bare `Tensor()` call creates (`tp_new` with the default
      C++ constructor): shape [] stands for one cell but the buffer is
      empty, so it is not well formed. `add` and `mul`, which read `size()`
      cells, do not apply to it; `tolist` and `matmul` reject its rank
      before reading anything. */
  lemma DefaultTensorIllFormed(b: Tensor)
    ensures Size([]) == 1 && !Wf(Tensor([], []))
    ensures ToList(Tensor([], [])) == Err(NotImplementedError("Only 1D and 2D tensors supported"))
    ensures Matmul(Tensor([], []), b) == Err(ValueError("matmul requires 2D tensors"))
    ensures Matmul(b, Tensor([], [])) == Err(ValueError("matmul requires 2D tensors"))
  {
  }

  /** `Tensor::same_shape`. */
  predicate SameShape(a: Tensor, b: Tensor)
  {
    a.shape == b.shape
  }

  // ------------------------------------------------------------------
  // Construction.
  // ------------------------------------------------------------------

  /** The shape arguments `zeros` converts without failing: `PyLong_AsSize_t`
      takes only non-negative ints, and the extension aborts on anything else
      inside an int or tuple shape. */
  predicate ShapeArgOk(v: Value)
  {
    (v.Int? ==> v.i >= 0) &&
    (v.Tuple? ==> forall k | 0 <= k < |v.items| :: v.items[k].Int? && v.items[k].i >= 0)
  }

  function Dims(items: seq<Value>): (dims: seq<nat>)
    requires forall k | 0 <= k < |items| :: items[k].Int? && items[k].i >= 0
    ensures |dims| == |items| && forall k | 0 <= k < |items| :: dims[k] == items[k].i
  {
    seq(|items|, k requires 0 <= k < |items| => items[k].i as nat)
  }

  /** `tensor.zeros(shape)`: an int is a vector length, a tuple lists the
      dimensions, anything else is a TypeError. */
  function Zeros(shape: Value): (r: Result<Tensor>)
    requires ShapeArgOk(shape)
    ensures r.Ok? <==> shape.Int? || shape.Tuple?
    ensures r.Err? ==> r.error == TypeError("shape must be int or tuple")
    ensures shape.Int? ==> r.value.shape == [shape.i]
    ensures shape.Tuple? ==>
              |r.value.shape| == |shape.items| &&
              forall k | 0 <= k < |shape.items| :: r.value.shape[k] == shape.items[k].i
    ensures r.Ok? ==> Wf(r.value) && forall p | 0 <= p < |r.value.data| :: r.value.data[p] == 0.0
  {
    var dims :=
      if shape.Int? then [shape.i as nat]
      else if shape.Tuple? then Dims(shape.items)
      else [];
    if shape.Int? || shape.Tuple? then Ok(Tensor(seq(Size(dims), _ => 0.0), dims))
    else Err(TypeError("shape must be int or tuple"))
  }

  /** The row-major buffer `from_list` fills from the first `m` rows of a
      nested list, `n` cells per row, one row after another. */
  function Grid(rows: seq<Value>, n: nat, m: nat): (data: seq<real>)
    requires m <= |rows| && AllCells(rows, n)
    ensures |data| == m * n
  {
    if m == 0 then []
    else
      assert (m - 1) * n + n == m * n;
      Grid(rows, n, m - 1) + seq(n, j requires 0 <= j < n => Cell(rows, m - 1, j).value)
  }

  /** Cell (i, j) of the nested list lands at position `i * n + j`. */
  lemma {:induction false} GridAt(rows: seq<Value>, n: nat, m: nat, i: nat, j: nat)
    requires m <= |rows| && AllCells(rows, n) && i < m && j < n
    ensures i * n + j < |Grid(rows, n, m)|
    ensures Grid(rows, n, m)[i * n + j] == Cell(rows, i, j).value
  {
    MixedBound(i, j, m, n);
    if i < m - 1 {
      GridAt(rows, n, m - 1, i, j);
      MixedBound(i, j, m - 1, n);
    }
  }

  /** `tensor.from_list(data)`: a list whose first item is a list gives a
      matrix with that row's length as column count, any other list a
      vector; a non-list is a TypeError and an item that does not convert
      (a row too short, a row not a list, a non-number) fails the call. */
  function FromList(v: Value): (r: Result<Tensor>)
    requires v.List? ==> |v.items| > 0
    ensures !v.List? ==> r == Err(TypeError("Expected list"))
    ensures v.List? && v.items[0].List? ==>
              (r.Ok? <==> AllCells(v.items, |v.items[0].items|)) &&
              (r.Ok? ==> r.value.shape == [|v.items|, |v.items[0].items|])
    ensures v.List? && !v.items[0].List? ==>
              (r.Ok? <==> AllNumbers(v.items)) &&
              (r.Ok? ==> r.value.shape == [|v.items|] && r.value.data == Doubles(v.items))
    ensures v.List? && r.Err? ==> r.error == ConversionError
    ensures r.Ok? ==> Wf(r.value)
  {
    if !v.List? then Err(TypeError("Expected list"))
    else
      var rows := v.items;
      if rows[0].List? then
        var n := |rows[0].items|;
        if AllCells(rows, n) then Ok(Tensor(Grid(rows, n, |rows|), [|rows|, n]))
        else Err(ConversionError)
      else if AllNumbers(rows) then Ok(Tensor(Doubles(rows), [|rows|]))
      else Err(ConversionError)
  }

  /** A nested list is stored row by row: element j of row i sits at
      `i * n + j`, `n` being the first row's length. */
  lemma FromListAt(v: Value, i: nat, j: nat)
    requires v.List? && |v.items| > 0 && v.items[0].List?
    requires FromList(v).Ok? && i < |v.items| && j < |v.items[0].items|
    ensures i * |v.items[0].items| + j < |FromList(v).value.data|
    ensures FromList(v).value.data[i * |v.items[0].items| + j] == Cell(v.items, i, j).value
  {
    GridAt(v.items, |v.items[0].items|, |v.items|, i, j);
  }

  // ------------------------------------------------------------------
  // Element-wise kernels.
  // ------------------------------------------------------------------

  /** `tensor.add(a, b)`. */
  function Add(a: Tensor, b: Tensor): (r: Result<Tensor>)
    requires Wf(a) && Wf(b)
    ensures r.Ok? <==> SameShape(a, b)
    ensures r.Err? ==> r.error == ValueError("Shape mismatch")
    ensures r.Ok? ==>
              Wf(r.value) && r.value.shape == a.shape && |r.value.data| == |a.data| &&
              forall p | 0 <= p < |a.data| :: r.value.data[p] == a.data[p] + b.data[p]
  {
    if !SameShape(a, b) then Err(ValueError("Shape mismatch"))
    else Ok(Tensor(seq(|a.data|, p requires 0 <= p < |a.data| => a.data[p] + b.data[p]), a.shape))
  }

  /** `tensor.mul(a, b)`: the element-wise product. */
  function Mul(a: Tensor, b: Tensor): (r: Result<Tensor>)
    requires Wf(a) && Wf(b)
    ensures r.Ok? <==> SameShape(a, b)
    ensures r.Err? ==> r.error == ValueError("Shape mismatch")
    ensures r.Ok? ==>
              Wf(r.value) && r.value.shape == a.shape && |r.value.data| == |a.data| &&
              forall p | 0 <= p < |a.data| :: r.value.data[p] == a.data[p] * b.data[p]
  {
    if !SameShape(a, b) then Err(ValueError("Shape mismatch"))
    else Ok(Tensor(seq(|a.data|, p requires 0 <= p < |a.data| => a.data[p] * b.data[p]), a.shape))
  }

  /** Both kernels are symmetric, errors included. */
  lemma ElementwiseCommute(a: Tensor, b: Tensor)
    requires Wf(a) && Wf(b)
    ensures Add(a, b) == Add(b, a)
    ensures Mul(a, b) == Mul(b, a)
  {
    if SameShape(a, b) {
      assert Add(a, b).value.data == Add(b, a).value.data;
      assert Mul(a, b).value.data == Mul(b, a).value.data;
    }
  }

  /** Adding a tensor of zeros of the same shape gives the tensor back. */
  lemma AddZeros(a: Tensor, z: Tensor)
    requires Wf(a) && Wf(z) && SameShape(a, z)
    requires forall p | 0 <= p < |z.data| :: z.data[p] == 0.0
    ensures Add(a, z) == Ok(a)
  {
    assert Add(a, z).value.data == a.data;
  }

  // ------------------------------------------------------------------
  // Matrix product.
  // ------------------------------------------------------------------

  /** The inner loop of `tensor_matmul`: `a[i*k + kk] * b[kk*n + j]` summed
      over `kk < t`, in the order the loop adds them, for an `m` × `k`
      buffer `a` and a `k` × `n` buffer `b`. */
  function RowTimesCol(a: seq<real>, b: seq<real>, m: nat, k: nat, n: nat, i: nat, j: nat, t: nat): real
    requires |a| == m * k && |b| == k * n && i < m && j < n && t <= k
  {
    if t == 0 then 0.0
    else
      MixedBound(i, t - 1, m, k);
      MixedBound(t - 1, j, k, n);
      RowTimesCol(a, b, m, k, n, i, j, t - 1) + a[i * k + t - 1] * b[(t - 1) * n + j]
  }

  /** Result position `p` of an `m` × `n` product: row `p / n`, column `p % n`. */
  function ProductAt(a: seq<real>, b: seq<real>, m: nat, k: nat, n: nat, p: nat): real
    requires |a| == m * k && |b| == k * n && p < m * n
  {
    PositionSplit(p, m, n);
    RowTimesCol(a, b, m, k, n, p / n, p % n, k)
  }

  /** The `m` × `n` result buffer of `tensor_matmul`, position by position. */
  function Product(a: seq<real>, b: seq<real>, m: nat, k: nat, n: nat): (c: seq<real>)
    requires |a| == m * k && |b| == k * n
    ensures |c| == m * n
  {
    seq(m * n, p requires 0 <= p < m * n => ProductAt(a, b, m, k, n, p))
  }

  /** `tensor.matmul(a, b)`. */
  function Matmul(a: Tensor, b: Tensor): (r: Result<Tensor>)
    requires |a.shape| == 2 && |b.shape| == 2 && a.shape[1] == b.shape[0] ==> Wf(a) && Wf(b)
    ensures |a.shape| != 2 || |b.shape| != 2 ==> r == Err(ValueError("matmul requires 2D tensors"))
    ensures |a.shape| == 2 && |b.shape| == 2 && a.shape[1] != b.shape[0] ==>
              r == Err(ValueError("Inner dimensions must match"))
    ensures r.Ok? <==> |a.shape| == 2 && |b.shape| == 2 && a.shape[1] == b.shape[0]
    ensures r.Ok? ==> Wf(r.value) && r.value.shape == [a.shape[0], b.shape[1]]
  {
    if |a.shape| != 2 || |b.shape| != 2 then Err(ValueError("matmul requires 2D tensors"))
    else if a.shape[1] != b.shape[0] then Err(ValueError("Inner dimensions must match"))
    else
      var m, k, n := a.shape[0], a.shape[1], b.shape[1];
      Ok(Tensor(Product(a.data, b.data, m, k, n), [m, n]))
  }

  /** Entry (i, j) of the product, at position `i * n + j`, is row i of `a`
      times column j of `b`. */
  lemma MatmulAt(a: Tensor, b: Tensor, i: nat, j: nat)
    requires Wf(a) && Wf(b) && Matmul(a, b).Ok?
    requires i < a.shape[0] && j < b.shape[1]
    ensures i * b.shape[1] + j < |Matmul(a, b).value.data|
    ensures Matmul(a, b).value.data[i * b.shape[1] + j] ==
            RowTimesCol(a.data, b.data, a.shape[0], a.shape[1], b.shape[1], i, j, a.shape[1])
  {
    var m, k, n := a.shape[0], a.shape[1], b.shape[1];
    MixedBound(i, j, m, n);
    DivModUnique(i * n + j, n, i, j);
  }

  // ------------------------------------------------------------------
  // Reductions and conversion.
  // ------------------------------------------------------------------

  /** The sum of `xs`, added from the front. */
  function SeqSum(xs: seq<real>): real
  {
    if |xs| == 0 then 0.0 else SeqSum(xs[..|xs| - 1]) + xs[|xs| - 1]
  }

  /** `tensor.sum(a)`: every element of the buffer, added in order. */
  method Sum(a: Tensor) returns (s: real)
    ensures s == SeqSum(a.data)
  {
    s := 0.0;
    for p := 0 to |a.data|
      invariant s == SeqSum(a.data[..p])
    {
      assert a.data[..p + 1][..p] == a.data[..p];
      s := s + a.data[p];
    }
    assert a.data[..|a.data|] == a.data;
  }

  /** Summing is linear: the sum of `add(a, b)` is the sum of `a` plus the sum of `b`. */
  lemma {:induction false} SeqSumAdd(xs: seq<real>, ys: seq<real>, zs: seq<real>)
    requires |xs| == |ys| == |zs|
    requires forall p | 0 <= p < |zs| :: zs[p] == xs[p] + ys[p]
    ensures SeqSum(zs) == SeqSum(xs) + SeqSum(ys)
    decreases |zs|
  {
    if |zs| > 0 {
      var k := |zs| - 1;
      SeqSumAdd(xs[..k], ys[..k], zs[..k]);
    }
  }

  /** A buffer of zeros sums to 0. */
  lemma {:induction false} SeqSumZeros(xs: seq<real>)
    requires forall p | 0 <= p < |xs| :: xs[p] == 0.0
    ensures SeqSum(xs) == 0.0
    decreases |xs|
  {
    if |xs| > 0 {
      SeqSumZeros(xs[..|xs| - 1]);
    }
  }

  lemma SumOfAdd(a: Tensor, b: Tensor)
    requires Wf(a) && Wf(b) && Add(a, b).Ok?
    ensures SeqSum(Add(a, b).value.data) == SeqSum(a.data) + SeqSum(b.data)
  {
    SeqSumAdd(a.data, b.data, Add(a, b).value.data);
  }

  /** Row i of an `m` × `n` row-major buffer. */
  function Row(data: seq<real>, m: nat, n: nat, i: nat): (row: seq<real>)
    requires |data| == m * n && i < m
    ensures |row| == n
    ensures forall j | 0 <= j < n :: i * n + j < |data| && row[j] == data[i * n + j]
  {
    MulMono(i + 1, m, n);
    data[i * n .. i * n + n]
  }

  /** `rows` lists the `m` rows of the `n`-column buffer `data`: cell
      (i, j) is the float at position `i * n + j`. */
  predicate RowsOf(rows: seq<Value>, data: seq<real>, m: nat, n: nat)
  {
    |rows| == m &&
    forall i | 0 <= i < m ::
      rows[i].List? && |rows[i].items| == n &&
      forall j | 0 <= j < n :: i * n + j < |data| && rows[i].items[j] == Float(data[i * n + j])
  }

  /** The rows of an `m` × `n` buffer as a list of Python float lists. */
  function Nested(data: seq<real>, m: nat, n: nat): (rows: seq<Value>)
    requires |data| == m * n
    ensures RowsOf(rows, data, m, n)
  {
    var rows := seq(m, i requires 0 <= i < m => List(Floats(Row(data, m, n, i))));
    RowsOfRows(rows, data, m, n);
    rows
  }

  lemma RowsOfRows(rows: seq<Value>, data: seq<real>, m: nat, n: nat)
    requires |data| == m * n && |rows| == m
    requires forall i | 0 <= i < m :: rows[i] == List(Floats(Row(data, m, n, i)))
    ensures RowsOf(rows, data, m, n)
  {
    forall i | 0 <= i < m
      ensures rows[i].List? && |rows[i].items| == n
      ensures forall j | 0 <= j < n :: i * n + j < |data| && rows[i].items[j] == Float(data[i * n + j])
    {
      var row := Row(data, m, n, i);
      assert rows[i].items == Floats(row);
    }
  }

  /** `Tensor.tolist()`: a flat list for a vector, a list of rows for a
      matrix, NotImplementedError for every other rank. */
  function ToList(t: Tensor): (r: Result<Value>)
    requires |t.shape| == 1 || |t.shape| == 2 ==> Wf(t)
    ensures r.Ok? <==> |t.shape| == 1 || |t.shape| == 2
    ensures r.Err? ==> r.error == NotImplementedError("Only 1D and 2D tensors supported")
    ensures |t.shape| == 1 ==> r == Ok(List(Floats(t.data)))
    ensures |t.shape| == 2 ==> r.value.List? && RowsOf(r.value.items, t.data, t.shape[0], t.shape[1])
  {
    if |t.shape| == 1 then
      Ok(List(Floats(t.data)))
    else if |t.shape| == 2 then
      var m, n := t.shape[0], t.shape[1];
      Ok(List(Nested(t.data, m, n)))
    else Err(NotImplementedError("Only 1D and 2D tensors supported"))
  }

  // ------------------------------------------------------------------
  // Round trips between nested lists and tensors.
  // ------------------------------------------------------------------

  /** A list of float rows as the nested Python list `from_list` takes. */
  function FloatRows(rows: seq<seq<real>>): (v: seq<Value>)
    ensures |v| == |rows|
    ensures forall i | 0 <= i < |rows| :: v[i] == List(Floats(rows[i]))
  {
    seq(|rows|, i requires 0 <= i < |rows| => List(Floats(rows[i])))
  }

  /** A non-empty list of floats survives `from_list` then `tolist`. */
  lemma VectorRoundTrip(xs: seq<real>)
    requires |xs| > 0
    ensures FromList(List(Floats(xs))).Ok?
    ensures ToList(FromList(List(Floats(xs))).value) == Ok(List(Floats(xs)))
  {
  }

  /** A non-empty list of float rows of equal length `n` survives
      `from_list` then `tolist`. */
  lemma MatrixRoundTrip(rows: seq<seq<real>>, n: nat)
    requires |rows| > 0 && forall i | 0 <= i < |rows| :: |rows[i]| == n
    ensures FromList(List(FloatRows(rows))).Ok?
    ensures ToList(FromList(List(FloatRows(rows))).value) == Ok(List(FloatRows(rows)))
  {
    var v := FloatRows(rows);
    var m := |rows|;
    assert AllCells(v, n) by {
      forall i, j | 0 <= i < m && 0 <= j < n
        ensures Cell(v, i, j).Some?
      {
        assert v[i].items[j] == Float(rows[i][j]);
      }
    }
    assert |v[0].items| == n;
    var t := FromList(List(v)).value;
    assert t.data == Grid(v, n, m) && t.shape == [m, n];
    var out := ToList(t).value.items;
    assert |out| == m;
    forall i | 0 <= i < m
      ensures out[i] == v[i]
    {
      forall j | 0 <= j < n
        ensures out[i].items[j] == v[i].items[j]
      {
        GridAt(v, n, m, i, j);
        assert Cell(v, i, j) == Some(rows[i][j]);
      }
      assert out[i].items == v[i].items;
    }
    assert out == v;
  }

  /** Every vector or matrix with at least one row survives `tolist` then
      `from_list`: shape and buffer come back unchanged. */
  lemma TensorRoundTrip(t: Tensor)
    requires Wf(t) && (|t.shape| == 1 || |t.shape| == 2) && t.shape[0] > 0
    ensures ToList(t).Ok? && ToList(t).value.List? && |ToList(t).value.items| > 0
    ensures FromList(ToList(t).value) == Ok(t)
  {
    if |t.shape| == 1 {
      assert t.shape == [t.shape[0]];
    } else {
      var m, n := t.shape[0], t.shape[1];
      var v := ToList(t).value.items;
      GridOfRows(v, t.data, m, n);
      assert v[0].List? && |v[0].items| == n;
      assert t.shape == [m, n];
    }
  }

  /** Reading back the rows `tolist` printed refills the buffer they came from. */
  lemma GridOfRows(v: seq<Value>, data: seq<real>, m: nat, n: nat)
    requires |data| == m * n && RowsOf(v, data, m, n)
    ensures AllCells(v, n) && Grid(v, n, m) == data
  {
    assert AllCells(v, n) by {
      forall i, j | 0 <= i < m && 0 <= j < n
        ensures Cell(v, i, j).Some?
      {
        MixedBound(i, j, m, n);
        assert v[i].items[j] == Float(data[i * n + j]);
      }
    }
    var g := Grid(v, n, m);
    forall p | 0 <= p < m * n
      ensures g[p] == data[p]
    {
      GridPosition(v, data, m, n, p);
    }
  }

  lemma GridPosition(v: seq<Value>, data: seq<real>, m: nat, n: nat, p: nat)
    requires |data| == m * n && RowsOf(v, data, m, n) && AllCells(v, n) && p < m * n
    ensures Grid(v, n, m)[p] == data[p]
  {
    PositionSplit(p, m, n);
    var i, j := p / n, p % n;
    GridAt(v, n, m, i, j);
    assert v[i].items[j] == Float(data[i * n + j]);
  }

  // ------------------------------------------------------------------
  // The session of 02-extensions/03-tensor-ops/test.py.
  // ------------------------------------------------------------------

  /** `zeros(5)` and `zeros((2, 3))`. */
  lemma ZerosExamples()
    ensures Zeros(Int(5)) == Ok(Tensor([0.0, 0.0, 0.0, 0.0, 0.0], [5]))
    ensures Zeros(Tuple([Int(2), Int(3)])).Ok?
    ensures Zeros(Tuple([Int(2), Int(3)])).value.shape == [2, 3]
    ensures |Zeros(Tuple([Int(2), Int(3)])).value.data| == 6
  {
    SizeOfRanks(5, 0);
    assert Zeros(Int(5)).value.data == [0.0, 0.0, 0.0, 0.0, 0.0];
  }

  /** `v1 = from_list([1.0, 2.0, 3.0, 4.0])`, `v2 = from_list([5.0, 6.0, 7.0, 8.0])`:
      their sum, product and the sum of `v1`. */
  lemma VectorExamples()
    ensures FromList(List(Floats([1.0, 2.0, 3.0, 4.0]))).Ok?
    ensures FromList(List(Floats([5.0, 6.0, 7.0, 8.0]))).Ok?
    ensures var v1 := FromList(List(Floats([1.0, 2.0, 3.0, 4.0]))).value;
            var v2 := FromList(List(Floats([5.0, 6.0, 7.0, 8.0]))).value;
            Add(v1, v2) == Ok(Tensor([6.0, 8.0, 10.0, 12.0], [4])) &&
            Mul(v1, v2) == Ok(Tensor([5.0, 12.0, 21.0, 32.0], [4])) &&
            SeqSum(v1.data) == 10.0
  {
    var v1 := FromList(List(Floats([1.0, 2.0, 3.0, 4.0]))).value;
    var v2 := FromList(List(Floats([5.0, 6.0, 7.0, 8.0]))).value;
    assert v1.data == [1.0, 2.0, 3.0, 4.0];
    assert v2.data == [5.0, 6.0, 7.0, 8.0];
    assert Add(v1, v2).value.data == [6.0, 8.0, 10.0, 12.0];
    assert Mul(v1, v2).value.data == [5.0, 12.0, 21.0, 32.0];
    var xs := [1.0, 2.0, 3.0, 4.0];
    assert xs[..3] == [1.0, 2.0, 3.0] && xs[..3][..2] == [1.0, 2.0] && xs[..3][..2][..1] == [1.0];
    assert [1.0][..0] == [];
    assert SeqSum([1.0]) == 1.0;
    assert SeqSum([1.0, 2.0]) == 3.0;
    assert SeqSum([1.0, 2.0, 3.0]) == 6.0;
  }

  /** `matmul(m1, m2).tolist()` for m1 = [[1, 2], [3, 4]], m2 = [[5, 6], [7, 8]]. */
  lemma MatmulExample()
    ensures FromList(List(FloatRows([[1.0, 2.0], [3.0, 4.0]]))).Ok?
    ensures FromList(List(FloatRows([[5.0, 6.0], [7.0, 8.0]]))).Ok?
    ensures var m1 := FromList(List(FloatRows([[1.0, 2.0], [3.0, 4.0]]))).value;
            var m2 := FromList(List(FloatRows([[5.0, 6.0], [7.0, 8.0]]))).value;
            Matmul(m1, m2).Ok? &&
            ToList(Matmul(m1, m2).value) == Ok(List(FloatRows([[19.0, 22.0], [43.0, 50.0]])))
  {
    FromRows([[1.0, 2.0], [3.0, 4.0]]);
    FromRows([[5.0, 6.0], [7.0, 8.0]]);
    assert [1.0, 2.0] + [3.0, 4.0] == [1.0, 2.0, 3.0, 4.0];
    assert [5.0, 6.0] + [7.0, 8.0] == [5.0, 6.0, 7.0, 8.0];
    assert [19.0, 22.0] + [43.0, 50.0] == [19.0, 22.0, 43.0, 50.0];
    MatmulLiteral();
    TensorFromRows([[19.0, 22.0], [43.0, 50.0]], Tensor([19.0, 22.0, 43.0, 50.0], [2, 2]));
  }

  lemma MatmulLiteral()
    ensures Matmul(Tensor([1.0, 2.0, 3.0, 4.0], [2, 2]), Tensor([5.0, 6.0, 7.0, 8.0], [2, 2])) ==
            Ok(Tensor([19.0, 22.0, 43.0, 50.0], [2, 2]))
  {
    var m1, m2 := Tensor([1.0, 2.0, 3.0, 4.0], [2, 2]), Tensor([5.0, 6.0, 7.0, 8.0], [2, 2]);
    var c := Matmul(m1, m2).value;
    MatmulAt(m1, m2, 0, 0);
    MatmulAt(m1, m2, 0, 1);
    MatmulAt(m1, m2, 1, 0);
    MatmulAt(m1, m2, 1, 1);
    assert c.data == [19.0, 22.0, 43.0, 50.0];
  }

  /** A 2 × 2 nested list of floats is stored row by row. */
  lemma FromRows(rows: seq<seq<real>>)
    requires |rows| == 2 && |rows[0]| == 2 && |rows[1]| == 2
    ensures FromList(List(FloatRows(rows))) == Ok(Tensor(rows[0] + rows[1], [2, 2]))
  {
    var v := List(FloatRows(rows));
    MatrixRoundTrip(rows, 2);
    var t := FromList(v).value;
    FromListAt(v, 0, 0);
    FromListAt(v, 0, 1);
    FromListAt(v, 1, 0);
    FromListAt(v, 1, 1);
    assert t.data == rows[0] + rows[1];
  }

  /** A 2 × 2 tensor prints as the list of its rows. */
  lemma TensorFromRows(rows: seq<seq<real>>, t: Tensor)
    requires |rows| == 2 && |rows[0]| == 2 && |rows[1]| == 2
    requires t == Tensor(rows[0] + rows[1], [2, 2])
    ensures Wf(t) && ToList(t) == Ok(List(FloatRows(rows)))
  {
    assert Wf(t);
    var out := ToList(t).value.items;
    assert RowsOf(out, t.data, 2, 2);
    forall i | 0 <= i < 2
      ensures out[i] == FloatRows(rows)[i]
    {
      forall j | 0 <= j < 2
        ensures out[i].items[j] == Float(rows[i][j])
      {
        assert out[i].items[j] == Float(t.data[i * 2 + j]);
      }
      assert out[i].items == Floats(rows[i]);
    }
    assert out == FloatRows(rows);
  }
}
